=== FILE: README.md ===
# UTheme core, modelled in Dafny

UTheme is a Wii U homebrew theme manager. This project models the sequential
decision logic at its centre and proves properties of it:

- the remote-notice dedup cache: the show/suppress rule, the upsert that marks
  a notice as shown, the `id:version:count` cache file, and the loop over a
  downloaded `messages` array (`RemoteNotification`);
- the theme catalogue: reading the Themezer GraphQL answer into theme
  records, the short id taken from the download URL, the JSON theme cache and
  its round trip, the background update check and the 24-hour cache-age rule
  (`ThemeCatalog`);
- the catalogue fetch state machine and the downloader's deferred disposal
  (`ThemeDownloads`);
- the two-column language grid shared by the first-run screen and the
  settings dialog (`LanguageGrid`);
- the settings list with its wrap-around and hold-to-repeat counter, the
  language dialog, and the case-insensitive name match used by the cache
  clear (`SettingsScreen`);
- the start-up state machine of the main screen (`MainScreen`);
- the draggable back button (`BackButton`);
- the language table: JSON flattening to dotted keys, text lookup with
  fallback, and the choice of the current language and font
  (`LanguageManager`);
- the notification stack's placement rule (`BgmNotification`).

Shared pieces live in `Common` (`Option`, `Outcome`, 32-bit bounds), `Json`
(an abstract JSON value with rapidjson's first-match member lookup) and `Text`
(character search, line splitting, decimal printing, `std::stoi`, and C-string
truncation at the first NUL).

Modelling conventions:

- JSON documents are values of the `Json` datatype. Text, escaping and the
  parser are outside the model: a body that fails to parse is `None`.
- A rapidjson call whose precondition fails (a `GetString` on a non-string, a
  `HasMember` on a non-object) has no defined behaviour in the program. The
  model returns `Undefined` there instead of inventing a result.
- `std::string` built from a `const char*` stops at the first NUL. `Text.CStr`
  models this, so round trips are stated for NUL-free strings.
- Clocks, Mocha, mount results, the touch panel, the download queue's answers
  and file contents are parameters of the functions that use them.
- Integers are unbounded. The cache formats carry counts through `int`, so
  their round trips require 32-bit values (`IsInt32`).
- The notice cache is the text of `shown_notifications.txt`, carried
  through the message loop the way the program rereads and rewrites it for
  every decision and every mark. An in-memory loop (`ShowAndMark`) is the
  reference. The two agree while ids and versions lack ':' and newlines
  (`FileMatchesMemory`). A shown id holding ':' is written as a line whose
  reload throws in `std::stoi`, so the next message's decision is undefined
  (`ColonIdBreaksReload`). A version holding ':' comes back cut at that
  colon only when the text after it starts with a 32-bit decimal, which is
  then read as the count; otherwise `std::stoi` throws on the reload and
  the next decision is undefined, as for an id holding ':'.

## Model

| member | source | states |
|---|---|---|
| RemoteNotification.FindEntryFrom | source/utils/RemoteNotification.cpp:144-145 | the scan finds the first entry with the id, and none before it; `None` exactly when no entry has the id |
| RemoteNotification.ShouldShowMessage | source/utils/RemoteNotification.cpp:139-195 | an "update" notice is shown iff its version is empty or differs from the client's; any other notice is shown when unseen, and otherwise iff the limit is 0 or the first entry's count is below it |
| RemoteNotification.UpdateGateIgnoresCache | source/utils/RemoteNotification.cpp:149-163 | for "update" notices the answer does not depend on the cache contents or on the display limit |
| RemoteNotification.MarkAsShown | source/utils/RemoteNotification.cpp:197-222 | a cached id keeps the list length, and its first entry gets the new version and the count plus one; an unseen id is appended as (id, version, 1) |
| RemoteNotification.MarkAsShownCountsOnce | source/utils/RemoteNotification.cpp:201-219 | each mark raises the sum of all counts by exactly one |
| RemoteNotification.MarkAsShownKeepsIds | source/utils/RemoteNotification.cpp:201-219 | marking never drops or reorders entries, never lowers a count, and leaves the id cached |
| RemoteNotification.MarkIncrementsCount | source/utils/RemoteNotification.cpp:202-218 | the count the scan sees for the id rises by exactly one, starting from 0 for an unseen id |
| RemoteNotification.MarkTimesCount | source/utils/RemoteNotification.cpp:202-218 | after n marks of an unseen id its count is n |
| RemoteNotification.ShownUntilLimit | source/utils/RemoteNotification.cpp:166-176 | a non-update notice marked n times is shown again iff the limit is 0, the limit exceeds n, or n is 0 |
| RemoteNotification.EntryLines | source/utils/RemoteNotification.cpp:279-281 | one `id:version:count` line per entry, in order |
| RemoteNotification.ParseLegacyId | source/utils/RemoteNotification.cpp:238-243 | a line without a colon is an id with empty version and count 1 |
| RemoteNotification.ParseLegacyIdVersion | source/utils/RemoteNotification.cpp:244-250 | a line with one colon is id and version, count 1 |
| RemoteNotification.ParseFullLine | source/utils/RemoteNotification.cpp:251-255 | with two colons the count is `std::stoi` of the text after the second one; a failed conversion is an error, not a skipped line |
| RemoteNotification.EntryLineRoundTrip | source/utils/RemoteNotification.cpp:237-258 | a written line is non-empty, has no newline, and parses back to the same entry |
| RemoteNotification.CacheRoundTrip | source/utils/RemoteNotification.cpp:224-284 | loading what `SaveCache` wrote gives back every (id, version, count) in order, when fields lack ':' and newlines and counts fit 32 bits |
| RemoteNotification.FileBackedDecision | source/utils/RemoteNotification.cpp:139-222 | when every entry's id and version lack ':' and newlines and its count fits 32 bits, deciding and marking against the re-read file gives the same answer and the same rewritten file as against the entries in memory |
| RemoteNotification.ReadMessage | source/utils/RemoteNotification.cpp:91-99 | a message object lacking id or text is skipped; the defaults are type "info", empty title and version, 5000 ms, limit 1 |
| RemoteNotification.SeverityOf | source/utils/RemoteNotification.cpp:112-119 | "warning" and "error" get their own styles; every other type, "update" included, is shown as info |
| RemoteNotification.ShowAndMark | source/utils/RemoteNotification.cpp:88-124 | the reference loop with the cache in memory: every notice shown is marked, so the total count rises by exactly the number shown, which is at most the number of messages; earlier entries keep their ids and never lose count |
| RemoteNotification.ShouldShowFromFile | source/utils/RemoteNotification.cpp:139-141 | the decision is defined exactly when the cache file loads |
| RemoteNotification.MarkInFile | source/utils/RemoteNotification.cpp:197-221 | the mark is defined exactly when the cache file loads; a file that cannot be opened for writing stays as it was |
| RemoteNotification.ProcessMessages | source/utils/RemoteNotification.cpp:88-124 | the loop as the program runs it, rereading the file for each decision and mark: at most one notice per message, and a file that cannot be written is left as it was |
| RemoteNotification.ProcessFirstMessage | source/utils/RemoteNotification.cpp:88-124 | a readable message is shown, with its severity, text, duration and title, in front of what the rest of the loop shows after the mark, exactly when the cache read from the file allows it; otherwise the rest runs on the same file; a file that does not load makes the loop undefined |
| RemoteNotification.FileMatchesMemory | source/utils/RemoteNotification.cpp:139-222 | for storable ids, versions and entries with room for the counts, the file-backed loop shows exactly the reference loop's notices and leaves a file that loads to the reference's final cache |
| RemoteNotification.MarkedFile | source/utils/RemoteNotification.cpp:197-222 | with a writable file and entries the line format can carry, the rewritten file loads back to exactly the marked entries |
| RemoteNotification.ShownFromFile | source/utils/RemoteNotification.cpp:98-124 | when the decision read from the file shows a message, the file loop puts its notice in front of what the rest of the loop shows on the rewritten file |
| RemoteNotification.ShownFromMemory | source/utils/RemoteNotification.cpp:98-124 | when the cache allows a message, the reference loop puts its notice in front of what the rest of the loop shows on the marked cache |
| RemoteNotification.ColonIdWritesBadLine | source/utils/RemoteNotification.cpp:251-254 | the entry for id `x:y` is written as `x:y::1`, and reloading that line fails in `std::stoi` |
| RemoteNotification.ColonIdBreaksReload | source/utils/RemoteNotification.cpp:88-124 | with an id holding ':' followed by a second message, the program's loop is undefined while the in-memory loop shows both |
| RemoteNotification.FetchAndShow | source/utils/RemoteNotification.cpp:59-88 | a failed download, a non-200 status, a parse error or a missing `messages` array shows nothing and leaves the file as it was; otherwise the loop runs over the array |
| RemoteNotification.ShownTwiceThenSuppressed | source/utils/RemoteNotification.cpp:88-124 | a message allowed twice is shown by the first two fetches and suppressed by the third |
| Text.FindChar | source/utils/RemoteNotification.cpp:238 | `find` of a character: the first position at or after the start, or none |
| Text.SplitJoin | source/utils/RemoteNotification.cpp:233 | reading back lines written one per line with a newline after each gives the same lines |
| Text.StoiIntToString | source/utils/RemoteNotification.cpp:254 | `std::stoi` of a printed 32-bit count gives the count |
| Text.CStr | source/utils/ThemeManager.cpp:571-588 | the C-string view is the prefix up to the first NUL, and a NUL-free string is its own view |
| ThemeCatalog.ExtractShortId | source/utils/ThemeManager.cpp:300-306 | without the `/wiiu/themes/` marker the short id is empty; a non-empty short id has no '/' and sits between the marker and a following '/' |
| ThemeCatalog.ShortIdOfDownloadUrl | source/utils/ThemeManager.cpp:300-306 | a URL of the form prefix, marker, id, '/', rest yields exactly that id |
| ThemeCatalog.ParseNode | source/utils/ThemeManager.cpp:230-319 | a node's theme has version "1.0", the short id of its download URL, and only NUL-free strings |
| ThemeCatalog.KeepNodes | source/utils/ThemeManager.cpp:224-326 | only themes with a non-empty id and name are kept, each with version "1.0" |
| ThemeCatalog.KeepNodesAppend | source/utils/ThemeManager.cpp:224-326 | the filter distributes over concatenation, so node order is kept |
| ThemeCatalog.KeepNodesSingle | source/utils/ThemeManager.cpp:226-228 | a node contributes its theme exactly when it is an object with a non-empty id and name |
| ThemeCatalog.ParseThemezerResponse | source/utils/ThemeManager.cpp:171-334 | a missing or mistyped data/wiiuThemes/nodes path gives false and an empty list; otherwise the list is the kept nodes in order, and the result is true iff the list is non-empty |
| ThemeCatalog.SerializeThemes | source/utils/ThemeManager.cpp:562-610 | the cache document is an object whose `themes` array holds one written object per theme, in order |
| ThemeCatalog.DeserializeThemes | source/utils/ThemeManager.cpp:623-741 | without a `themes` array the result is false and the list is untouched; otherwise the list becomes exactly the kept entries, in order, and the result is true iff any were kept |
| ThemeCatalog.CachedTagsAllStrings | source/utils/ThemeManager.cpp:715-722 | a tags array of strings gives each string, cut at its first NUL, one for one and in order |
| ThemeCatalog.CachedTagsNoStrings | source/utils/ThemeManager.cpp:715-722 | entries that are not strings give no tags |
| ThemeCatalog.CachedTagsAppend | source/utils/ThemeManager.cpp:715-722 | the tag filter distributes over concatenation, so tag order is kept |
| ThemeCatalog.KeepCached | source/utils/ThemeManager.cpp:658-731 | every kept theme has an id and a name |
| ThemeCatalog.KeepCachedAllKept | source/utils/ThemeManager.cpp:658-731 | when every entry is an object with an id and a name, the list holds their themes one for one, in order |
| ThemeCatalog.KeepCachedNoneKept | source/utils/ThemeManager.cpp:660-729 | entries that are not objects, or lack an id or a name, give an empty list |
| ThemeCatalog.KeepCachedSingle | source/utils/ThemeManager.cpp:660-729 | a single entry contributes its theme exactly when it is an object with an id and a name |
| ThemeCatalog.KeepCachedAppend | source/utils/ThemeManager.cpp:658-731 | the entry filter distributes over concatenation, so entry order is kept |
| ThemeCatalog.ThemeRoundTrip | source/utils/ThemeManager.cpp:566-610 | reading a written theme object gives back the same theme, field for field, tags and image URLs included |
| ThemeCatalog.CacheRoundTrip | source/utils/ThemeManager.cpp:658-732 | loading the saved cache restores the list exactly and answers true iff it is non-empty |
| ThemeCatalog.FetchedThemesSurviveCache | source/utils/ThemeManager.cpp:554-741 | whatever a fetch parsed, saving and reloading it gives the same list and the same answer |
| ThemeCatalog.FindTheme | source/utils/ThemeManager.cpp:982-990 | the local scan finds the first theme with the id, or reports none |
| ThemeCatalog.ScanNodes | source/utils/ThemeManager.cpp:970-998 | the scan answers true iff some remote node has string uuid and updatedAt and is missing locally or dated differently |
| ThemeCatalog.CheckForUpdates | source/utils/ThemeManager.cpp:925-1005 | nothing happens while a check runs or with an empty list; otherwise the checking flag is false on every way out, and updates are reported iff some remote node signals one |
| ThemeCatalog.UnknownThemeIsUpdate | source/utils/ThemeManager.cpp:993-997 | a remote theme the local list lacks is an update |
| ThemeCatalog.CurrentListHasNoUpdates | source/utils/ThemeManager.cpp:970-998 | a local list that matches every remote node reports no update |
| ThemeCatalog.IsCacheValid | source/utils/ThemeManager.cpp:899-922 | valid iff the file exists and the current time lies in the day that starts at its modification time |
| ThemeCatalog.CacheLifetime | source/utils/ThemeManager.cpp:908-913 | valid at the write time and 86399 seconds later, invalid 86400 seconds later and one second before; never valid without a file |
| ThemeDownloads.FetchThemes | source/utils/ThemeManager.cpp:336-364 | ignored while a fetch is in progress, with no notice; otherwise it first announces "Fetching themes..."; without a queue it then ends in FETCH_ERROR "DownloadQueue not initialized" and reports that too; otherwise it stays in progress with a request queued; the last notice always carries the final state |
| ThemeDownloads.OnFetchComplete | source/utils/ThemeManager.cpp:373-405 | FETCH_SUCCESS iff the transfer completed with a non-empty body that parses to a non-empty list, else FETCH_ERROR, with "Failed to parse theme data" after a received body and "Network request failed" otherwise; exactly one notice reports the final state and its message; the pending request is cleared either way |
| ThemeDownloads.NoSecondFetchWhilePending | source/utils/ThemeManager.cpp:337-341 | a second fetch while one is queued queues and announces nothing |
| ThemeDownloads.FetchRoundCompletes | source/utils/ThemeManager.cpp:336-405 | a started fetch always leaves the in-progress state when it completes |
| ThemeDownloads.RunFetches | source/utils/ThemeManager.cpp:336-405 | any run of requests and answers keeps "a request is queued" equal to "the state is in progress" |
| ThemeDownloads.FetchRunAlternates | source/utils/ThemeManager.cpp:336-405 | over any run, requests queued equal answers taken, give or take the one outstanding, so at most one request is queued at a time; the list changes only through answers |
| ThemeDownloads.DownloadTheme | source/utils/ThemeManager.cpp:419-483 | an empty URL only reports an error; otherwise the old downloader is deleted at once, the flag cleared, a new one created, with the short id or else the id as theme id |
| ThemeDownloads.OnDownloadState | source/utils/ThemeManager.cpp:459-475 | the callback deletes nothing; it raises the cleanup flag exactly on complete, error or cancelled |
| ThemeDownloads.PollDownloadState | source/utils/ThemeManager.cpp:492-508 | a flagged downloader is deleted once, the flag cleared and idle answered; without the flag nothing changes |
| ThemeDownloads.SecondPollDeletesNothing | source/utils/ThemeManager.cpp:494-507 | a poll after the deferred delete deletes nothing and answers idle |
| ThemeDownloads.Dispose | source/utils/ThemeManager.cpp:78-111 | the destructor deletes nothing; a live downloader is left behind, and every downloader made is accounted as deleted or left |
| ThemeDownloads.RunSlot | source/utils/ThemeManager.cpp:419-508 | in any order of starts, reports and polls, deletions plus leftovers never exceed creations, and the flag only stands for a live downloader |
| ThemeDownloads.NoDoubleDelete | source/utils/ThemeManager.cpp:78-111 | after any run from an empty slot and then the destructor, every downloader created has been deleted once or left behind |
| LanguageGrid.ItemsPerColumn | source/screens/SettingsScreen.cpp:556 | the left column holds half the languages, rounded up |
| LanguageGrid.CellOf | source/screens/SettingsScreen.cpp:571-572 | an index below n maps to column 0 or 1 and a row inside the column, and back to the same index |
| LanguageGrid.CellOfIsDivMod | source/screens/SettingsScreen.cpp:571-572 | the cell is the quotient and remainder of the index by the rows per column |
| LanguageGrid.RightColumnItems | source/screens/SettingsScreen.cpp:659 | the right column holds n/2 languages |
| LanguageGrid.CellIndexBijection | source/screens/SettingsScreen.cpp:571-572 | cells on the grid and indexes below n correspond one to one |
| LanguageGrid.MoveUp | source/screens/SettingsScreen.cpp:630-637 | stays on the grid, goes to the previous index, and does nothing at index 0 |
| LanguageGrid.MoveDown | source/screens/SettingsScreen.cpp:638-648 | stays on the grid, goes to the next index, and does nothing on the last one |
| LanguageGrid.MoveLeft | source/screens/SettingsScreen.cpp:651-657 | from the right column, the same row on the left; otherwise nothing |
| LanguageGrid.MoveRight | source/screens/SettingsScreen.cpp:658-667 | to the same row on the right, clamped to its last row, when it has items; otherwise nothing |
| LanguageGrid.UpUndoesDown | source/screens/SettingsScreen.cpp:630-648 | up undoes down everywhere but on the last language |
| LanguageGrid.MovesFollowIndex | source/screens/SettingsScreen.cpp:629-668 | each cell move lands on the list index one before, one after, one column left or one column right, clamped at the ends |
| LanguageGrid.Selected | source/screens/SettingsScreen.cpp:672-673 | A applies a language only when the computed index is in range |
| LanguageGrid.TouchCard | source/screens/SettingsScreen.cpp:559-591 | the first frame on a card confirms it when it is selected and selects it otherwise; a held touch does nothing more, and a release unlatches |
| LanguageGrid.TouchKeepsGrid | source/screens/SettingsScreen.cpp:568-591 | touching keeps the selection on the grid |
| LanguageGrid.TapTwiceConfirms | source/screens/SettingsScreen.cpp:570-584 | two taps on a card, with a release between them, confirm it |
| LanguageGrid.LatchedHoldIsInert | source/screens/SettingsScreen.cpp:570-587 | once latched, a continued touch changes no selection and confirms nothing |
| LanguageGrid.HeldTouchActsOnce | source/screens/SettingsScreen.cpp:570-587 | a touch that starts unlatched confirms at most one card; its first frame on a card alone decides the selection and the confirmation, and frames before it, off every card, do nothing |
| SettingsScreen.HoldRepeat | source/screens/SettingsScreen.cpp:468-490 | a press moves at once and restarts the count; a hold counts up and moves when the count fires; with no direction the count restarts |
| SettingsScreen.HoldRepeatCount | source/screens/SettingsScreen.cpp:471-477 | holding after a press moves once at frame 30 (the header's delay) and every 8 frames after (its rate): the number of moves is exactly the number of firing frames |
| SettingsScreen.WrapUp | source/screens/SettingsScreen.cpp:492-493 | up stays in the list and wraps from the first entry to the last |
| SettingsScreen.WrapDown | source/screens/SettingsScreen.cpp:494-495 | down stays in the list and wraps from the last entry to the first |
| SettingsScreen.WrapInverse | source/screens/SettingsScreen.cpp:492-496 | up and down undo each other |
| SettingsScreen.WrapDownCycle | source/screens/SettingsScreen.cpp:494-495 | k steps down land on (i + k) mod 6, so six steps return to the start |
| SettingsScreen.ActionOf | source/screens/SettingsScreen.cpp:499-541 | A acts on every entry except the download path |
| SettingsScreen.ListStep | source/screens/SettingsScreen.cpp:434-541 | the back button or B leaves; otherwise the selection moves as the counter says, wrapping, and A acts on the entry now selected |
| SettingsScreen.DialogMoves | source/screens/SettingsScreen.cpp:629-668 | the selection stays on the grid; the counter's step moves one language up or down, stopping at either end; a left press in the right column or a right press in the left column then switches column and restarts the counter, and otherwise the counter is kept |
| SettingsScreen.DialogStep | source/screens/SettingsScreen.cpp:546-682 | B only closes the dialog and restarts the count; otherwise the dialog stays open exactly when nothing is applied; a touch confirmation is applied first, A with a valid selection applies it after that, and the pad moves the selection as DialogMoves states; every applied index is a language |
| SettingsScreen.DialogKeepsInvariant | source/screens/SettingsScreen.cpp:546-682 | the dialog keeps the selection on the grid frame after frame |
| SettingsScreen.CaseInsensitiveEqual | source/screens/SettingsScreen.cpp:688-695 | equal iff both C strings have the same length and agree letter by letter under ASCII `tolower` |
| SettingsScreen.MatchingNames | source/screens/SettingsScreen.cpp:740-770 | the entries picked are exactly those equal to the target up to case, each once, in listing order (the `Matching` filter) |
| MainScreen.IndexOfCode | source/screens/MainScreen.cpp:377-384 | the first index whose code is the saved one, or none when it is not listed |
| MainScreen.PadMoves | source/screens/MainScreen.cpp:297-339 | the four pad moves keep the selection on the grid |
| MainScreen.PadMovesFollowIndex | source/screens/MainScreen.cpp:297-339 | the pad lands on the language the list-index moves give for up, then down, then left, then right, each clamped at the ends |
| MainScreen.SelectLanguage | source/screens/MainScreen.cpp:257-356 | the grid selection stays on the grid; the latch follows the touch; the new cell is the pad moves applied to the touched cell; a touch confirmation is the first choice; without A it is the only one, and A chooses the selected cell after it; the screen moves on to Mocha iff a language was chosen |
| MainScreen.Step | source/screens/MainScreen.cpp:251-441 | once the menu exists every frame is delegated to it; while failed only A in the Mocha stage moves on, to the menu; the menu is created only in the load stage; a saved language is loaded and selected; Mocha success marks it available and goes to the mount, failure flags; without Mocha the mount stage goes to the menu; the plugin stage always goes to the menu and checks the plugin only with Mocha |
| MainScreen.StepInvariants | source/screens/MainScreen.cpp:367-441 | the stage never goes back, and failure is only raised in the Mocha and mount stages |
| MainScreen.InitChoosesPath | source/screens/MainScreen.cpp:370-391 | a saved language goes to Mocha; none opens the picker |
| MainScreen.MochaFailureThenContinue | source/screens/MainScreen.cpp:397-408 | a Mocha failure sets the failure flag and stays; A then goes straight to the menu |
| MainScreen.MountFailureIsFinal | source/screens/MainScreen.cpp:359-365 | after a mount failure no input moves the screen on |
| MainScreen.MountRetry | source/screens/MainScreen.cpp:410-428 | with Mocha the mount succeeds directly or after one retry on "already exists"; otherwise failure |
| MainScreen.DeinitOnExit | source/screens/MainScreen.cpp:17-21 | Mocha is shut down only if it came up and start-up is past its stage |
| MainScreen.MochaImpliesPastInit | source/screens/MainScreen.cpp:397-402 | Mocha being available implies the stage is past the Mocha stage, so the destructor's second test never decides |
| MainScreen.HappyStart | source/screens/MainScreen.cpp:367-440 | with a saved language, Mocha and a clean mount, the menu is created on the fifth frame |
| BackButton.Clamp | source/Screen.cpp:240-243 | the coordinate ends in range, unchanged when already inside |
| BackButton.Step | source/Screen.cpp:200-270 | "back" iff a release follows a press that never became a drag; a new touch inside the circle presses with one frame held, outside clears; the button moves only while dragging |
| BackButton.DragFollowsFinger | source/Screen.cpp:230-243 | while dragging, the grab point stays under the finger unless the screen edge stops it |
| BackButton.TapGoesBack | source/Screen.cpp:215-261 | a tap on the circle goes back |
| BackButton.LongPressDoesNotGoBack | source/Screen.cpp:230-256 | holding for the threshold starts a drag, and its release does not go back |
| BackButton.HoldCounts | source/Screen.cpp:229-237 | a continued press counts frames and starts dragging at 15 |
| BackButton.AlwaysOnScreen | source/Screen.cpp:159-166 | starting from (1820, 100), the circle is on screen after any sequence of touches |
| BackButton.RunKeepsOnScreen | source/Screen.cpp:240-243 | a button on screen stays on screen over any run |
| LanguageManager.JoinKey | source/utils/LanguageManager.cpp:47 | a nested key is the parent key, a dot and the name; top-level keys have no dot |
| LanguageManager.FlattenIsAssign | source/utils/LanguageManager.cpp:44-54 | the recursive walk stores exactly the string leaves, in document order |
| LanguageManager.AssignLast | source/utils/LanguageManager.cpp:51 | a key holds the last value stored under it |
| LanguageManager.TableHoldsLastLeaf | source/utils/LanguageManager.cpp:30-63 | a key is in the table iff some string leaf has that dotted key, and it holds the last such leaf's text |
| LanguageManager.FlattenExample | source/utils/LanguageManager.cpp:44-56 | nested objects join with a dot, and numbers and arrays are ignored |
| LanguageManager.ListMatchesFiles | source/utils/LanguageManager.cpp:76-153 | a code is on the language list iff it has a built-in file |
| LanguageManager.GetText | source/utils/LanguageManager.cpp:199-208 | the text for the key, or the key itself |
| LanguageManager.LoadLanguage | source/utils/LanguageManager.cpp:107-197 | succeeds iff the code is built in, its file is non-empty and its table is non-empty; success makes it current and picks the CJK font exactly for zh-cn, zh-tw, ja-jp and ko-kr; failure keeps the current language |
| LanguageManager.SetCurrentLanguage | source/utils/LanguageManager.cpp:210-215 | the language changes and is saved only when it loads |
| LanguageManager.LoadSettings | source/utils/LanguageManager.cpp:217-238 | the configured code when listed, else "zh-cn"; nothing else changes |
| LanguageManager.Initialize | source/utils/LanguageManager.cpp:72-105 | tries the configured language, then en-us, then zh-cn, and always reports success |
| LanguageManager.SavedLanguageWins | source/utils/LanguageManager.cpp:93-96 | a valid saved language whose file loads becomes current, with its font |
| LanguageManager.UnknownSavedFallsBack | source/utils/LanguageManager.cpp:230-236 | an unknown saved language falls back to zh-cn when that file loads |
| BgmNotification.NextY | source/utils/BgmNotification.cpp:38-51 | the new y is 140 or the bottom of some existing toast plus the gap, and lies below every existing one |
| BgmNotification.AddNotification | source/utils/BgmNotification.cpp:25-61 | one toast appended, the others untouched; it shows for 4000 ms, a music toast keeps title and artist, others keep the text as message; an empty stack puts it at 140 |
| BgmNotification.ShowNowPlaying | source/utils/BgmNotification.cpp:13-15 | appends a music toast with the given title and artist |
| BgmNotification.ShowError | source/utils/BgmNotification.cpp:17-19 | appends an error toast with the message |
| BgmNotification.ShowInfo | source/utils/BgmNotification.cpp:21-23 | appends an info toast with the message |
| BgmNotification.AddKeepsStacked | source/utils/BgmNotification.cpp:40-48 | adding keeps every toast at least a toast height and a gap below all earlier ones, so none overlap |

## Left out

- Networking and files: curl, `FetchUrl`, the download queue worker and its
  threads, image downloads, `SaveThemeMetadata`, directory removal, and the
  file reads and writes. Their results are inputs; the serialise and parse
  functions around them are modelled.
- JSON text: escaping, pretty printing and rapidjson's parser. Documents are
  abstract `Json` values.
- Drawing, animation, colours and fonts, and `BgmNotification` `Update`/`Hide`,
  which depend on float animation values and tick clocks.
- The float touch scaling and the rectangle hit test of the language cards.
  The grid takes the touched card as input, and the back button takes integer
  screen coordinates.
- Mocha, `nn::ac`, `SYSLaunchMenu`, the style-plugin download and OS time are
  inputs or effects. The settings screen's two-second exit timer is not
  modelled.
- `SwkbdManager`: a thin wrapper over the system keyboard.
- `ThemeManager.hpp`, `Gfx.hpp` and the downloader's header are not part of
  this model. Theme counts default to 0, the screen is taken as 1920x1080, and
  the downloader's states are reduced to idle, busy, complete, error and
  cancelled.
- The start-up stage enum in `source/screens/MainScreen.hpp` lacks the
  style-plugin stage that the .cpp uses. The stage set follows the .cpp, with
  that stage between the mount and the menu.
- `BgmNotification.hpp` declares signatures that differ from the .cpp. The
  .cpp is modelled. `ShowWarning`, which the notice loop calls, is defined in
  neither file; the loop only reports the severity.
- The back button's drag-start coordinates are stored but never read, and
  are not modelled.
- RemoteNotification.ReadMessage: strings are taken whole, without the cut
  at the first NUL that `GetString` into `std::string` performs.
- RemoteNotification.MarkAsShown: counts are unbounded integers. A count
  raised past the 32-bit maximum, undefined in C++, is written in full and
  then fails `std::stoi` on the next load.
- RemoteNotification.ProcessMessages: the message's `title` and duration are
  passed on but not checked against what the notification surface does with
  them.
- ThemeDownloads.DownloadTheme: `Cancel()` on the old downloader may fire its
  state callback at once; that callback is not modelled, since the flag is
  cleared right after anyway.
- ThemeDownloads.Dispose: the fetch request that the destructor abandons is
  not counted.
- SettingsScreen.ListStep: the configuration toggles and the cache clear are
  returned as actions, not carried out.
- SettingsScreen.MatchingNames: picks names only. The `stat`/`S_ISDIR`
  test the program makes before removing a picked folder needs the file
  system and is not modelled.
- SettingsScreen.DialogStep: chosen languages are returned as indexes. Their
  effect through `SetCurrentLanguage` is covered by that function's own
  contract.
- MainScreen.Step: language choices, the saved language load and the plugin
  check are returned as effects, not carried out.
- SettingsScreen.HoldRepeat: the frame counters are unbounded integers; the
  32-bit wrap-around after about a year of holding is not modelled.
- BgmNotification.NextY: y positions are unbounded integers; 32-bit overflow
  is not modelled.

=== FILE: back_button.dfy ===
/**
 * The floating back button shared by every screen: a tap on the circle
 * means "back", a press held for a quarter of a second turns into a drag
 * that moves the circle, clamped to the screen.
 */
module BackButton {

  const Radius: int := 35
  const HoldThreshold: int := 15
  const ScreenWidth: int := 1920
  const ScreenHeight: int := 1080

  /** The button's state: its centre, the drag flags and the grab offset. */
  datatype Button = Button(x: int, y: int, dragging: bool, pressed: bool,
                           offsetX: int, offsetY: int, holdFrames: int)

  const Initial := Button(1820, 100, false, false, 0, 0, 0)

  /** The whole circle is on screen. */
  predicate OnScreen(b: Button) {
    Radius <= b.x <= ScreenWidth - Radius && Radius <= b.y <= ScreenHeight - Radius
  }

  /**
   * The touch panel this frame, in screen pixels: whether it is touched
   * with a valid point now, whether it was touched last frame, and where.
   */
  datatype Panel = Panel(touched: bool, wasTouched: bool, x: int, y: int)

  /** Inside the circle, edge included. */
  predicate Hits(b: Button, px: int, py: int) {
    (px - b.x) * (px - b.x) + (py - b.y) * (py - b.y) <= Radius * Radius
  }

  /** Bring `v` into `[lo, hi]`, checking the low bound first. */
  function Clamp(v: int, lo: int, hi: int): (r: int)
    requires lo <= hi
    ensures lo <= r <= hi
    ensures lo <= v <= hi ==> r == v
    ensures v < lo ==> r == lo
    ensures v > hi ==> r == hi
  {
    var low := if v < lo then lo else v;
    if low > hi then hi else low
  }

  datatype Update = Update(after: Button, back: bool)

  /** One frame. `back` is the screen's cue to go back. */
  function Step(b: Button, p: Panel): (r: Update)
    ensures OnScreen(b) ==> OnScreen(r.after)
    ensures r.back <==> !p.touched && b.pressed && !b.dragging
    ensures !p.touched ==> r.after == b.(dragging := false, pressed := false, holdFrames := 0)
    ensures p.touched && !p.wasTouched && Hits(b, p.x, p.y) ==>
      r.after == b.(pressed := true, holdFrames := 1, offsetX := p.x - b.x, offsetY := p.y - b.y)
    ensures p.touched && !p.wasTouched && !Hits(b, p.x, p.y) ==> r.after == b.(pressed := false, holdFrames := 0)
    ensures r.after.dragging && !b.dragging ==> p.touched && p.wasTouched && b.pressed && b.holdFrames + 1 >= HoldThreshold
    ensures (r.after.x, r.after.y) != (b.x, b.y) ==> r.after.dragging && p.touched && p.wasTouched
  {
    if p.touched then
      if !p.wasTouched then
        if Hits(b, p.x, p.y) then
          Update(b.(pressed := true, holdFrames := 1, offsetX := p.x - b.x, offsetY := p.y - b.y), false)
        else
          Update(b.(pressed := false, holdFrames := 0), false)
      else if b.pressed then
        var held := b.holdFrames + 1;
        if held >= HoldThreshold then
          Update(b.(holdFrames := held, dragging := true,
                    x := Clamp(p.x - b.offsetX, Radius, ScreenWidth - Radius),
                    y := Clamp(p.y - b.offsetY, Radius, ScreenHeight - Radius)), false)
        else
          Update(b.(holdFrames := held), false)
      else
        Update(b, false)
    else
      Update(b.(dragging := false, pressed := false, holdFrames := 0), b.pressed && !b.dragging)
  }

  /** While dragging, the circle keeps the grab point under the finger unless that would push it off screen. */
  lemma DragFollowsFinger(b: Button, p: Panel)
    requires p.touched && p.wasTouched && b.pressed && b.holdFrames + 1 >= HoldThreshold
    ensures var a := Step(b, p).after;
      a.dragging
      && (Radius <= p.x - b.offsetX <= ScreenWidth - Radius ==> a.x + b.offsetX == p.x)
      && (Radius <= p.y - b.offsetY <= ScreenHeight - Radius ==> a.y + b.offsetY == p.y)
  {
  }

  /** A quick tap on the circle goes back. */
  lemma TapGoesBack(b: Button, x: int, y: int, lx: int, ly: int)
    requires !b.dragging && Hits(b, x, y)
    ensures var down := Step(b, Panel(true, false, x, y)).after;
      Step(down, Panel(false, true, lx, ly)).back
  {
  }

  /** Holding for the threshold and releasing moves the button instead of going back. */
  lemma {:induction false} LongPressDoesNotGoBack(b: Button, x: int, y: int, frames: nat)
    requires Hits(b, x, y) && frames + 1 >= HoldThreshold
    ensures var held := Hold(Step(b, Panel(true, false, x, y)).after, x, y, frames);
      held.dragging && !Step(held, Panel(false, true, x, y)).back
  {
    var down := Step(b, Panel(true, false, x, y)).after;
    HoldCounts(down, x, y, frames);
  }

  /** `frames` more frames of a continued touch at one point. */
  function Hold(b: Button, x: int, y: int, frames: nat): Button
    decreases frames
  {
    if frames == 0 then b else Hold(Step(b, Panel(true, true, x, y)).after, x, y, frames - 1)
  }

  lemma {:induction false} HoldCounts(b: Button, x: int, y: int, frames: nat)
    requires b.pressed && b.holdFrames >= 1
    ensures var h := Hold(b, x, y, frames);
      h.pressed && h.holdFrames == b.holdFrames + frames
      && (frames > 0 && b.holdFrames + frames >= HoldThreshold ==> h.dragging)
      && (b.dragging ==> h.dragging)
    decreases frames
  {
    if frames > 0 {
      var next := Step(b, Panel(true, true, x, y)).after;
      assert next.pressed && next.holdFrames == b.holdFrames + 1;
      assert b.holdFrames + 1 >= HoldThreshold ==> next.dragging;
      HoldCounts(next, x, y, frames - 1);
      assert Hold(b, x, y, frames) == Hold(next, x, y, frames - 1);
    }
  }

  /** The button starts on screen, so it stays there whatever the touches. */
  lemma {:induction false} AlwaysOnScreen(panels: seq<Panel>)
    ensures OnScreen(Run(Initial, panels))
  {
    RunKeepsOnScreen(Initial, panels);
  }

  function Run(b: Button, panels: seq<Panel>): Button
    decreases |panels|
  {
    if |panels| == 0 then b else Run(Step(b, panels[0]).after, panels[1..])
  }

  lemma {:induction false} RunKeepsOnScreen(b: Button, panels: seq<Panel>)
    requires OnScreen(b)
    ensures OnScreen(Run(b, panels))
    decreases |panels|
  {
    if |panels| > 0 {
      RunKeepsOnScreen(Step(b, panels[0]).after, panels[1..]);
    }
  }
}

=== FILE: bgm_notification.dfy ===
/**
 * The toast stack in the top right corner: each new notification is placed
 * under the lowest one still on screen.
 */
module BgmNotification {

  datatype Kind = Music | Error | Warning | Info

  const BaseY: int := 140
  const NotificationHeight: int := 90
  const NotificationSpacing: int := 10
  const DisplayMs: int := 4000

  /** One toast; `showTime` is the clock reading when it was added, passed in by the caller. */
  datatype Notification = Notification(kind: Kind, musicName: string, artist: string, message: string,
                                       showTime: int, displayMs: int, y: int)

  /** Where the next toast goes: the base line, or just under the lowest existing one if that is further down. */
  function NextY(ns: seq<Notification>): (y: int)
    ensures y >= BaseY
    ensures forall i :: 0 <= i < |ns| ==> y >= ns[i].y + NotificationHeight + NotificationSpacing
    ensures y == BaseY || exists i :: 0 <= i < |ns| && y == ns[i].y + NotificationHeight + NotificationSpacing
    decreases |ns|
  {
    if |ns| == 0 then BaseY
    else
      var below := ns[|ns| - 1].y + NotificationHeight + NotificationSpacing;
      var rest := NextY(ns[..|ns| - 1]);
      assert forall i :: 0 <= i < |ns| - 1 ==> ns[..|ns| - 1][i] == ns[i];
      if below > rest then below else rest
  }

  /**
   * `AddNotification`: a music toast keeps title and artist, every other
   * kind keeps the first text as its message; the toast shows for four
   * seconds and is appended under the others.
   */
  method AddNotification(ns: seq<Notification>, kind: Kind, text1: string, text2: string, now: int)
    returns (r: seq<Notification>)
    ensures |r| == |ns| + 1 && r[..|ns|] == ns
    ensures r[|ns|].y == NextY(ns)
    ensures |ns| == 0 ==> r[|ns|].y == BaseY
    ensures r[|ns|].displayMs == DisplayMs && r[|ns|].showTime == now && r[|ns|].kind == kind
    ensures kind == Music ==> r[|ns|].musicName == text1 && r[|ns|].artist == text2 && r[|ns|].message == ""
    ensures kind != Music ==> r[|ns|].message == text1 && r[|ns|].musicName == "" && r[|ns|].artist == ""
  {
    var n := if kind == Music then Notification(kind, text1, text2, "", now, DisplayMs, 0)
             else Notification(kind, "", "", text1, now, DisplayMs, 0);
    var y := BaseY;
    if |ns| > 0 {
      var maxY := BaseY;
      var i := 0;
      while i < |ns|
        invariant 0 <= i <= |ns|
        invariant maxY == NextY(ns[..i])
      {
        assert ns[..i + 1][..i] == ns[..i];
        if ns[i].y + NotificationHeight + NotificationSpacing > maxY {
          maxY := ns[i].y + NotificationHeight + NotificationSpacing;
        }
        i := i + 1;
      }
      assert ns[..i] == ns;
      y := maxY;
    }
    r := ns + [n.(y := y)];
  }

  /** The music, error and info entry points; warnings reach the list through the same path. */
  method ShowNowPlaying(ns: seq<Notification>, musicName: string, artist: string, now: int)
    returns (r: seq<Notification>)
    ensures |r| == |ns| + 1 && r[..|ns|] == ns && r[|ns|].kind == Music && r[|ns|].musicName == musicName && r[|ns|].artist == artist
  {
    r := AddNotification(ns, Music, musicName, artist, now);
  }

  method ShowError(ns: seq<Notification>, message: string, now: int) returns (r: seq<Notification>)
    ensures |r| == |ns| + 1 && r[..|ns|] == ns && r[|ns|].kind == Error && r[|ns|].message == message
  {
    r := AddNotification(ns, Error, message, "", now);
  }

  method ShowInfo(ns: seq<Notification>, message: string, now: int) returns (r: seq<Notification>)
    ensures |r| == |ns| + 1 && r[..|ns|] == ns && r[|ns|].kind == Info && r[|ns|].message == message
  {
    r := AddNotification(ns, Info, message, "", now);
  }

  /** Each toast lies at least a toast and a gap below every earlier one, so none overlap. */
  predicate Stacked(ns: seq<Notification>) {
    forall i, j :: 0 <= i < j < |ns| ==> ns[j].y >= ns[i].y + NotificationHeight + NotificationSpacing
  }

  /** Adding keeps the stack free of overlaps, whatever was there before. */
  lemma AddKeepsStacked(ns: seq<Notification>, n: Notification)
    requires Stacked(ns)
    requires n.y == NextY(ns)
    ensures Stacked(ns + [n])
  {
    var r := ns + [n];
    forall i, j | 0 <= i < j < |r|
      ensures r[j].y >= r[i].y + NotificationHeight + NotificationSpacing
    {
      if j == |ns| {
        assert r[i] == ns[i];
      }
    }
  }
}

=== FILE: common.dfy ===
/** Small failure-compatible wrappers shared by every module of the model. */
module Common {

  /** A value that may be absent. */
  datatype Option<+T> = None | Some(value: T)

  /**
   * The result of a step whose source code can run into a rapidjson
   * assertion (a member looked up on a non-object, a value read as the wrong
   * type) or an uncaught `std::stoi` exception. The source gives such inputs
   * no defined behaviour; the model keeps them apart as `Undefined`.
   */
  datatype Outcome<+T> = Done(value: T) | Undefined {

    predicate IsFailure() {
      Undefined?
    }

    function PropagateFailure<U>(): Outcome<U>
      requires Undefined?
    {
      Undefined
    }

    function Extract(): T
      requires Done?
    {
      value
    }
  }

  /** The range of a 32-bit signed C++ `int`. */
  const INT32_MIN: int := -0x8000_0000
  const INT32_MAX: int := 0x7fff_ffff

  predicate IsInt32(n: int) {
    INT32_MIN <= n <= INT32_MAX
  }
}

=== FILE: json.dfy ===
/**
 * An abstract JSON document, standing for the rapidjson values the program
 * reads and writes. Numbers are integers only; objects keep their members in
 * document order and may repeat a key.
 */
module Json {
  import opened Common

  datatype Json =
    | Null
    | Bool(b: bool)
    | Num(n: int)
    | Str(s: string)
    | Arr(items: seq<Json>)
    | Obj(members: seq<(string, Json)>)

  /** rapidjson `IsInt`: an integer that fits a 32-bit `int`. */
  predicate IsInt(j: Json) {
    j.Num? && IsInt32(j.n)
  }

  /** rapidjson `IsUint64`: a non-negative integer below 2^64. */
  predicate IsUint64(j: Json) {
    j.Num? && 0 <= j.n < 0x1_0000_0000_0000_0000
  }

  /** The value of the first member named `key`, as rapidjson's `FindMember` finds it. */
  function Lookup(members: seq<(string, Json)>, key: string): Option<Json> {
    if |members| == 0 then None
    else if members[0].0 == key then Some(members[0].1)
    else Lookup(members[1..], key)
  }

  /** `Lookup` finds a member iff one has the key, and then the value of the first such member. */
  lemma {:induction false} LookupSpec(members: seq<(string, Json)>, key: string)
    ensures Lookup(members, key).Some? <==> exists i :: 0 <= i < |members| && members[i].0 == key
    ensures Lookup(members, key).Some? ==>
      exists i :: 0 <= i < |members| && members[i].0 == key && members[i].1 == Lookup(members, key).value
                  && forall k :: 0 <= k < i ==> members[k].0 != key
  {
    if |members| > 0 && members[0].0 != key {
      LookupSpec(members[1..], key);
      assert forall i :: 1 <= i < |members| ==> members[i] == members[1..][i - 1];
      if Lookup(members, key).Some? {
        var j :| 0 <= j < |members[1..]| && members[1..][j].0 == key && members[1..][j].1 == Lookup(members, key).value
                 && forall k :: 0 <= k < j ==> members[1..][k].0 != key;
        assert members[j + 1].0 == key;
      }
    }
  }

  /** `value.HasMember(key)` followed by `value[key]`; `None` when `j` is not an object. */
  function Member(j: Json, key: string): Option<Json> {
    if j.Obj? then Lookup(j.members, key) else None
  }
}

=== FILE: language_grid.dfy ===
/**
 * The two-column language picker shared by the first-run screen and the
 * settings dialog: languages fill the left column top to bottom, then the
 * right one, and the selection is a (column, row) pair.
 */
module LanguageGrid {
  import opened Common

  /** Rows per column: the left column takes the extra item when the count is odd. */
  function ItemsPerColumn(n: nat): (ipc: nat)
    ensures n <= 2 * ipc <= n + 1
    ensures n > 0 ==> ipc > 0
  {
    (n + 1) / 2
  }

  datatype Cell = Cell(column: int, row: int)

  /** The list index a cell stands for: column times rows per column, plus the row. */
  function IndexOf(n: nat, c: Cell): (i: int)
    ensures i == c.column * ItemsPerColumn(n) + c.row
  {
    if c.column == 0 then c.row
    else if c.column == 1 then ItemsPerColumn(n) + c.row
    else c.column * ItemsPerColumn(n) + c.row
  }

  /** The cell of list index `i`: the left column holds the first `ItemsPerColumn(n)` items. */
  function CellOf(n: nat, i: nat): (c: Cell)
    requires i < n
    ensures c.column == 0 || c.column == 1
    ensures 0 <= c.row < ItemsPerColumn(n)
    ensures IndexOf(n, c) == i
  {
    if i < ItemsPerColumn(n) then Cell(0, i) else Cell(1, i - ItemsPerColumn(n))
  }

  /** The cell is the quotient and remainder of the index by the rows per column. */
  lemma CellOfIsDivMod(n: nat, i: nat)
    requires i < n
    ensures CellOf(n, i) == Cell(i / ItemsPerColumn(n), i % ItemsPerColumn(n))
  {
    var c := CellOf(n, i);
    DivModUnique(i, ItemsPerColumn(n), c.column, c.row);
  }

  /** A cell on the grid: one of the two columns, a row inside it, a language under it. */
  predicate OnGrid(n: nat, c: Cell) {
    && (c.column == 0 || c.column == 1)
    && 0 <= c.row < ItemsPerColumn(n)
    && IndexOf(n, c) < n
  }

  /** Items in the right column. */
  function RightColumnItems(n: nat): (k: int)
    ensures 0 <= k <= ItemsPerColumn(n)
    ensures k == n / 2
  {
    n - ItemsPerColumn(n)
  }

  /** Cells and indexes correspond one to one. */
  lemma CellIndexBijection(n: nat, c: Cell, i: nat)
    ensures i < n ==> OnGrid(n, CellOf(n, i))
    ensures OnGrid(n, c) ==> IndexOf(n, c) >= 0 && CellOf(n, IndexOf(n, c)) == c
  {
  }

  lemma DivModUnique(j: int, d: nat, q: int, r: int)
    requires d > 0 && 0 <= r < d && j == q * d + r
    ensures j / d == q && j % d == r
  {
    var q', r' := j / d, j % d;
    assert j == d * q' + r';
    var k := q - q';
    assert k * d == r' - r by {
      assert k * d == q * d - q' * d;
    }
    if k > 0 {
      MulAtLeast(k, d);
    } else if k < 0 {
      MulAtLeast(-k, d);
    }
  }

  lemma MulAtLeast(k: int, d: nat)
    requires k >= 1
    ensures k * d >= d
  {
    assert k * d == (k - 1) * d + d;
  }

  /** Up: previous row, or from the top of the right column to the bottom of the left one. */
  function MoveUp(n: nat, c: Cell): (r: Cell)
    ensures OnGrid(n, c) ==> OnGrid(n, r)
    ensures OnGrid(n, c) && IndexOf(n, c) > 0 ==> IndexOf(n, r) == IndexOf(n, c) - 1
    ensures OnGrid(n, c) && IndexOf(n, c) == 0 ==> r == c
  {
    if c.row > 0 then c.(row := c.row - 1)
    else if c.column == 1 then Cell(0, ItemsPerColumn(n) - 1)
    else c
  }

  /** Down: next row in the column, or from the bottom of the left column to the top of a non-empty right one. */
  function MoveDown(n: nat, c: Cell): (r: Cell)
    ensures OnGrid(n, c) ==> OnGrid(n, r)
    ensures OnGrid(n, c) && IndexOf(n, c) + 1 < n ==> IndexOf(n, r) == IndexOf(n, c) + 1
    ensures OnGrid(n, c) && IndexOf(n, c) + 1 == n ==> r == c
  {
    var columnItems := if c.column == 0 then ItemsPerColumn(n) else RightColumnItems(n);
    if c.row < columnItems - 1 then c.(row := c.row + 1)
    else if c.column == 0 && ItemsPerColumn(n) < n then Cell(1, 0)
    else c
  }

  /** Left: to the same row of the left column, clamped to its length. */
  function MoveLeft(n: nat, c: Cell): (r: Cell)
    ensures OnGrid(n, c) ==> OnGrid(n, r)
    ensures OnGrid(n, c) && c.column == 1 ==> r == Cell(0, c.row) && IndexOf(n, r) == IndexOf(n, c) - ItemsPerColumn(n)
    ensures c.column != 1 ==> r == c
  {
    if c.column == 1 then
      Cell(0, if c.row >= ItemsPerColumn(n) then ItemsPerColumn(n) - 1 else c.row)
    else c
  }

  /** Right: to the right column when it has items, clamped to its last row. */
  function MoveRight(n: nat, c: Cell): (r: Cell)
    ensures OnGrid(n, c) ==> OnGrid(n, r)
    ensures OnGrid(n, c) && c.column == 0 && RightColumnItems(n) > 0 ==>
      r.column == 1 && IndexOf(n, r) == if IndexOf(n, c) + ItemsPerColumn(n) < n then IndexOf(n, c) + ItemsPerColumn(n) else n - 1
    ensures c.column != 0 || RightColumnItems(n) == 0 ==> r == c
  {
    if c.column == 0 && RightColumnItems(n) > 0 then
      Cell(1, if c.row >= RightColumnItems(n) then RightColumnItems(n) - 1 else c.row)
    else c
  }

  /** Up undoes down everywhere except on the last item, where down does nothing. */
  lemma UpUndoesDown(n: nat, c: Cell)
    requires OnGrid(n, c) && IndexOf(n, c) + 1 < n
    ensures MoveUp(n, MoveDown(n, c)) == c
  {
    var d := MoveDown(n, c);
    CellIndexBijection(n, d, 0);
    CellIndexBijection(n, MoveUp(n, d), 0);
    CellIndexBijection(n, c, 0);
  }

  // The same four moves stated on list indexes, as a reference for the cell moves.

  /** Up on the list: the previous language, staying on the first. */
  function UpIndex(i: int): int {
    if i > 0 then i - 1 else i
  }

  /** Down on the list: the next language, staying on the last. */
  function DownIndex(n: nat, i: int): int {
    if i + 1 < n then i + 1 else i
  }

  /** Left on the list: from the right column to the same row of the left one. */
  function LeftIndex(n: nat, i: int): int {
    if i >= ItemsPerColumn(n) then i - ItemsPerColumn(n) else i
  }

  /** Right on the list: from the left column to the same row of the right one, or its last language. */
  function RightIndex(n: nat, i: int): int {
    if i < ItemsPerColumn(n) then (if i + ItemsPerColumn(n) < n then i + ItemsPerColumn(n) else n - 1) else i
  }

  /** Each cell move lands on the cell of the index its list counterpart gives. */
  lemma MovesFollowIndex(n: nat, c: Cell)
    requires OnGrid(n, c)
    ensures IndexOf(n, MoveUp(n, c)) == UpIndex(IndexOf(n, c))
    ensures IndexOf(n, MoveDown(n, c)) == DownIndex(n, IndexOf(n, c))
    ensures IndexOf(n, MoveLeft(n, c)) == LeftIndex(n, IndexOf(n, c))
    ensures IndexOf(n, MoveRight(n, c)) == RightIndex(n, IndexOf(n, c))
  {
  }

  /** The language under a cell, when there is one. */
  function Selected(n: nat, c: Cell): (r: Option<nat>)
    ensures r.Some? <==> 0 <= IndexOf(n, c) < n
    ensures r.Some? ==> r.value == IndexOf(n, c)
  {
    var i := IndexOf(n, c);
    if 0 <= i < n then Some(i as nat) else None
  }

  // ---------------------------------------------------------------------
  // Touch

  /**
   * The touch panel this frame: released, or held, with the first card
   * whose bounds contain the point (the card hit test is not modelled).
   */
  datatype Touch = Released | Touching(card: Option<nat>)

  predicate TouchFits(n: nat, t: Touch) {
    t.Touching? && t.card.Some? ==> t.card.value < n
  }

  datatype TouchResult = TouchResult(cell: Cell, latched: bool, confirmed: Option<nat>)

  /**
   * A card acts once per continuous touch: the first frame on a card either
   * confirms it (it was already selected) or selects it, and latches.
   */
  function TouchCard(n: nat, c: Cell, latched: bool, t: Touch): (r: TouchResult)
    requires TouchFits(n, t)
    ensures t == Released ==> r == TouchResult(c, false, None)
    ensures latched && t.Touching? ==> r == TouchResult(c, true, None)
    ensures r.confirmed.Some? <==> !latched && t.Touching? && t.card.Some? && CellOf(n, t.card.value) == c
    ensures r.confirmed.Some? ==> r.confirmed.value == t.card.value && r.cell == c
    ensures !latched && t.Touching? && t.card.Some? ==> r.latched && r.cell == CellOf(n, t.card.value)
    ensures t.Touching? && t.card.None? ==> r == TouchResult(c, latched, None)
  {
    match t
    case Released => TouchResult(c, false, None)
    case Touching(None) => TouchResult(c, latched, None)
    case Touching(Some(i)) =>
      if latched then TouchResult(c, true, None)
      else if CellOf(n, i) == c then TouchResult(c, true, Some(i))
      else TouchResult(CellOf(n, i), true, None)
  }

  /** Touching keeps the selection on the grid. */
  lemma TouchKeepsGrid(n: nat, c: Cell, latched: bool, t: Touch)
    requires TouchFits(n, t) && OnGrid(n, c)
    ensures OnGrid(n, TouchCard(n, c, latched, t).cell)
  {
    if t.Touching? && t.card.Some? {
      CellIndexBijection(n, c, t.card.value);
    }
  }

  /** Two taps on the same card, with a release between them, select it and then confirm it. */
  lemma TapTwiceConfirms(n: nat, c: Cell, i: nat)
    requires i < n
    ensures var first := TouchCard(n, c, false, Touching(Some(i)));
      var lifted := TouchCard(n, first.cell, first.latched, Released);
      TouchCard(n, lifted.cell, lifted.latched, Touching(Some(i))).confirmed == Some(i)
  {
  }

  /** What a continued touch leaves behind: the selection and the cards it confirmed, in order. */
  datatype HoldResult = HoldResult(cell: Cell, confirmed: seq<nat>)

  /** A touch held over the frames whose cards are `cards`, starting from `c` and `latched`. */
  function HoldFrames(n: nat, c: Cell, latched: bool, cards: seq<Option<nat>>): (r: HoldResult)
    requires forall k :: 0 <= k < |cards| ==> TouchFits(n, Touching(cards[k]))
    decreases |cards|
  {
    if |cards| == 0 then HoldResult(c, [])
    else
      assert TouchFits(n, Touching(cards[0]));
      var r := TouchCard(n, c, latched, Touching(cards[0]));
      var rest := HoldFrames(n, r.cell, r.latched, cards[1..]);
      HoldResult(rest.cell, (if r.confirmed.Some? then [r.confirmed.value] else []) + rest.confirmed)
  }

  /** Once latched, a continued touch changes nothing and confirms nothing. */
  lemma {:induction false} LatchedHoldIsInert(n: nat, c: Cell, cards: seq<Option<nat>>)
    requires forall k :: 0 <= k < |cards| ==> TouchFits(n, Touching(cards[k]))
    ensures HoldFrames(n, c, true, cards) == HoldResult(c, [])
    decreases |cards|
  {
    if |cards| > 0 {
      assert TouchFits(n, Touching(cards[0]));
      LatchedHoldIsInert(n, c, cards[1..]);
    }
  }

  /**
   * A touch that starts unlatched acts once at most, whatever cards it
   * slides over: the first frame on a card decides the selection and any
   * confirmation, and frames before it, off every card, do nothing.
   */
  lemma {:induction false} HeldTouchActsOnce(n: nat, c: Cell, cards: seq<Option<nat>>)
    requires forall k :: 0 <= k < |cards| ==> TouchFits(n, Touching(cards[k]))
    ensures |HoldFrames(n, c, false, cards).confirmed| <= 1
    ensures (forall k :: 0 <= k < |cards| ==> cards[k].None?) ==> HoldFrames(n, c, false, cards) == HoldResult(c, [])
    ensures forall k :: 0 <= k < |cards| && cards[k].Some? && (forall j :: 0 <= j < k ==> cards[j].None?) ==>
      var first := TouchCard(n, c, false, Touching(cards[k]));
      HoldFrames(n, c, false, cards) ==
        HoldResult(first.cell, if first.confirmed.Some? then [first.confirmed.value] else [])
    decreases |cards|
  {
    if |cards| > 0 {
      assert TouchFits(n, Touching(cards[0]));
      var r := TouchCard(n, c, false, Touching(cards[0]));
      if cards[0].Some? {
        LatchedHoldIsInert(n, r.cell, cards[1..]);
        assert (if r.confirmed.Some? then [r.confirmed.value] else []) + [] ==
               (if r.confirmed.Some? then [r.confirmed.value] else []);
      } else {
        HeldTouchActsOnce(n, c, cards[1..]);
        forall k | 1 <= k < |cards| && cards[k].Some? && (forall j :: 0 <= j < k ==> cards[j].None?)
          ensures forall j :: 0 <= j < k - 1 ==> cards[1..][j].None?
        {
          forall j | 0 <= j < k - 1
            ensures cards[1..][j].None?
          {
            assert cards[1..][j] == cards[j + 1];
          }
        }
        assert forall k :: 1 <= k < |cards| ==> cards[1..][k - 1] == cards[k];
      }
    }
  }
}

=== FILE: language_manager.dfy ===
/**
 * The language manager: built-in language files flattened into a table of
 * dotted keys, text lookup with the key as fallback, and the choice of the
 * current language with its font family.
 */
module LanguageManager {
  import opened Common
  import opened Json
  import opened Text

  // ---------------------------------------------------------------------
  // Flattening

  /** A nested member's key: the parent's key, a dot, the member name; no dot at the top. */
  function JoinKey(prefix: string, name: string): (key: string)
    ensures prefix == "" ==> key == name
    ensures prefix != "" ==> key == prefix + "." + name
  {
    if prefix == "" then name else prefix + "." + name
  }

  /**
   * The string leaves under `node`, in document order, with their dotted
   * keys; arrays, numbers, booleans and null contribute nothing.
   */
  function Leaves(node: Json, prefix: string): seq<(string, string)>
    decreases node, 1, 0
  {
    match node
    case Obj(_) => MemberLeaves(node, prefix, 0)
    case Str(s) => [(prefix, CStr(s))]
    case _ => []
  }

  function MemberLeaves(node: Json, prefix: string, i: nat): seq<(string, string)>
    requires node.Obj?
    decreases node, 0, |node.members| - i
  {
    if i >= |node.members| then []
    else
      assert node.members[i] in node.members;
      Leaves(node.members[i].1, JoinKey(prefix, CStr(node.members[i].0))) + MemberLeaves(node, prefix, i + 1)
  }

  /** The recursive walk of `ParseFlatJson`: each string leaf is stored under its key, a later leaf overwriting an earlier one. */
  function Flatten(acc: map<string, string>, node: Json, prefix: string): map<string, string>
    decreases node, 1, 0
  {
    match node
    case Obj(_) => FlattenMembers(acc, node, prefix, 0)
    case Str(s) => acc[prefix := CStr(s)]
    case _ => acc
  }

  function FlattenMembers(acc: map<string, string>, node: Json, prefix: string, i: nat): map<string, string>
    requires node.Obj?
    decreases node, 0, |node.members| - i
  {
    if i >= |node.members| then acc
    else
      assert node.members[i] in node.members;
      var child := Flatten(acc, node.members[i].1, JoinKey(prefix, CStr(node.members[i].0)));
      FlattenMembers(child, node, prefix, i + 1)
  }

  /** Store the pairs in order. */
  function Assign(acc: map<string, string>, pairs: seq<(string, string)>): map<string, string>
    decreases |pairs|
  {
    if |pairs| == 0 then acc else Assign(acc[pairs[0].0 := pairs[0].1], pairs[1..])
  }

  /** The value of the last pair with key `k`. */
  function LastWith(pairs: seq<(string, string)>, k: string): (r: Option<string>)
    ensures r.None? <==> forall j :: 0 <= j < |pairs| ==> pairs[j].0 != k
    decreases |pairs|
  {
    if |pairs| == 0 then None
    else
      match LastWith(pairs[1..], k)
      case Some(v) => Some(v)
      case None =>
        assert forall j :: 1 <= j < |pairs| ==> pairs[j].0 == pairs[1..][j - 1].0;
        if pairs[0].0 == k then Some(pairs[0].1) else None
  }

  function Get(m: map<string, string>, k: string): Option<string> {
    if k in m then Some(m[k]) else None
  }

  lemma {:induction false} AssignAppend(acc: map<string, string>, a: seq<(string, string)>, b: seq<(string, string)>)
    ensures Assign(acc, a + b) == Assign(Assign(acc, a), b)
    decreases |a|
  {
    if |a| > 0 {
      assert (a + b)[1..] == a[1..] + b;
      AssignAppend(acc[a[0].0 := a[0].1], a[1..], b);
    } else {
      assert a + b == b;
    }
  }

  /** After storing the pairs, a key holds the last value stored under it, or what it held before. */
  lemma {:induction false} AssignLast(acc: map<string, string>, pairs: seq<(string, string)>, k: string)
    ensures Get(Assign(acc, pairs), k) == if LastWith(pairs, k).Some? then LastWith(pairs, k) else Get(acc, k)
    decreases |pairs|
  {
    if |pairs| > 0 {
      AssignLast(acc[pairs[0].0 := pairs[0].1], pairs[1..], k);
    }
  }

  /** The walk stores exactly the leaves, in document order. */
  lemma {:induction false} FlattenIsAssign(acc: map<string, string>, node: Json, prefix: string)
    ensures Flatten(acc, node, prefix) == Assign(acc, Leaves(node, prefix))
    decreases node, 1, 0
  {
    match node
    case Obj(_) => FlattenMembersIsAssign(acc, node, prefix, 0);
    case Str(s) =>
    case _ =>
  }

  lemma {:induction false} FlattenMembersIsAssign(acc: map<string, string>, node: Json, prefix: string, i: nat)
    requires node.Obj?
    ensures FlattenMembers(acc, node, prefix, i) == Assign(acc, MemberLeaves(node, prefix, i))
    decreases node, 0, |node.members| - i
  {
    if i < |node.members| {
      assert node.members[i] in node.members;
      var key := JoinKey(prefix, CStr(node.members[i].0));
      var here := Leaves(node.members[i].1, key);
      FlattenIsAssign(acc, node.members[i].1, key);
      FlattenMembersIsAssign(Flatten(acc, node.members[i].1, key), node, prefix, i + 1);
      AssignAppend(acc, here, MemberLeaves(node, prefix, i + 1));
    }
  }

  /** `ParseFlatJson`: a document that does not parse gives an empty table. */
  function ParseFlatJson(doc: Option<Json>): (texts: map<string, string>)
    ensures doc.None? ==> texts == map[]
  {
    match doc
    case None => map[]
    case Some(root) => Flatten(map[], root, "")
  }

  /** A key is in the table iff some string leaf has that dotted key, and it holds the last such leaf's text. */
  lemma TableHoldsLastLeaf(root: Json, k: string)
    ensures Get(ParseFlatJson(Some(root)), k) == LastWith(Leaves(root, ""), k)
  {
    FlattenIsAssign(map[], root, "");
    AssignLast(map[], Leaves(root, ""), k);
  }

  /** Nesting and the dot join: `{"app": {"name": "UTheme"}, "n": 1, "l": ["x"]}` gives only `app.name`. */
  lemma FlattenExample(root: Json, inner: Json)
    requires inner == Obj([("name", Str("UTheme"))])
    requires root == Obj([("app", inner), ("n", Num(1)), ("l", Arr([Str("x")]))])
    ensures ParseFlatJson(Some(root)) == map["app.name" := "UTheme"]
  {
    var t := map["app.name" := "UTheme"];
    InnerExample(inner);
    FirstMember(root, inner);
    IgnoredMembers(t, root);
    assert Flatten(map[], root, "") == FlattenMembers(map[], root, "", 0);
  }

  lemma FirstMember(root: Json, inner: Json)
    requires root.Obj? && |root.members| > 0 && root.members[0] == ("app", inner)
    requires Flatten(map[], inner, "app") == map["app.name" := "UTheme"]
    ensures FlattenMembers(map[], root, "", 0) == FlattenMembers(map["app.name" := "UTheme"], root, "", 1)
  {
    NoNul("app");
    assert JoinKey("", CStr(root.members[0].0)) == "app";
  }

  lemma IgnoredMembers(t: map<string, string>, root: Json)
    requires root.Obj? && |root.members| == 3 && root.members[1].1 == Num(1) && root.members[2].1.Arr?
    ensures FlattenMembers(t, root, "", 1) == t
  {
    assert FlattenMembers(t, root, "", 2) == FlattenMembers(t, root, "", 3);
  }

  lemma InnerExample(inner: Json)
    requires inner == Obj([("name", Str("UTheme"))])
    ensures Flatten(map[], inner, "app") == map["app.name" := "UTheme"]
  {
    NoNul("name");
    NoNul("UTheme");
    assert JoinKey("app", CStr("name")) == "app.name";
    assert FlattenMembers(map[], inner, "app", 0) == FlattenMembers(map["app.name" := "UTheme"], inner, "app", 1);
  }

  lemma NoNul(s: string)
    requires forall i :: 0 <= i < |s| ==> s[i] != '\0'
    ensures CStr(s) == s
  {
  }

  // ---------------------------------------------------------------------
  // The manager

  /** An entry of the language list: code, display name, file name. */
  datatype Language = Language(code: string, name: string, file: string)

  const Languages: seq<Language> := [
    Language("zh-cn", "简体中文", "zh-cn.json"),
    Language("zh-tw", "繁體中文", "zh-tw.json"),
    Language("en-us", "English", "en-us.json"),
    Language("ja-jp", "日本語", "ja-jp.json"),
    Language("ko-kr", "한국어", "ko-kr.json"),
    Language("fr-fr", "Français", "fr-fr.json"),
    Language("de-de", "Deutsch", "de-de.json"),
    Language("es-es", "Español", "es-es.json"),
    Language("it-it", "Italiano", "it-it.json"),
    Language("ru-ru", "Русский", "ru-ru.json"),
    Language("pt-br", "Português", "pt-br.json"),
    Language("nl-nl", "Nederlands", "nl-nl.json"),
    Language("pl-pl", "Polski", "pl-pl.json")
  ]

  /** Codes with a file built into the program. */
  predicate Embedded(code: string) {
    code in {"zh-cn", "zh-tw", "en-us", "ja-jp", "ko-kr", "fr-fr", "de-de", "es-es", "it-it", "ru-ru", "pt-br", "nl-nl", "pl-pl"}
  }

  predicate Listed(languages: seq<Language>, code: string) {
    exists i :: 0 <= i < |languages| && languages[i].code == code
  }

  /** Every listed language has a built-in file, and every built-in file is listed. */
  lemma ListMatchesFiles(code: string)
    ensures Listed(Languages, code) <==> Embedded(code)
  {
    if Embedded(code) {
      var codes := seq(|Languages|, i requires 0 <= i < |Languages| => Languages[i].code);
      assert codes == ["zh-cn", "zh-tw", "en-us", "ja-jp", "ko-kr", "fr-fr", "de-de", "es-es", "it-it", "ru-ru", "pt-br", "nl-nl", "pl-pl"];
      assert code in codes;
    }
  }

  /** Languages drawn with the CJK font. */
  predicate NeedsCjkFont(code: string) {
    code == "zh-cn" || code == "zh-tw" || code == "ja-jp" || code == "ko-kr"
  }

  /** A built-in file: its text, and the document the JSON parser reads from it (`None` on a parse error). */
  datatype File = File(content: string, document: Option<Json>)

  /**
   * The manager's state. `saved` is the language stored in the
   * configuration, which the manager reads at start and writes on a change.
   */
  datatype Manager = Manager(available: seq<Language>, current: string, texts: map<string, string>,
                             latinFont: bool, saved: string)

  /** `GetText`: the text for `key`, or the key itself when the table has none. */
  function GetText(m: Manager, key: string): (text: string)
    ensures key in m.texts ==> text == m.texts[key]
    ensures key !in m.texts ==> text == key
  {
    if key in m.texts then m.texts[key] else key
  }

  /**
   * `LoadLanguage`: only built-in codes with a non-empty file load; the
   * table is replaced by the file's, and only a non-empty table makes the
   * code current and picks its font.
   */
  function LoadLanguage(m: Manager, code: string, files: string -> File): (r: (Manager, bool))
    ensures r.1 <==> Embedded(code) && files(code).content != "" && |ParseFlatJson(files(code).document)| > 0
    ensures r.1 ==> r.0 == m.(texts := ParseFlatJson(files(code).document), current := code, latinFont := !NeedsCjkFont(code))
    ensures !r.1 ==> r.0.current == m.current && r.0.latinFont == m.latinFont && r.0.saved == m.saved
    ensures !Embedded(code) || files(code).content == "" ==> r == (m, false)
  {
    if !Embedded(code) || files(code).content == "" then (m, false)
    else
      var texts := ParseFlatJson(files(code).document);
      if |texts| == 0 then (m.(texts := texts), false)
      else (m.(texts := texts, current := code, latinFont := !NeedsCjkFont(code)), true)
  }

  /** `SetCurrentLanguage`: the language changes and is saved only when it loads. */
  function SetCurrentLanguage(m: Manager, code: string, files: string -> File): (r: Manager)
    ensures LoadLanguage(m, code, files).1 ==> r.current == code && r.saved == code
    ensures !LoadLanguage(m, code, files).1 ==> r.current == m.current && r.saved == m.saved
  {
    var (loaded, ok) := LoadLanguage(m, code, files);
    if ok then loaded.(current := code, saved := code) else loaded
  }

  /** `LoadSettings`: the saved language when it is on the list, otherwise Simplified Chinese. */
  function LoadSettings(m: Manager): (r: Manager)
    ensures Listed(m.available, m.saved) ==> r.current == m.saved
    ensures !Listed(m.available, m.saved) ==> r.current == "zh-cn"
    ensures r.(current := m.current) == m
  {
    if exists i :: 0 <= i < |m.available| && m.available[i].code == m.saved then m.(current := m.saved)
    else m.(current := "zh-cn")
  }

  /**
   * `Initialize`: set the list, read the setting, then load the chosen
   * language, else English, else Simplified Chinese; it always reports
   * success.
   */
  function Initialize(saved: string, files: string -> File): (r: (Manager, bool))
    ensures r.1
    ensures r.0.available == Languages
    ensures var first := LoadSettings(Manager(Languages, "", map[], false, saved));
      var a := LoadLanguage(first, first.current, files);
      var b := LoadLanguage(a.0, "en-us", files);
      var c := LoadLanguage(b.0, "zh-cn", files);
      && (a.1 ==> r.0.current == first.current)
      && (!a.1 && b.1 ==> r.0.current == "en-us")
      && (!a.1 && !b.1 && c.1 ==> r.0.current == "zh-cn")
      && (!a.1 && !b.1 && !c.1 ==> r.0.current == first.current)
  {
    var first := LoadSettings(Manager(Languages, "", map[], false, saved));
    var a := LoadLanguage(first, first.current, files);
    if a.1 then (a.0, true)
    else
      var b := LoadLanguage(a.0, "en-us", files);
      if b.1 then (b.0, true)
      else (LoadLanguage(b.0, "zh-cn", files).0, true)
  }

  /** A valid saved language whose file loads becomes current, with the font it needs. */
  lemma SavedLanguageWins(saved: string, files: string -> File)
    requires Embedded(saved)
    requires files(saved).content != "" && |ParseFlatJson(files(saved).document)| > 0
    ensures var m := Initialize(saved, files).0;
      m.current == saved && m.latinFont == !NeedsCjkFont(saved)
  {
    ListMatchesFiles(saved);
  }

  /** An unknown saved language falls back to Simplified Chinese when its file loads. */
  lemma UnknownSavedFallsBack(saved: string, files: string -> File)
    requires !Embedded(saved)
    requires files("zh-cn").content != "" && |ParseFlatJson(files("zh-cn").document)| > 0
    ensures Initialize(saved, files).0.current == "zh-cn"
  {
    ListMatchesFiles(saved);
  }
}

=== FILE: main_screen.dfy ===
/**
 * The start-up screen: pick a language on first run, bring up Mocha and
 * mount the storage when it is there, check the style plugin, then hand
 * every frame to the menu. Mocha and the mounts are inputs of the frame.
 */
module MainScreen {
  import opened Common
  import opened LanguageGrid

  /** Start-up stages, in declaration order; the style-plugin check sits between the mount and the menu. */
  datatype Stage = Init | LanguageSelect | InitMocha | InitFs | CheckStyleMiiU | LoadMenu | InMenu

  function Rank(st: Stage): nat {
    match st
    case Init => 0
    case LanguageSelect => 1
    case InitMocha => 2
    case InitFs => 3
    case CheckStyleMiiU => 4
    case LoadMenu => 5
    case InMenu => 6
  }

  datatype MountResult = MountSuccess | MountAlreadyExists | MountFailed

  /**
   * What the outside world answers this frame: the saved language, the
   * codes of the available languages, Mocha's start-up result and the two
   * mount attempts.
   */
  datatype World = World(savedLanguage: string, languages: seq<string>,
                         mochaReady: bool, mount: MountResult, remount: MountResult)

  /** The D-pad edges the first-run grid reacts to. */
  datatype Buttons = Buttons(up: bool, down: bool, left: bool, right: bool, a: bool)

  datatype Effect =
    | ChooseLanguage(index: nat)   // saves the code in the configuration and loads it
    | LoadSaved(code: string)
    | CheckPlugin
    | CreateMenu
    | DelegateToMenu

  datatype Main = Main(stage: Stage, failed: bool, mochaAvailable: bool, cell: Cell, latched: bool, hasMenu: bool)

  const Start := Main(Init, false, false, Cell(0, 0), false, false)

  /** The first index whose code is `code`. */
  function IndexOfCode(codes: seq<string>, code: string): (r: Option<nat>)
    ensures r.Some? ==> r.value < |codes| && codes[r.value] == code
    ensures r.Some? ==> forall j :: 0 <= j < r.value ==> codes[j] != code
    ensures r.None? <==> code !in codes
  {
    if |codes| == 0 then None
    else if codes[0] == code then Some(0)
    else match IndexOfCode(codes[1..], code)
      case None => None
      case Some(j) => Some(j + 1)
  }

  /**
   * The first-run language grid: touch, then up, down, left and right,
   * each applied when its button went down (several may apply in one
   * frame), then A.
   */
  function SelectLanguage(m: Main, n: nat, b: Buttons, t: Touch): (r: (Main, seq<Effect>))
    requires m.stage == LanguageSelect && TouchFits(n, t)
    ensures n > 0 && OnGrid(n, m.cell) ==> OnGrid(n, r.0.cell)
    ensures r.0.stage == InitMocha <==> |r.1| > 0
    ensures r.0.stage != InitMocha ==> r.0.stage == m.stage
    ensures forall j :: 0 <= j < |r.1| ==> r.1[j].ChooseLanguage? && r.1[j].index < n
    ensures b.a && n > 0 && OnGrid(n, m.cell) ==> r.0.stage == InitMocha && r.1[|r.1| - 1] == ChooseLanguage(IndexOf(n, r.0.cell) as nat)
    ensures r.0.failed == m.failed && r.0.mochaAvailable == m.mochaAvailable && r.0.hasMenu == m.hasMenu
    ensures var touched := TouchCard(n, m.cell, m.latched, t);
      && r.0.latched == touched.latched
      && r.0.cell == PadMoves(n, touched.cell, b)
      && (touched.confirmed.Some? ==> |r.1| > 0 && r.1[0] == ChooseLanguage(touched.confirmed.value))
      && (!b.a ==> r.1 == if touched.confirmed.Some? then [ChooseLanguage(touched.confirmed.value)] else [])
  {
    var touched := TouchCard(n, m.cell, m.latched, t);
    var byTouch := if touched.confirmed.Some? then [ChooseLanguage(touched.confirmed.value)] else [];
    var c4 := PadMoves(n, touched.cell, b);
    var chosen := Selected(n, c4);
    var byA := if b.a && chosen.Some? then [ChooseLanguage(chosen.value)] else [];
    var effects := byTouch + byA;
    (m.(stage := if |effects| > 0 then InitMocha else m.stage, cell := c4, latched := touched.latched), effects)
  }

  /** Up, down, left and right, each applied when its button went down. */
  function PadMoves(n: nat, c: Cell, b: Buttons): (r: Cell)
    ensures OnGrid(n, c) ==> OnGrid(n, r)
  {
    var c1 := if b.up then MoveUp(n, c) else c;
    var c2 := if b.down then MoveDown(n, c1) else c1;
    var c3 := if b.left then MoveLeft(n, c2) else c2;
    if b.right then MoveRight(n, c3) else c3
  }

  /** The pad lands on the language the list-index moves reach: up, then down, then left, then right. */
  lemma {:induction false} PadMovesFollowIndex(n: nat, c: Cell, b: Buttons)
    requires OnGrid(n, c)
    ensures var i1 := if b.up then UpIndex(IndexOf(n, c)) else IndexOf(n, c);
      var i2 := if b.down then DownIndex(n, i1) else i1;
      var i3 := if b.left then LeftIndex(n, i2) else i2;
      IndexOf(n, PadMoves(n, c, b)) == if b.right then RightIndex(n, i3) else i3
  {
    var c1 := if b.up then MoveUp(n, c) else c;
    MovesFollowIndex(n, c);
    var c2 := if b.down then MoveDown(n, c1) else c1;
    MovesFollowIndex(n, c1);
    var c3 := if b.left then MoveLeft(n, c2) else c2;
    MovesFollowIndex(n, c2);
    MovesFollowIndex(n, c3);
  }

  /** One frame of the screen. */
  function Step(m: Main, w: World, b: Buttons, t: Touch): (r: (Main, seq<Effect>))
    requires TouchFits(|w.languages|, t)
    ensures m.hasMenu ==> r == (m, [DelegateToMenu])
    ensures !m.hasMenu && m.stage != LanguageSelect && m.failed ==>
      r.1 == [] && (if m.stage == InitMocha && b.a then r.0 == m.(failed := false, stage := LoadMenu) else r.0 == m)
    ensures r.0.hasMenu <==> m.hasMenu || (m.stage == LoadMenu && !m.failed)
    ensures !m.hasMenu && !m.failed && m.stage == Init ==>
      && r.1 == (if w.savedLanguage != "" then [LoadSaved(w.savedLanguage)] else [])
      && (w.savedLanguage != "" && w.savedLanguage in w.languages ==>
            0 <= IndexOf(|w.languages|, r.0.cell) < |w.languages|
            && w.languages[IndexOf(|w.languages|, r.0.cell)] == w.savedLanguage)
    ensures !m.hasMenu && !m.failed && m.stage == InitMocha ==>
      r == (if w.mochaReady then (m.(mochaAvailable := true, stage := InitFs), [])
            else (m.(mochaAvailable := false, failed := true), []))
    ensures !m.hasMenu && !m.failed && m.stage == InitFs && !m.mochaAvailable ==> r == (m.(stage := LoadMenu), [])
    ensures !m.hasMenu && !m.failed && m.stage == CheckStyleMiiU ==>
      r == (m.(stage := LoadMenu), if m.mochaAvailable then [CheckPlugin] else [])
  {
    if m.hasMenu then (m, [DelegateToMenu])
    else if m.stage == LanguageSelect then SelectLanguage(m, |w.languages|, b, t)
    else if m.failed then
      if m.stage == InitMocha && b.a then (m.(failed := false, stage := LoadMenu), []) else (m, [])
    else match m.stage
      case Init =>
        if w.savedLanguage != "" then
          var cell := match IndexOfCode(w.languages, w.savedLanguage)
            case Some(i) => CellOf(|w.languages|, i)
            case None => m.cell;
          (m.(stage := InitMocha, cell := cell), [LoadSaved(w.savedLanguage)])
        else (m.(stage := LanguageSelect), [])
      case InitMocha =>
        if w.mochaReady then (m.(mochaAvailable := true, stage := InitFs), [])
        else (m.(mochaAvailable := false, failed := true), [])
      case InitFs =>
        if m.mochaAvailable then
          var res := if w.mount == MountAlreadyExists then w.remount else w.mount;
          if res == MountSuccess then (m.(stage := CheckStyleMiiU), []) else (m.(failed := true), [])
        else (m.(stage := LoadMenu), [])
      case CheckStyleMiiU =>
        (m.(stage := LoadMenu), if m.mochaAvailable then [CheckPlugin] else [])
      case LoadMenu => (m.(hasMenu := true), [CreateMenu])
      case InMenu => (m, [])
      case LanguageSelect => (m, [])
  }

  /** The stage never goes back, and the failure flag is only ever raised while Mocha or the mount is being set up. */
  lemma StepInvariants(m: Main, w: World, b: Buttons, t: Touch)
    requires TouchFits(|w.languages|, t)
    requires m.failed ==> m.stage == InitMocha || m.stage == InitFs
    ensures var r := Step(m, w, b, t).0;
      Rank(r.stage) >= Rank(m.stage)
      && (r.failed ==> r.stage == InitMocha || r.stage == InitFs)
      && (r.failed && !m.failed ==> r.stage == m.stage)
  {
  }

  /** First stage: a saved language skips the picker, none opens it. */
  lemma InitChoosesPath(w: World, b: Buttons, t: Touch)
    requires TouchFits(|w.languages|, t)
    ensures var r := Step(Start, w, b, t).0;
      (w.savedLanguage != "" ==> r.stage == InitMocha) && (w.savedLanguage == "" ==> r.stage == LanguageSelect)
  {
  }

  /** Mocha failing leaves the screen in local-mode prompt; A then goes straight to the menu. */
  lemma MochaFailureThenContinue(m: Main, w: World, b: Buttons, t: Touch)
    requires TouchFits(|w.languages|, t)
    requires m.stage == InitMocha && !m.failed && !m.hasMenu && !w.mochaReady
    ensures var r := Step(m, w, b, t).0;
      r.failed && !r.mochaAvailable && r.stage == InitMocha
      && Step(r, w, Buttons(false, false, false, false, true), Released).0.stage == LoadMenu
      && !Step(r, w, Buttons(false, false, false, false, true), Released).0.failed
  {
  }

  /** A mount failure is final: no input moves the screen on. */
  lemma MountFailureIsFinal(m: Main, w: World, b: Buttons, t: Touch)
    requires TouchFits(|w.languages|, t)
    requires m.stage == InitFs && m.failed && !m.hasMenu
    ensures Step(m, w, b, t) == (m, [])
  {
  }

  /** With Mocha up, the mount is retried once without a device when the first one finds it already mounted. */
  lemma MountRetry(m: Main, w: World, b: Buttons, t: Touch)
    requires TouchFits(|w.languages|, t)
    requires m.stage == InitFs && !m.failed && !m.hasMenu && m.mochaAvailable
    ensures var r := Step(m, w, b, t).0;
      (r.stage == CheckStyleMiiU <==> w.mount == MountSuccess || (w.mount == MountAlreadyExists && w.remount == MountSuccess))
      && (r.stage != CheckStyleMiiU ==> r.failed && r.stage == InitFs)
  {
  }

  /** Whether leaving the screen shuts Mocha down: only when Mocha came up and start-up got past its stage. */
  function DeinitOnExit(m: Main): (deinit: bool)
    ensures deinit ==> m.mochaAvailable && m.stage != Init && m.stage != LanguageSelect && m.stage != InitMocha
  {
    m.mochaAvailable && Rank(m.stage) > Rank(InitMocha)
  }

  /** The static availability flag is set only by a Mocha success, which also leaves its stage; so it implies the guard's second half. */
  lemma {:induction false} MochaImpliesPastInit(m: Main, w: World, b: Buttons, t: Touch)
    requires TouchFits(|w.languages|, t)
    requires m.mochaAvailable ==> Rank(m.stage) > Rank(InitMocha)
    ensures var r := Step(m, w, b, t).0;
      r.mochaAvailable ==> Rank(r.stage) > Rank(InitMocha) && DeinitOnExit(r)
  {
  }

  const Ready := World("en-us", ["en-us", "zh-cn"], true, MountSuccess, MountFailed)
  const NoButtons := Buttons(false, false, false, false, false)

  /** A run with a saved language, Mocha and a clean mount: five frames from start to the menu. */
  lemma HappyStart()
    ensures var s1 := Step(Start, Ready, NoButtons, Released);
      var s2 := Step(s1.0, Ready, NoButtons, Released);
      var s3 := Step(s2.0, Ready, NoButtons, Released);
      var s4 := Step(s3.0, Ready, NoButtons, Released);
      var s5 := Step(s4.0, Ready, NoButtons, Released);
      s1.1 == [LoadSaved("en-us")] && s4.1 == [CheckPlugin] && s5.1 == [CreateMenu] && s5.0.hasMenu
      && DeinitOnExit(s5.0)
  {
    var s1 := Step(Start, Ready, NoButtons, Released);
    assert IndexOfCode(Ready.languages, "en-us") == Some(0);
    assert s1 == (Start.(stage := InitMocha), [LoadSaved("en-us")]);
    var s2 := Step(s1.0, Ready, NoButtons, Released);
    assert s2 == (s1.0.(mochaAvailable := true, stage := InitFs), []);
    var s3 := Step(s2.0, Ready, NoButtons, Released);
    assert s3 == (s2.0.(stage := CheckStyleMiiU), []);
    var s4 := Step(s3.0, Ready, NoButtons, Released);
    assert s4 == (s3.0.(stage := LoadMenu), [CheckPlugin]);
  }
}

=== FILE: remote_notification.dfy ===
/**
 * The remote-notice consumer: the dedup cache deciding whether a message
 * should be shown again, its `id:version:count` line file, and the loop that
 * runs over the downloaded `messages` array.
 */
module RemoteNotification {
  import opened Common
  import opened Json
  import opened Text

  /** One line of `shown_notifications.txt`. */
  datatype CacheEntry = CacheEntry(id: string, version: string, displayCount: int)

  function FindEntryFrom(cache: seq<CacheEntry>, id: string, from: nat): (r: Option<nat>)
    decreases |cache| - from
    ensures r.Some? ==> from <= r.value < |cache| && cache[r.value].id == id
    ensures r.Some? ==> forall k :: from <= k < r.value ==> cache[k].id != id
    ensures r.None? ==> forall k :: from <= k < |cache| ==> cache[k].id != id
  {
    if from >= |cache| then None
    else if cache[from].id == id then Some(from)
    else FindEntryFrom(cache, id, from + 1)
  }

  /** The index of the first entry recorded for `id`, as the scans of the cache find it. */
  function FindEntry(cache: seq<CacheEntry>, id: string): Option<nat> {
    FindEntryFrom(cache, id, 0)
  }

  predicate Cached(cache: seq<CacheEntry>, id: string) {
    exists k :: 0 <= k < |cache| && cache[k].id == id
  }

  /** A versioned notice whose version is the running client's own. */
  predicate AlreadyCurrent(version: string, clientVersion: string) {
    version != "" && version == clientVersion
  }

  /**
   * `ShouldShowMessage`: "update" notices are gated by version alone; any
   * other notice is shown when unseen, or while its recorded count is below
   * `maxDisplayCount` (0 meaning unlimited).
   */
  function ShouldShowMessage(cache: seq<CacheEntry>, id: string, kind: string, version: string,
                             maxDisplayCount: int, clientVersion: string): (show: bool)
    ensures kind == "update" ==> (show <==> !AlreadyCurrent(version, clientVersion))
    ensures kind != "update" && !Cached(cache, id) ==> show
    ensures kind != "update" ==>
      forall k :: 0 <= k < |cache| && cache[k].id == id && (forall j :: 0 <= j < k ==> cache[j].id != id) ==>
        (show <==> maxDisplayCount == 0 || cache[k].displayCount < maxDisplayCount)
  {
    match FindEntry(cache, id)
    case Some(i) =>
      if kind == "update" then
        !AlreadyCurrent(version, clientVersion)
      else if maxDisplayCount == 0 then
        true
      else
        !(cache[i].displayCount >= maxDisplayCount)
    case None =>
      if kind == "update" then !AlreadyCurrent(version, clientVersion) else true
  }

  /**
   * `MarkAsShown`: the first entry for `id` has its version overwritten and
   * its count raised by one; an unseen id is appended with count 1.
   */
  function MarkAsShown(cache: seq<CacheEntry>, id: string, version: string): (r: seq<CacheEntry>)
    ensures Cached(cache, id) ==> |r| == |cache|
    ensures forall k :: 0 <= k < |cache| && cache[k].id == id && (forall j :: 0 <= j < k ==> cache[j].id != id) ==>
      r == cache[k := CacheEntry(id, version, cache[k].displayCount + 1)]
    ensures !Cached(cache, id) ==> r == cache + [CacheEntry(id, version, 1)]
  {
    match FindEntry(cache, id)
    case Some(i) => cache[i := CacheEntry(id, version, cache[i].displayCount + 1)]
    case None => cache + [CacheEntry(id, version, 1)]
  }

  /** The sum of all recorded display counts. */
  function TotalCount(cache: seq<CacheEntry>): int {
    if |cache| == 0 then 0 else TotalCount(cache[..|cache| - 1]) + cache[|cache| - 1].displayCount
  }

  lemma {:induction false} TotalCountUpdate(cache: seq<CacheEntry>, i: nat, e: CacheEntry)
    requires i < |cache|
    ensures TotalCount(cache[i := e]) == TotalCount(cache) - cache[i].displayCount + e.displayCount
  {
    var c2 := cache[i := e];
    if i < |cache| - 1 {
      assert c2[..|c2| - 1] == cache[..|cache| - 1][i := e];
      TotalCountUpdate(cache[..|cache| - 1], i, e);
    } else {
      assert c2[..|c2| - 1] == cache[..|cache| - 1];
    }
  }

  /** Every mark adds exactly one to the total of the display counts. */
  lemma MarkAsShownCountsOnce(cache: seq<CacheEntry>, id: string, version: string)
    ensures TotalCount(MarkAsShown(cache, id, version)) == TotalCount(cache) + 1
  {
    match FindEntry(cache, id)
    case Some(i) =>
      TotalCountUpdate(cache, i, CacheEntry(id, version, cache[i].displayCount + 1));
    case None =>
      var r := cache + [CacheEntry(id, version, 1)];
      assert r[..|r| - 1] == cache;
  }

  /** Marking keeps the ids already recorded, in place, and never lowers a count. */
  lemma MarkAsShownKeepsIds(cache: seq<CacheEntry>, id: string, version: string)
    ensures |MarkAsShown(cache, id, version)| >= |cache|
    ensures forall k :: 0 <= k < |cache| ==>
      MarkAsShown(cache, id, version)[k].id == cache[k].id &&
      MarkAsShown(cache, id, version)[k].displayCount >= cache[k].displayCount
    ensures Cached(MarkAsShown(cache, id, version), id)
  {
    var r := MarkAsShown(cache, id, version);
    match FindEntry(cache, id)
    case Some(i) =>
      assert r[i].id == id;
    case None =>
      assert r[|cache|].id == id;
  }

  /** The cached count of `id` (0 when unseen). */
  function CountOf(cache: seq<CacheEntry>, id: string): int {
    match FindEntry(cache, id)
    case Some(i) => cache[i].displayCount
    case None => 0
  }

  /** `n` successive marks of the same id. */
  function MarkTimes(cache: seq<CacheEntry>, id: string, version: string, n: nat): seq<CacheEntry> {
    if n == 0 then cache else MarkAsShown(MarkTimes(cache, id, version, n - 1), id, version)
  }

  /** A mark raises the count of its id by exactly one, an unseen id starting from 0. */
  lemma MarkIncrementsCount(cache: seq<CacheEntry>, id: string, version: string)
    ensures CountOf(MarkAsShown(cache, id, version), id) == CountOf(cache, id) + 1
    ensures Cached(MarkAsShown(cache, id, version), id)
  {
    var r := MarkAsShown(cache, id, version);
    match FindEntry(cache, id)
    case Some(i) =>
      assert r[i].id == id;
      assert forall k :: 0 <= k < i ==> r[k] == cache[k];
      assert FindEntry(r, id) == Some(i);
    case None =>
      assert r[|cache|].id == id;
      assert forall k :: 0 <= k < |cache| ==> r[k] == cache[k];
      assert FindEntry(r, id) == Some(|cache|);
  }

  lemma {:induction false} MarkTimesCount(cache: seq<CacheEntry>, id: string, version: string, n: nat)
    requires !Cached(cache, id)
    ensures CountOf(MarkTimes(cache, id, version, n), id) == n
    ensures n > 0 ==> Cached(MarkTimes(cache, id, version, n), id)
  {
    if n > 0 {
      MarkTimesCount(cache, id, version, n - 1);
      MarkIncrementsCount(MarkTimes(cache, id, version, n - 1), id, version);
    }
  }

  /**
   * The per-id life cycle: a non-update message marked `n` times since it
   * was unseen is shown again iff its limit is unlimited or above `n`.
   */
  lemma ShownUntilLimit(cache: seq<CacheEntry>, id: string, kind: string, version: string,
                        maxDisplayCount: int, clientVersion: string, n: nat)
    requires !Cached(cache, id)
    requires kind != "update"
    ensures ShouldShowMessage(MarkTimes(cache, id, version, n), id, kind, version, maxDisplayCount, clientVersion)
            <==> maxDisplayCount == 0 || n < maxDisplayCount || n == 0
  {
    MarkTimesCount(cache, id, version, n);
  }

  /** The update gate looks at the versions only: whatever the cache holds, the answer is the same. */
  lemma UpdateGateIgnoresCache(c1: seq<CacheEntry>, c2: seq<CacheEntry>, id: string, version: string,
                               max1: int, max2: int, clientVersion: string)
    ensures ShouldShowMessage(c1, id, "update", version, max1, clientVersion)
         == ShouldShowMessage(c2, id, "update", version, max2, clientVersion)
  {
  }

  // ---------------------------------------------------------------------
  // The cache file

  /** `SaveCache`: one `id:version:count` line per entry. */
  function EntryLine(e: CacheEntry): string {
    e.id + ":" + e.version + ":" + IntToString(e.displayCount)
  }

  function EntryLines(cache: seq<CacheEntry>): (lines: seq<string>)
    ensures |lines| == |cache|
    ensures forall i :: 0 <= i < |cache| ==> lines[i] == EntryLine(cache[i])
  {
    if |cache| == 0 then [] else [EntryLine(cache[0])] + EntryLines(cache[1..])
  }

  function SaveCache(cache: seq<CacheEntry>): string {
    JoinLines(EntryLines(cache))
  }

  /**
   * One non-empty line of the cache file: `id`, `id:version` (both legacy,
   * count 1) or `id:version:count`. `None` when `std::stoi` throws on the count.
   */
  function ParseLine(line: string): Option<CacheEntry> {
    match FindChar(line, ':', 0)
    case None => Some(CacheEntry(line, "", 1))
    case Some(p1) =>
      match FindChar(line, ':', p1 + 1)
      case None => Some(CacheEntry(line[..p1], line[p1 + 1..], 1))
      case Some(p2) =>
        match Stoi(line[p2 + 1..])
        case Some(n) => Some(CacheEntry(line[..p1], line[p1 + 1..p2], n))
        case None => None
  }

  /** `LoadCache` over the lines `getline` reads: empty lines are skipped. */
  function ParseLines(lines: seq<string>): Outcome<seq<CacheEntry>> {
    if |lines| == 0 then Done([])
    else
      match ParseLines(lines[1..])
      case Undefined => Undefined
      case Done(rest) =>
        if lines[0] == "" then Done(rest)
        else
          match ParseLine(lines[0])
          case Some(e) => Done([e] + rest)
          case None => Undefined
  }

  /** `LoadCache`: a file that cannot be opened reads as an empty cache. */
  function LoadCache(file: Option<string>): Outcome<seq<CacheEntry>> {
    match file
    case None => Done([])
    case Some(text) => ParseLines(SplitLines(text))
  }

  lemma ParseLegacyId(line: string)
    requires line != "" && Lacks(line, ':')
    ensures ParseLine(line) == Some(CacheEntry(line, "", 1))
  {
  }

  lemma ParseLegacyIdVersion(id: string, version: string)
    requires Lacks(id, ':') && Lacks(version, ':')
    ensures ParseLine(id + ":" + version) == Some(CacheEntry(id, version, 1))
  {
    var line := id + ":" + version;
    assert line[|id|] == ':';
    assert forall k :: 0 <= k < |id| ==> line[k] == id[k];
    assert FindChar(line, ':', 0) == Some(|id|);
    assert forall k :: |id| + 1 <= k < |line| ==> line[k] == version[k - |id| - 1];
    assert line[..|id|] == id;
    assert line[|id| + 1..] == version;
  }

  lemma ParseFullLine(id: string, version: string, count: string)
    requires Lacks(id, ':') && Lacks(version, ':')
    ensures ParseLine(id + ":" + version + ":" + count) ==
      match Stoi(count) case Some(n) => Some(CacheEntry(id, version, n)) case None => None
  {
    var line := id + ":" + version + ":" + count;
    var p1 := |id|;
    var p2 := |id| + 1 + |version|;
    assert line[p1] == ':' && line[p2] == ':';
    assert forall k :: 0 <= k < p1 ==> line[k] == id[k];
    assert forall k :: p1 + 1 <= k < p2 ==> line[k] == version[k - p1 - 1];
    assert FindChar(line, ':', 0) == Some(p1);
    assert FindChar(line, ':', p1 + 1) == Some(p2);
    assert line[..p1] == id;
    assert line[p1 + 1..p2] == version by {
      assert |line[p1 + 1..p2]| == |version|;
      forall k | 0 <= k < |version|
        ensures line[p1 + 1..p2][k] == version[k]
      {
        assert line[p1 + 1 + k] == version[k];
      }
    }
    assert line[p2 + 1..] == count by {
      assert |line[p2 + 1..]| == |count|;
      forall k | 0 <= k < |count|
        ensures line[p2 + 1..][k] == count[k]
      {
        assert line[p2 + 1 + k] == count[k];
      }
    }
  }

  /** Entries the line format can carry: no separator inside a field, a 32-bit count. */
  predicate Storable(e: CacheEntry) {
    Lacks(e.id, ':') && Lacks(e.id, '\n') && Lacks(e.version, ':') && Lacks(e.version, '\n')
    && IsInt32(e.displayCount)
  }

  lemma LacksNotIn(s: string, c: char)
    requires Lacks(s, c)
    ensures c !in s
  {
  }

  lemma NoNewlineInCount(n: int)
    ensures '\n' !in IntToString(n)
  {
    var digits := NatToString(if n < 0 then -n else n);
    assert forall i :: 0 <= i < |digits| ==> IsDigit(digits[i]);
    assert '\n' !in digits;
  }

  lemma EntryLineRoundTrip(e: CacheEntry)
    requires Storable(e)
    ensures EntryLine(e) != "" && '\n' !in EntryLine(e)
    ensures ParseLine(EntryLine(e)) == Some(e)
  {
    var digits := IntToString(e.displayCount);
    ParseFullLine(e.id, e.version, digits);
    StoiIntToString(e.displayCount);
    NoNewlineInCount(e.displayCount);
    LacksNotIn(e.id, '\n');
    LacksNotIn(e.version, '\n');
  }

  /** Non-empty lines that each parse to an entry load as those entries, in order. */
  lemma {:induction false} ParseLinesOf(lines: seq<string>, cache: seq<CacheEntry>)
    requires |lines| == |cache|
    requires forall i :: 0 <= i < |lines| ==> lines[i] != "" && ParseLine(lines[i]) == Some(cache[i])
    ensures ParseLines(lines) == Done(cache)
  {
    if |lines| > 0 {
      assert lines[0] != "" && ParseLine(lines[0]) == Some(cache[0]);
      ParseLinesOf(lines[1..], cache[1..]);
      assert [cache[0]] + cache[1..] == cache;
    }
  }

  lemma ParseEntryLines(cache: seq<CacheEntry>)
    requires forall i :: 0 <= i < |cache| ==> Storable(cache[i])
    ensures ParseLines(EntryLines(cache)) == Done(cache)
  {
    var lines := EntryLines(cache);
    forall i | 0 <= i < |lines|
      ensures lines[i] != "" && ParseLine(lines[i]) == Some(cache[i])
    {
      EntryLineRoundTrip(cache[i]);
    }
    ParseLinesOf(lines, cache);
  }

  /** Loading what `SaveCache` wrote recovers every (id, version, count), in order. */
  lemma CacheRoundTrip(cache: seq<CacheEntry>)
    requires forall i :: 0 <= i < |cache| ==> Storable(cache[i])
    ensures LoadCache(Some(SaveCache(cache))) == Done(cache)
  {
    var lines := EntryLines(cache);
    forall i | 0 <= i < |lines|
      ensures '\n' !in lines[i]
    {
      EntryLineRoundTrip(cache[i]);
    }
    SplitJoin(lines);
    ParseEntryLines(cache);
  }

  /**
   * The program rereads the file on every decision and rewrites it after
   * every mark. For storable entries the file gives back exactly the entries
   * that were written, so deciding and marking against it is the same as
   * deciding and marking against those entries.
   */
  lemma FileBackedDecision(cache: seq<CacheEntry>, id: string, kind: string, version: string,
                           maxDisplayCount: int, clientVersion: string)
    requires forall i :: 0 <= i < |cache| ==> Storable(cache[i])
    ensures LoadCache(Some(SaveCache(cache))).Done?
    ensures ShouldShowMessage(LoadCache(Some(SaveCache(cache))).value, id, kind, version, maxDisplayCount, clientVersion)
         == ShouldShowMessage(cache, id, kind, version, maxDisplayCount, clientVersion)
    ensures SaveCache(MarkAsShown(LoadCache(Some(SaveCache(cache))).value, id, version))
         == SaveCache(MarkAsShown(cache, id, version))
  {
    CacheRoundTrip(cache);
  }

  // ---------------------------------------------------------------------
  // The download callback of FetchAndShow

  /** A message of the `messages` array, with the defaults filled in. */
  datatype Message = Message(id: string, text: string, kind: string, title: string, version: string,
                             durationMs: int, maxDisplayCount: int)

  datatype Severity = InfoNotice | WarningNotice | ErrorNotice

  /** One call to the notification surface. */
  datatype Shown = Shown(severity: Severity, text: string, durationMs: int, title: string)

  /** What the download queue hands the callback: status, HTTP code, and the body as rapidjson parses it. */
  datatype Download = Download(complete: bool, httpCode: int, document: Option<Json>)

  /** `msg[key].GetString()` behind `HasMember`, or the default when absent. */
  function ReadString(msg: Json, key: string, default: string): Outcome<string> {
    match Member(msg, key)
    case None => Done(default)
    case Some(Str(s)) => Done(s)
    case Some(_) => Undefined
  }

  /** `msg[key].GetUint64()` behind `HasMember`, or the default when absent. */
  function ReadUint64(msg: Json, key: string, default: int): Outcome<int> {
    match Member(msg, key)
    case None => Done(default)
    case Some(v) => if IsUint64(v) then Done(v.n) else Undefined
  }

  /** `msg[key].GetInt()` behind `HasMember`, or the default when absent. */
  function ReadInt(msg: Json, key: string, default: int): Outcome<int> {
    match Member(msg, key)
    case None => Done(default)
    case Some(v) => if IsInt(v) then Done(v.n) else Undefined
  }

  /** Reads one message; `Done(None)` for one lacking `id` or `text`. */
  function ReadMessage(msg: Json): (r: Outcome<Option<Message>>)
    ensures msg.Obj? && (Member(msg, "id").None? || Member(msg, "text").None?) ==> r == Done(None)
    ensures r.Done? && r.value.Some? ==>
      && (Member(msg, "type").None? ==> r.value.value.kind == "info")
      && (Member(msg, "title").None? ==> r.value.value.title == "")
      && (Member(msg, "version").None? ==> r.value.value.version == "")
      && (Member(msg, "duration").None? ==> r.value.value.durationMs == 5000)
      && (Member(msg, "maxDisplayCount").None? ==> r.value.value.maxDisplayCount == 1)
  {
    if !msg.Obj? then Undefined
    else if Member(msg, "id").None? || Member(msg, "text").None? then Done(None)
    else
      var id :- ReadString(msg, "id", "");
      var text :- ReadString(msg, "text", "");
      var kind :- ReadString(msg, "type", "info");
      var title :- ReadString(msg, "title", "");
      var version :- ReadString(msg, "version", "");
      var duration :- ReadUint64(msg, "duration", 5000);
      var maxDisplayCount :- ReadInt(msg, "maxDisplayCount", 1);
      Done(Some(Message(id, text, kind, title, version, duration, maxDisplayCount)))
  }

  /** "warning" and "error" have their own styles; everything else, "update" included, is shown as info. */
  function SeverityOf(kind: string): (s: Severity)
    ensures s == WarningNotice <==> kind == "warning"
    ensures s == ErrorNotice <==> kind == "error"
  {
    if kind == "warning" then WarningNotice else if kind == "error" then ErrorNotice else InfoNotice
  }

  /** The notice a message puts on screen: its severity, text, duration and title. */
  function NoticeOf(m: Message): Shown {
    Shown(SeverityOf(m.kind), m.text, m.durationMs, m.title)
  }

  /** `notice` shown in front of whatever the rest of the loop shows. */
  function Prepend<T>(notice: Shown, rest: Outcome<(seq<Shown>, T)>): Outcome<(seq<Shown>, T)> {
    match rest
    case Undefined => Undefined
    case Done((shown, last)) => Done(([notice] + shown, last))
  }

  /**
   * The reference loop: the cache held in memory, each shown message marked
   * before the next one is read.
   */
  function ShowAndMark(msgs: seq<Json>, cache: seq<CacheEntry>, clientVersion: string)
    : (r: Outcome<(seq<Shown>, seq<CacheEntry>)>)
    ensures r.Done? ==> |r.value.0| <= |msgs|
    ensures r.Done? ==> TotalCount(r.value.1) == TotalCount(cache) + |r.value.0|
    ensures r.Done? ==> |r.value.1| >= |cache|
    ensures r.Done? ==> forall k :: 0 <= k < |cache| ==>
      r.value.1[k].id == cache[k].id && r.value.1[k].displayCount >= cache[k].displayCount
  {
    if |msgs| == 0 then Done(([], cache))
    else
      match ReadMessage(msgs[0])
      case Undefined => Undefined
      case Done(None) => ShowAndMark(msgs[1..], cache, clientVersion)
      case Done(Some(m)) =>
        if !ShouldShowMessage(cache, m.id, m.kind, m.version, m.maxDisplayCount, clientVersion) then
          ShowAndMark(msgs[1..], cache, clientVersion)
        else
          var marked := MarkAsShown(cache, m.id, m.version);
          MarkAsShownCountsOnce(cache, m.id, m.version);
          MarkAsShownKeepsIds(cache, m.id, m.version);
          Prepend(NoticeOf(m), ShowAndMark(msgs[1..], marked, clientVersion))
  }

  /** `ShouldShowMessage` as the program runs it: against the entries `LoadCache` reads from the file. */
  function ShouldShowFromFile(file: Option<string>, m: Message, clientVersion: string): (r: Outcome<bool>)
    ensures r.Done? <==> LoadCache(file).Done?
  {
    var cache :- LoadCache(file);
    Done(ShouldShowMessage(cache, m.id, m.kind, m.version, m.maxDisplayCount, clientVersion))
  }

  /**
   * `MarkAsShown` as the program runs it: load the file, upsert the entry,
   * and write the file again. `writable` is false when the file cannot be
   * opened for writing; the old file then stays as it was.
   */
  function MarkInFile(file: Option<string>, id: string, version: string, writable: bool): (r: Outcome<Option<string>>)
    ensures r.Done? <==> LoadCache(file).Done?
    ensures r.Done? && !writable ==> r.value == file
  {
    var cache :- LoadCache(file);
    Done(if writable then Some(SaveCache(MarkAsShown(cache, id, version))) else file)
  }

  /**
   * The per-message loop of the download callback. `file` is the cache
   * file's text, `None` while it cannot be opened; the result carries the
   * notices shown and the file as the loop leaves it.
   */
  function ProcessMessages(msgs: seq<Json>, file: Option<string>, writable: bool, clientVersion: string)
    : (r: Outcome<(seq<Shown>, Option<string>)>)
    ensures r.Done? ==> |r.value.0| <= |msgs|
    ensures r.Done? && !writable ==> r.value.1 == file
  {
    if |msgs| == 0 then Done(([], file))
    else
      match ReadMessage(msgs[0])
      case Undefined => Undefined
      case Done(None) => ProcessMessages(msgs[1..], file, writable, clientVersion)
      case Done(Some(m)) =>
        match ShouldShowFromFile(file, m, clientVersion)
        case Undefined => Undefined
        case Done(false) => ProcessMessages(msgs[1..], file, writable, clientVersion)
        case Done(true) =>
          match MarkInFile(file, m.id, m.version, writable)
          case Undefined => Undefined
          case Done(next) => Prepend(NoticeOf(m), ProcessMessages(msgs[1..], next, writable, clientVersion))
  }

  /**
   * One message of the loop: a readable message is shown, in front of what
   * the rest of the loop shows after it has been marked, exactly when the
   * cache read from the file allows it; otherwise the rest of the loop runs
   * on the same file. A file that does not load ends the loop undefined.
   */
  lemma ProcessFirstMessage(msgs: seq<Json>, file: Option<string>, writable: bool, clientVersion: string, m: Message)
    requires |msgs| > 0 && ReadMessage(msgs[0]) == Done(Some(m))
    ensures LoadCache(file).Undefined? ==> ProcessMessages(msgs, file, writable, clientVersion).Undefined?
    ensures LoadCache(file).Done? &&
            ShouldShowMessage(LoadCache(file).value, m.id, m.kind, m.version, m.maxDisplayCount, clientVersion) ==>
      ProcessMessages(msgs, file, writable, clientVersion) ==
      Prepend(NoticeOf(m), ProcessMessages(msgs[1..],
        if writable then Some(SaveCache(MarkAsShown(LoadCache(file).value, m.id, m.version))) else file,
        writable, clientVersion))
    ensures LoadCache(file).Done? &&
            !ShouldShowMessage(LoadCache(file).value, m.id, m.kind, m.version, m.maxDisplayCount, clientVersion) ==>
      ProcessMessages(msgs, file, writable, clientVersion) == ProcessMessages(msgs[1..], file, writable, clientVersion)
  {
  }

  /** Text the line format carries unchanged. */
  predicate StorableText(s: string) {
    Lacks(s, ':') && Lacks(s, '\n')
  }

  /** Every message the loop reads has an id and a version the line format can carry. */
  predicate StorableMessages(msgs: seq<Json>) {
    forall i :: 0 <= i < |msgs| ==> StorableRead(ReadMessage(msgs[i]))
  }

  predicate StorableRead(r: Outcome<Option<Message>>) {
    r.Done? && r.value.Some? ==> StorableText(r.value.value.id) && StorableText(r.value.value.version)
  }

  /** Storable entries whose counts can still be raised `n` times within a 32-bit `int`. */
  predicate Headroom(cache: seq<CacheEntry>, n: nat) {
    n <= INT32_MAX && forall i :: 0 <= i < |cache| ==> Storable(cache[i]) && cache[i].displayCount + n <= INT32_MAX
  }

  lemma MarkKeepsHeadroom(cache: seq<CacheEntry>, id: string, version: string, n: nat)
    requires Headroom(cache, n + 1) && StorableText(id) && StorableText(version)
    ensures Headroom(MarkAsShown(cache, id, version), n)
  {
    var r := MarkAsShown(cache, id, version);
    match FindEntry(cache, id)
    case Some(i) =>
      assert forall k :: 0 <= k < |r| ==> r[k] == cache[k] || k == i;
    case None =>
      assert forall k :: 0 <= k < |cache| ==> r[k] == cache[k];
  }

  /** The file `MarkInFile` writes loads back to the marked entries, when they fit the line format. */
  lemma MarkedFile(file: Option<string>, cache: seq<CacheEntry>, id: string, version: string)
    returns (next: Option<string>)
    requires LoadCache(file) == Done(cache)
    requires forall i :: 0 <= i < |MarkAsShown(cache, id, version)| ==> Storable(MarkAsShown(cache, id, version)[i])
    ensures MarkInFile(file, id, version, true) == Done(next)
    ensures LoadCache(next) == Done(MarkAsShown(cache, id, version))
  {
    next := Some(SaveCache(MarkAsShown(cache, id, version)));
    CacheRoundTrip(MarkAsShown(cache, id, version));
  }

  lemma StorableRest(msgs: seq<Json>)
    requires |msgs| > 0 && StorableMessages(msgs)
    ensures StorableRead(ReadMessage(msgs[0])) && StorableMessages(msgs[1..])
  {
    assert StorableRead(ReadMessage(msgs[0]));
    forall i | 0 <= i < |msgs[1..]|
      ensures StorableRead(ReadMessage(msgs[1..][i]))
    {
      assert msgs[1..][i] == msgs[i + 1];
    }
  }

  /**
   * Rereading the file for every decision and mark, as the program does,
   * shows the same notices as the in-memory reference loop and leaves a file
   * that loads to the reference's final cache, whenever the ids, versions
   * and counts fit the line format.
   */
  lemma {:induction false} FileMatchesMemory(msgs: seq<Json>, file: Option<string>, cache: seq<CacheEntry>,
                                             clientVersion: string)
    requires LoadCache(file) == Done(cache)
    requires Headroom(cache, |msgs|) && StorableMessages(msgs)
    ensures ProcessMessages(msgs, file, true, clientVersion).Done? <==> ShowAndMark(msgs, cache, clientVersion).Done?
    ensures ProcessMessages(msgs, file, true, clientVersion).Done? ==>
      && ProcessMessages(msgs, file, true, clientVersion).value.0 == ShowAndMark(msgs, cache, clientVersion).value.0
      && LoadCache(ProcessMessages(msgs, file, true, clientVersion).value.1)
         == Done(ShowAndMark(msgs, cache, clientVersion).value.1)
  {
    if |msgs| > 0 {
      StorableRest(msgs);
      match ReadMessage(msgs[0])
      case Undefined =>
      case Done(None) =>
        FileMatchesMemory(msgs[1..], file, cache, clientVersion);
      case Done(Some(m)) =>
        if ShouldShowMessage(cache, m.id, m.kind, m.version, m.maxDisplayCount, clientVersion) {
          MarkKeepsHeadroom(cache, m.id, m.version, |msgs| - 1);
          var next := MarkedFile(file, cache, m.id, m.version);
          FileMatchesMemory(msgs[1..], next, MarkAsShown(cache, m.id, m.version), clientVersion);
          ShownFromFile(msgs, file, clientVersion, m, next);
          ShownFromMemory(msgs, cache, clientVersion, m);
        } else {
          FileMatchesMemory(msgs[1..], file, cache, clientVersion);
        }
    }
  }

  /** The file loop shows a message the file's cache allows, then runs on the rewritten file. */
  lemma ShownFromFile(msgs: seq<Json>, file: Option<string>, clientVersion: string, m: Message, next: Option<string>)
    requires |msgs| > 0 && ReadMessage(msgs[0]) == Done(Some(m))
    requires ShouldShowFromFile(file, m, clientVersion) == Done(true)
    requires MarkInFile(file, m.id, m.version, true) == Done(next)
    ensures ProcessMessages(msgs, file, true, clientVersion)
         == Prepend(NoticeOf(m), ProcessMessages(msgs[1..], next, true, clientVersion))
  {
  }

  /** The reference loop shows a message its cache allows, then runs on the marked cache. */
  lemma ShownFromMemory(msgs: seq<Json>, cache: seq<CacheEntry>, clientVersion: string, m: Message)
    requires |msgs| > 0 && ReadMessage(msgs[0]) == Done(Some(m))
    requires ShouldShowMessage(cache, m.id, m.kind, m.version, m.maxDisplayCount, clientVersion)
    ensures ShowAndMark(msgs, cache, clientVersion)
         == Prepend(NoticeOf(m), ShowAndMark(msgs[1..], MarkAsShown(cache, m.id, m.version), clientVersion))
  {
  }

  /** The document holds a `messages` array. */
  predicate HasMessages(doc: Json) {
    Member(doc, "messages").Some? && Member(doc, "messages").value.Arr?
  }

  /**
   * The download callback: a failed transfer, an unparsable body or a
   * missing `messages` array shows nothing and leaves the file alone.
   */
  function FetchAndShow(d: Download, file: Option<string>, writable: bool, clientVersion: string)
    : (r: Outcome<(seq<Shown>, Option<string>)>)
    ensures !d.complete || d.httpCode != 200 || d.document.None? ==> r == Done(([], file))
    ensures d.document.Some? && d.document.value.Obj? && !HasMessages(d.document.value) ==> r == Done(([], file))
    ensures d.complete && d.httpCode == 200 && d.document.Some? && HasMessages(d.document.value) ==>
      r == ProcessMessages(Member(d.document.value, "messages").value.items, file, writable, clientVersion)
  {
    if !d.complete || d.httpCode != 200 then Done(([], file))
    else if d.document.None? then Done(([], file))
    else if !d.document.value.Obj? then Undefined
    else
      match Member(d.document.value, "messages")
      case Some(Arr(msgs)) => ProcessMessages(msgs, file, writable, clientVersion)
      case _ => Done(([], file))
  }

  /** The payload of the dedup example: one info message allowed twice. */
  const ExamplePayload: Json :=
    Obj([("messages", Arr([Obj([("id", Str("a")), ("text", Str("hi")), ("type", Str("info")),
                                ("maxDisplayCount", Num(2))])]))])

  const ExampleMessage: Json :=
    Obj([("id", Str("a")), ("text", Str("hi")), ("type", Str("info")), ("maxDisplayCount", Num(2))])

  lemma ExampleFetchIsOneMessage(file: Option<string>, clientVersion: string)
    ensures FetchAndShow(Download(true, 200, Some(ExamplePayload)), file, true, clientVersion)
         == ProcessMessages([ExampleMessage], file, true, clientVersion)
  {
    var members := [("messages", Arr([ExampleMessage]))];
    assert members[0].0 == "messages";
    assert Member(ExamplePayload, "messages") == Some(Arr([ExampleMessage]));
  }

  lemma ExampleMessageFields()
    ensures ReadMessage(ExampleMessage) == Done(Some(Message("a", "hi", "info", "", "", 5000, 2)))
  {
    assert ReadString(ExampleMessage, "id", "") == Done("a");
    assert ReadString(ExampleMessage, "text", "") == Done("hi");
    assert ReadString(ExampleMessage, "type", "info") == Done("info");
    assert ReadString(ExampleMessage, "title", "") == Done("");
    assert ReadString(ExampleMessage, "version", "") == Done("");
    assert ReadUint64(ExampleMessage, "duration", 5000) == Done(5000);
    assert ReadInt(ExampleMessage, "maxDisplayCount", 1) == Done(2);
  }

  /** One fetch of the example payload against a file that loads to `cache`. */
  lemma ExampleFetch(file: Option<string>, cache: seq<CacheEntry>, clientVersion: string)
    requires LoadCache(file) == Done(cache)
    ensures FetchAndShow(Download(true, 200, Some(ExamplePayload)), file, true, clientVersion) ==
      if ShouldShowMessage(cache, "a", "info", "", 2, clientVersion)
      then Done(([Shown(InfoNotice, "hi", 5000, "")], Some(SaveCache(MarkAsShown(cache, "a", "")))))
      else Done(([], file))
  {
    ExampleFetchIsOneMessage(file, clientVersion);
    ExampleMessageFields();
    var m := Message("a", "hi", "info", "", "", 5000, 2);
    var rest: seq<Json> := [];
    assert [ExampleMessage][1..] == rest;
    ProcessFirstMessage([ExampleMessage], file, true, clientVersion, m);
    assert [Shown(InfoNotice, "hi", 5000, "")] + [] == [Shown(InfoNotice, "hi", 5000, "")];
  }

  lemma FirstFetch(clientVersion: string)
    ensures FetchAndShow(Download(true, 200, Some(ExamplePayload)), None, true, clientVersion)
         == Done(([Shown(InfoNotice, "hi", 5000, "")], Some(SaveCache([CacheEntry("a", "", 1)]))))
  {
    ExampleFetch(None, [], clientVersion);
    assert FindEntry([], "a") == None;
    assert MarkAsShown([], "a", "") == [CacheEntry("a", "", 1)];
  }

  lemma SecondFetch(clientVersion: string)
    ensures FetchAndShow(Download(true, 200, Some(ExamplePayload)), Some(SaveCache([CacheEntry("a", "", 1)])), true, clientVersion)
         == Done(([Shown(InfoNotice, "hi", 5000, "")], Some(SaveCache([CacheEntry("a", "", 2)]))))
  {
    var c1 := [CacheEntry("a", "", 1)];
    assert Storable(c1[0]);
    CacheRoundTrip(c1);
    ExampleFetch(Some(SaveCache(c1)), c1, clientVersion);
    assert FindEntry(c1, "a") == Some(0);
    assert ShouldShowMessage(c1, "a", "info", "", 2, clientVersion);
    assert MarkAsShown(c1, "a", "") == [CacheEntry("a", "", 2)];
  }

  lemma ThirdFetch(clientVersion: string)
    ensures var file := Some(SaveCache([CacheEntry("a", "", 2)]));
      FetchAndShow(Download(true, 200, Some(ExamplePayload)), file, true, clientVersion) == Done(([], file))
  {
    var c2 := [CacheEntry("a", "", 2)];
    assert Storable(c2[0]);
    CacheRoundTrip(c2);
    ExampleFetch(Some(SaveCache(c2)), c2, clientVersion);
    assert FindEntry(c2, "a") == Some(0);
    assert !ShouldShowMessage(c2, "a", "info", "", 2, clientVersion);
  }

  /** Fetching that payload three times, starting with no file, shows it on the first two fetches only. */
  lemma ShownTwiceThenSuppressed(clientVersion: string)
    ensures var d := Download(true, 200, Some(ExamplePayload));
      var f1 := FetchAndShow(d, None, true, clientVersion);
      f1.Done? && |f1.value.0| == 1 &&
      var f2 := FetchAndShow(d, f1.value.1, true, clientVersion);
      f2.Done? && |f2.value.0| == 1 &&
      var f3 := FetchAndShow(d, f2.value.1, true, clientVersion);
      f3.Done? && |f3.value.0| == 0
  {
    FirstFetch(clientVersion);
    SecondFetch(clientVersion);
    ThirdFetch(clientVersion);
  }

  /** Two messages, the first with a ':' in its id. */
  const ColonIdMessages: seq<Json> :=
    [Obj([("id", Str("x:y")), ("text", Str("t"))]), Obj([("id", Str("z")), ("text", Str("u"))])]

  lemma ColonIdLine()
    ensures SaveCache([CacheEntry("x:y", "", 1)]) == "x:y::1\n"
  {
    assert IntToString(1) == "1";
    assert EntryLine(CacheEntry("x:y", "", 1)) == "x:y::1";
    assert EntryLines([CacheEntry("x:y", "", 1)]) == ["x:y::1"];
    assert JoinLines(["x:y::1"]) == "x:y::1" + "\n" + JoinLines([]);
  }

  lemma ColonIdLineSplits()
    ensures SplitLines("x:y::1\n") == ["x:y::1"]
  {
    var s := "x:y::1\n";
    assert s[6] == '\n';
    assert forall k :: 0 <= k < 6 ==> s[k] != '\n';
    assert FindChar(s, '\n', 0) == Some(6);
    assert s[..6] == "x:y::1";
    assert s[7..] == "";
  }

  /** `std::stoi` throws on `:1`: it holds no digit where the number should start. */
  lemma StoiRejectsColon()
    ensures Stoi(":1") == None
  {
    assert !IsSpace(':');
    assert SkipSpaces(":1") == ":1";
    assert !IsDigit(':');
    assert DigitPrefix(":1") == "";
  }

  lemma ColonIdLineColons()
    ensures FindChar("x:y::1", ':', 0) == Some(1)
    ensures FindChar("x:y::1", ':', 2) == Some(3)
  {
    var line := "x:y::1";
    assert line[0] != ':' && line[1] == ':';
    assert line[2] != ':' && line[3] == ':';
  }

  /** A three-field line whose count `std::stoi` rejects does not parse. */
  lemma ParseLineBadCount(line: string, p1: nat, p2: nat)
    requires FindChar(line, ':', 0) == Some(p1) && FindChar(line, ':', p1 + 1) == Some(p2)
    requires Stoi(line[p2 + 1..]) == None
    ensures ParseLine(line) == None
  {
  }

  /** The count field of `x:y::1` is `:1`, on which `std::stoi` throws. */
  lemma ColonIdLineFails()
    ensures ParseLine("x:y::1") == None
  {
    ColonIdLineColons();
    StoiRejectsColon();
    assert "x:y::1"[4..] == ":1";
    ParseLineBadCount("x:y::1", 1, 3);
  }

  lemma ColonIdWritesBadLine()
    ensures SaveCache([CacheEntry("x:y", "", 1)]) == "x:y::1\n"
    ensures LoadCache(Some("x:y::1\n")) == Undefined
  {
    ColonIdLine();
    ColonIdLineSplits();
    ColonIdLineFails();
    assert ["x:y::1"][1..] == [];
  }

  lemma ColonIdMessagesRead()
    ensures ReadMessage(ColonIdMessages[0]) == Done(Some(Message("x:y", "t", "info", "", "", 5000, 1)))
    ensures ReadMessage(ColonIdMessages[1]) == Done(Some(Message("z", "u", "info", "", "", 5000, 1)))
  {
    var o1 := ColonIdMessages[0];
    var o2 := ColonIdMessages[1];
    assert Member(o1, "id") == Some(Str("x:y")) && Member(o1, "text") == Some(Str("t"));
    assert Member(o2, "id") == Some(Str("z")) && Member(o2, "text") == Some(Str("u"));
  }

  lemma ColonIdFileLoop(clientVersion: string)
    ensures ProcessMessages(ColonIdMessages, None, true, clientVersion) == Undefined
  {
    ColonIdMessagesRead();
    ColonIdWritesBadLine();
    assert MarkAsShown([], "x:y", "") == [CacheEntry("x:y", "", 1)];
    var rest := ColonIdMessages[1..];
    assert rest[0] == ColonIdMessages[1];
    ProcessFirstMessage(ColonIdMessages, None, true, clientVersion, Message("x:y", "t", "info", "", "", 5000, 1));
    ProcessFirstMessage(rest, Some("x:y::1\n"), true, clientVersion, Message("z", "u", "info", "", "", 5000, 1));
  }

  lemma ColonIdMemoryLoop(clientVersion: string)
    ensures ShowAndMark(ColonIdMessages, [], clientVersion).Done?
    ensures |ShowAndMark(ColonIdMessages, [], clientVersion).value.0| == 2
  {
    ColonIdMessagesRead();
    var c1 := [CacheEntry("x:y", "", 1)];
    assert MarkAsShown([], "x:y", "") == c1;
    var rest := ColonIdMessages[1..];
    assert rest[0] == ColonIdMessages[1] && rest[1..] == [];
    assert FindEntry(c1, "z") == None;
    assert ShowAndMark(rest, c1, clientVersion).Done? && |ShowAndMark(rest, c1, clientVersion).value.0| == 1;
  }

  /**
   * An id holding ':' is shown and written to the file, and the next
   * message's reload of that file fails in `std::stoi`, which nothing
   * catches; the in-memory reference loop shows both messages.
   */
  lemma ColonIdBreaksReload(clientVersion: string)
    ensures ProcessMessages(ColonIdMessages, None, true, clientVersion) == Undefined
    ensures ShowAndMark(ColonIdMessages, [], clientVersion).Done?
    ensures |ShowAndMark(ColonIdMessages, [], clientVersion).value.0| == 2
  {
    ColonIdFileLoop(clientVersion);
    ColonIdMemoryLoop(clientVersion);
  }
}

=== FILE: settings_screen.dfy ===
/**
 * The settings screen: a wrapping list of six entries driven by a
 * press-or-hold repeat counter, the language dialog on the shared grid, and
 * the case-insensitive name match used when clearing the cache.
 */
module SettingsScreen {
  import opened Common
  import opened Text
  import opened LanguageGrid

  /** Entries of the list, in display order. */
  datatype SettingsItem = LanguageItem | DownloadPathItem | BgmItem | LoggingItem | VerboseItem | ClearCacheItem

  const SettingsCount: nat := 6

  /** Frames a direction must be held before it repeats, then frames between repeats. */
  const RepeatDelay: int := 30
  const RepeatRate: int := 8

  function ItemAt(i: nat): SettingsItem
    requires i < SettingsCount
  {
    [LanguageItem, DownloadPathItem, BgmItem, LoggingItem, VerboseItem, ClearCacheItem][i]
  }

  // ---------------------------------------------------------------------
  // Hold to repeat

  /**
   * Directions this frame, D-pad and left stick merged: "pressed" is the
   * first frame down, "held" every frame it stays down.
   */
  datatype Keys = Keys(upPressed: bool, upHeld: bool, downPressed: bool, downHeld: bool,
                       leftPressed: bool, rightPressed: bool, aPressed: bool, bPressed: bool)

  datatype Vertical = Stay | StepUp | StepDown

  /** A held direction fires on the frame the counter reaches the delay and every `RepeatRate` frames after. */
  predicate Fires(frames: int) {
    frames >= RepeatDelay && (frames - RepeatDelay) % RepeatRate == 0
  }

  /**
   * The repeat counter: a press moves at once and restarts the count; a
   * hold counts up and moves when the count fires; up wins over down; with
   * neither, the count restarts.
   */
  function HoldRepeat(k: Keys, frames: int): (r: (Vertical, int))
    ensures k.upPressed ==> r == (StepUp, 0)
    ensures !k.upPressed && k.upHeld ==> r.1 == frames + 1 && (r.0 == StepUp <==> Fires(frames + 1)) && r.0 != StepDown
    ensures !k.upPressed && !k.upHeld && k.downPressed ==> r == (StepDown, 0)
    ensures !k.upPressed && !k.upHeld && !k.downPressed && k.downHeld ==>
      r.1 == frames + 1 && (r.0 == StepDown <==> Fires(frames + 1)) && r.0 != StepUp
    ensures !k.upPressed && !k.upHeld && !k.downPressed && !k.downHeld ==> r == (Stay, 0)
  {
    if k.upPressed then (StepUp, 0)
    else if k.upHeld then
      var f := frames + 1;
      (if f >= RepeatDelay && (f - RepeatDelay) % RepeatRate == 0 then StepUp else Stay, f)
    else if k.downPressed then (StepDown, 0)
    else if k.downHeld then
      var f := frames + 1;
      (if f >= RepeatDelay && (f - RepeatDelay) % RepeatRate == 0 then StepDown else Stay, f)
    else (Stay, 0)
  }

  const HoldUp := Keys(false, true, false, false, false, false, false, false)

  /** Moves produced by holding up for `k` more frames from counter `frames`. */
  function HeldMoves(frames: int, k: nat): nat
    decreases k
  {
    if k == 0 then 0
    else
      var r := HoldRepeat(HoldUp, frames);
      (if r.0 == StepUp then 1 else 0) + HeldMoves(r.1, k - 1)
  }

  /** How many times a hold counted up to `f` frames has fired. */
  function Repeats(f: int): nat {
    if f < RepeatDelay then 0 else (f - RepeatDelay) / RepeatRate + 1
  }

  lemma RepeatsStep(f: int)
    requires f >= 0
    ensures Repeats(f + 1) == Repeats(f) + (if Fires(f + 1) then 1 else 0)
  {
    if f + 1 > RepeatDelay {
      var m := f - RepeatDelay;
      assert (m + 1) / 8 == m / 8 + (if (m + 1) % 8 == 0 then 1 else 0);
    }
  }

  /**
   * After a press, holding for `k` frames repeats once at frame 30 and
   * every 8 frames after: `Repeats(k)` moves in all.
   */
  lemma {:induction false} HoldRepeatCount(frames: nat, k: nat)
    ensures HeldMoves(frames, k) == Repeats(frames + k) - Repeats(frames)
    decreases k
  {
    if k > 0 {
      RepeatsStep(frames);
      HoldRepeatCount(frames + 1, k - 1);
    }
  }

  // ---------------------------------------------------------------------
  // The settings list

  /** Up wraps from the first entry to the last. */
  function WrapUp(i: int): (r: int)
    requires 0 <= i < SettingsCount
    ensures 0 <= r < SettingsCount
    ensures r == if i == 0 then SettingsCount - 1 else i - 1
  {
    (i - 1 + SettingsCount) % SettingsCount
  }

  /** Down wraps from the last entry to the first. */
  function WrapDown(i: int): (r: int)
    requires 0 <= i < SettingsCount
    ensures 0 <= r < SettingsCount
    ensures r == if i == SettingsCount - 1 then 0 else i + 1
  {
    (i + 1) % SettingsCount
  }

  lemma WrapInverse(i: int)
    requires 0 <= i < SettingsCount
    ensures WrapUp(WrapDown(i)) == i && WrapDown(WrapUp(i)) == i
  {
  }

  /** Going down `SettingsCount` times returns to the start. */
  lemma {:induction false} WrapDownCycle(i: int, k: nat)
    requires 0 <= i < SettingsCount
    ensures 0 <= DownTimes(i, k) < SettingsCount
    ensures DownTimes(i, k) == (i + k) % SettingsCount
    decreases k
  {
    if k > 0 {
      WrapDownCycle(i, k - 1);
    }
  }

  function DownTimes(i: int, k: nat): int
    requires 0 <= i < SettingsCount
    decreases k
  {
    if k == 0 then i
    else
      var p := DownTimes(i, k - 1);
      if 0 <= p < SettingsCount then WrapDown(p) else p
  }

  /** What an A press on the list asks for. */
  datatype Action = NoAction | OpenLanguageDialog | ToggleBgm | ToggleLogging | ToggleVerbose | ClearCache | Leave

  function ActionOf(item: SettingsItem): (a: Action)
    ensures a == NoAction <==> item == DownloadPathItem
  {
    match item
    case LanguageItem => OpenLanguageDialog
    case DownloadPathItem => NoAction
    case BgmItem => ToggleBgm
    case LoggingItem => ToggleLogging
    case VerboseItem => ToggleVerbose
    case ClearCacheItem => ClearCache
  }

  /** The screen state the model keeps; drawing state and animations are not part of it. */
  datatype Settings = Settings(selected: int, holdFrames: int, dialogOpen: bool, dialogHold: int,
                               cell: Cell, latched: bool)

  predicate SettingsInvariant(s: Settings, n: nat) {
    && 0 <= s.selected < SettingsCount
    && (n > 0 ==> OnGrid(n, s.cell))
  }

  /**
   * One frame of the list with the dialog closed: the back button or B
   * leaves; otherwise the repeat counter moves the selection, wrapping, and A
   * acts on the entry now selected.
   */
  function ListStep(s: Settings, k: Keys, backTouched: bool): (r: (Settings, Action))
    requires 0 <= s.selected < SettingsCount
    ensures 0 <= r.0.selected < SettingsCount
    ensures backTouched || k.bPressed ==> r == (s, Leave)
    ensures !backTouched && !k.bPressed ==>
      && r.0.selected == (match HoldRepeat(k, s.holdFrames).0
                          case StepUp => WrapUp(s.selected)
                          case StepDown => WrapDown(s.selected)
                          case Stay => s.selected)
      && r.0.holdFrames == HoldRepeat(k, s.holdFrames).1
      && r.1 == (if k.aPressed then ActionOf(ItemAt(r.0.selected)) else NoAction)
      && (r.0.dialogOpen <==> s.dialogOpen || r.1 == OpenLanguageDialog)
    ensures r.0.cell == s.cell && r.0.latched == s.latched && r.0.dialogHold == s.dialogHold
  {
    if backTouched || k.bPressed then (s, Leave)
    else
      var (v, frames) := HoldRepeat(k, s.holdFrames);
      var sel := match v
        case StepUp => WrapUp(s.selected)
        case StepDown => WrapDown(s.selected)
        case Stay => s.selected;
      var action := if k.aPressed then ActionOf(ItemAt(sel)) else NoAction;
      (s.(selected := sel, holdFrames := frames, dialogOpen := s.dialogOpen || action == OpenLanguageDialog), action)
  }

  // ---------------------------------------------------------------------
  // The language dialog

  /**
   * One frame of the open dialog over `n` languages. B closes it and
   * restarts the counter and nothing else happens; otherwise a touch, the
   * repeat counter, a column switch and A run in that order. The result
   * lists the language indexes applied this frame.
   */
  function DialogStep(s: Settings, n: nat, k: Keys, t: Touch): (r: (Settings, seq<nat>))
    requires TouchFits(n, t)
    ensures k.bPressed ==> r == (s.(dialogOpen := false, dialogHold := 0), [])
    ensures n > 0 && OnGrid(n, s.cell) ==> OnGrid(n, r.0.cell)
    ensures forall j :: 0 <= j < |r.1| ==> r.1[j] < n
    ensures !k.bPressed && k.aPressed && n > 0 && OnGrid(n, s.cell) ==>
      !r.0.dialogOpen && |r.1| > 0 && r.1[|r.1| - 1] == IndexOf(n, r.0.cell)
    ensures r.0.dialogOpen ==> s.dialogOpen && r.1 == []
    ensures !k.bPressed ==> (r.0.dialogOpen <==> s.dialogOpen && r.1 == [])
    ensures !k.bPressed ==>
      var touched := TouchCard(n, s.cell, s.latched, t);
      && r.0.latched == touched.latched
      && (touched.confirmed.Some? ==> |r.1| > 0 && r.1[0] == touched.confirmed.value)
      && (!k.aPressed ==> r.1 == if touched.confirmed.Some? then [touched.confirmed.value] else [])
      && (r.0.cell, r.0.dialogHold)
         == DialogMoves(n, touched.cell, HoldRepeat(k, s.dialogHold).0, k, HoldRepeat(k, s.dialogHold).1)
    ensures r.0.selected == s.selected && r.0.holdFrames == s.holdFrames
  {
    if k.bPressed then (s.(dialogOpen := false, dialogHold := 0), [])
    else
      var touched := TouchCard(n, s.cell, s.latched, t);
      var byTouch := if touched.confirmed.Some? then [touched.confirmed.value] else [];
      var (v, frames) := HoldRepeat(k, s.dialogHold);
      var (cell, hold) := DialogMoves(n, touched.cell, v, k, frames);
      var chosen := Selected(n, cell);
      var byA := if k.aPressed && chosen.Some? then [chosen.value] else [];
      var open := s.dialogOpen && touched.confirmed.None? && byA == [];
      (s.(dialogOpen := open, dialogHold := hold, cell := cell, latched := touched.latched), byTouch + byA)
  }

  /** The vertical step the counter asked for, then a column switch, which restarts the counter. */
  function DialogMoves(n: nat, c: Cell, v: Vertical, k: Keys, frames: int): (r: (Cell, int))
    ensures OnGrid(n, c) ==> OnGrid(n, r.0)
    ensures OnGrid(n, c) ==>
      var j := match v
        case StepUp => UpIndex(IndexOf(n, c))
        case StepDown => DownIndex(n, IndexOf(n, c))
        case Stay => IndexOf(n, c);
      if k.leftPressed && j >= ItemsPerColumn(n) then IndexOf(n, r.0) == LeftIndex(n, j) && r.1 == 0
      else if k.rightPressed && j < ItemsPerColumn(n) then IndexOf(n, r.0) == RightIndex(n, j) && r.1 == 0
      else IndexOf(n, r.0) == j && r.1 == frames
  {
    var moved := match v
      case StepUp => MoveUp(n, c)
      case StepDown => MoveDown(n, c)
      case Stay => c;
    if k.leftPressed && moved.column == 1 then (MoveLeft(n, moved), 0)
    else if k.rightPressed && moved.column == 0 then (MoveRight(n, moved), 0)
    else (moved, frames)
  }

  /** The dialog keeps the selection on the grid frame after frame. */
  lemma DialogKeepsInvariant(s: Settings, n: nat, k: Keys, t: Touch)
    requires TouchFits(n, t) && SettingsInvariant(s, n)
    ensures SettingsInvariant(DialogStep(s, n, k, t).0, n)
  {
    if n > 0 && !k.bPressed {
      TouchKeepsGrid(n, s.cell, s.latched, t);
    }
  }

  // ---------------------------------------------------------------------
  // Case-insensitive names

  /** `tolower` in the C locale: only ASCII capitals change. */
  function Lower(c: char): (l: char)
    ensures 'A' <= c <= 'Z' ==> l as int == c as int + 32
    ensures !('A' <= c <= 'Z') ==> l == c
  {
    if 'A' <= c <= 'Z' then (c as int + 32) as char else c
  }

  /** Reference meaning: same length and the same letters up to case. */
  predicate SameIgnoringCase(a: string, b: string) {
    |a| == |b| && forall k :: 0 <= k < |a| ==> Lower(a[k]) == Lower(b[k])
  }

  /**
   * The directory-scan comparison: walks both C strings while neither has
   * ended, fails on the first letter that differs up to case, and at the
   * end asks whether both ended together.
   */
  method CaseInsensitiveEqual(s1: string, s2: string) returns (eq: bool)
    ensures eq <==> SameIgnoringCase(CStr(s1), CStr(s2))
  {
    var a, b := CStr(s1), CStr(s2);
    var i := 0;
    while i < |s1| && s1[i] != '\0' && i < |s2| && s2[i] != '\0'
      invariant 0 <= i <= |a| && i <= |b|
      invariant forall k :: 0 <= k < i ==> Lower(a[k]) == Lower(b[k])
    {
      assert a[i] == s1[i] && b[i] == s2[i];
      if Lower(s1[i]) != Lower(s2[i]) {
        return false;
      }
      i := i + 1;
    }
    var c1 := if i < |s1| then s1[i] else '\0';
    var c2 := if i < |s2| then s2[i] else '\0';
    CStrEndsAt(s1, i);
    CStrEndsAt(s2, i);
    assert c1 == '\0' <==> |a| == i;
    assert c2 == '\0' <==> |b| == i;
    eq := c1 == c2;
  }

  /** Reference meaning: the names equal to `target` up to case, once each and in listing order. */
  function Matching(names: seq<string>, target: string): seq<string> {
    if |names| == 0 then []
    else
      var last := names[|names| - 1];
      Matching(names[..|names| - 1], target) + (if SameIgnoringCase(CStr(last), CStr(target)) then [last] else [])
  }

  /**
   * The names in a directory listing that the cache clear picks for
   * `target`, one per `readdir` entry in listing order. The program then
   * removes a picked folder only when `stat` says it is a directory; that
   * test is not part of this model.
   */
  method MatchingNames(names: seq<string>, target: string) returns (hits: seq<string>)
    ensures forall x :: x in hits ==> x in names && SameIgnoringCase(CStr(x), CStr(target))
    ensures forall x :: x in names && SameIgnoringCase(CStr(x), CStr(target)) ==> x in hits
    ensures hits == Matching(names, target)
  {
    hits := [];
    var i := 0;
    while i < |names|
      invariant 0 <= i <= |names|
      invariant forall x :: x in hits ==> x in names[..i] && SameIgnoringCase(CStr(x), CStr(target))
      invariant forall x :: x in names[..i] && SameIgnoringCase(CStr(x), CStr(target)) ==> x in hits
      invariant hits == Matching(names[..i], target)
    {
      var eq := CaseInsensitiveEqual(names[i], target);
      if eq {
        hits := hits + [names[i]];
      }
      assert names[..i + 1] == names[..i] + [names[i]];
      i := i + 1;
    }
    assert names[..i] == names;
  }
}

=== FILE: text.dfy ===
/**
 * The pieces of C++ string handling the program relies on: `find`,
 * `std::getline` line splitting, `operator<<` on an `int`, and `std::stoi`.
 */
module Text {
  import opened Common

  /** `s.find(c, from)`: the first index at or after `from` holding `c`. */
  function FindChar(s: string, c: char, from: nat): (r: Option<nat>)
    decreases |s| - from
    ensures r.Some? ==> from <= r.value < |s| && s[r.value] == c
    ensures r.Some? ==> forall k :: from <= k < r.value ==> s[k] != c
    ensures r.None? ==> forall k :: from <= k < |s| ==> s[k] != c
  {
    if from >= |s| then None
    else if s[from] == c then Some(from)
    else FindChar(s, c, from + 1)
  }

  /** `pat` occurs in `s` starting at index `p`. */
  predicate OccursAt(s: string, pat: string, p: nat) {
    p + |pat| <= |s| && s[p..p + |pat|] == pat
  }

  /** `s.find(pat)`: the first index at or after `from` where `pat` occurs. */
  function FindSub(s: string, pat: string, from: nat): (r: Option<nat>)
    decreases |s| - from
    ensures r.Some? ==> from <= r.value && OccursAt(s, pat, r.value)
    ensures r.Some? ==> forall k :: from <= k < r.value ==> !OccursAt(s, pat, k)
    ensures r.None? ==> forall k :: from <= k ==> !OccursAt(s, pat, k)
  {
    if from + |pat| > |s| then None
    else if s[from..from + |pat|] == pat then Some(from)
    else FindSub(s, pat, from + 1)
  }

  /**
   * The lines `std::getline` reads from `s`, in order: the text between
   * newlines, with a final unterminated line kept when it is non-empty.
   */
  function SplitLines(s: string): (lines: seq<string>)
    decreases |s|
    ensures forall i :: 0 <= i < |lines| ==> '\n' !in lines[i]
  {
    if |s| == 0 then []
    else match FindChar(s, '\n', 0)
      case None => [s]
      case Some(i) => [s[..i]] + SplitLines(s[i + 1..])
  }

  /** The text a stream holds after writing each line followed by `"\n"`. */
  function JoinLines(lines: seq<string>): string {
    if |lines| == 0 then "" else lines[0] + "\n" + JoinLines(lines[1..])
  }

  /** Reading back newline-terminated lines gives the same lines. */
  lemma {:induction false} SplitJoin(lines: seq<string>)
    requires forall i :: 0 <= i < |lines| ==> '\n' !in lines[i]
    ensures SplitLines(JoinLines(lines)) == lines
  {
    if |lines| > 0 {
      var s := JoinLines(lines);
      var l := lines[0];
      assert s == l + "\n" + JoinLines(lines[1..]);
      assert s[|l|] == '\n';
      assert forall k :: 0 <= k < |l| ==> s[k] == l[k] && l[k] != '\n';
      assert FindChar(s, '\n', 0) == Some(|l|);
      assert s[..|l|] == l;
      assert s[|l| + 1..] == JoinLines(lines[1..]);
      SplitJoin(lines[1..]);
    }
  }

  function DigitChar(d: nat): char
    requires d < 10
  {
    "0123456789"[d]
  }

  predicate IsDigit(c: char) {
    '0' <= c <= '9'
  }

  function DigitValue(c: char): nat
    requires IsDigit(c)
  {
    (c as int - '0' as int) as nat
  }

  /** The decimal digits of `n`, as `operator<<` writes a non-negative integer. */
  function NatToString(n: nat): (s: string)
    ensures |s| > 0
    ensures forall i :: 0 <= i < |s| ==> IsDigit(s[i])
  {
    if n < 10 then [DigitChar(n)] else NatToString(n / 10) + [DigitChar(n % 10)]
  }

  /** `operator<<` on an `int`: a minus sign for negative values, then the digits. */
  function IntToString(n: int): string {
    if n < 0 then "-" + NatToString(-n) else NatToString(n)
  }

  /** The value of a non-empty run of decimal digits. */
  function DecimalValue(ds: string): nat
    requires forall i :: 0 <= i < |ds| ==> IsDigit(ds[i])
  {
    if |ds| == 0 then 0 else DecimalValue(ds[..|ds| - 1]) * 10 + DigitValue(ds[|ds| - 1])
  }

  /** The longest prefix of `s` made of decimal digits. */
  function DigitPrefix(s: string): (ds: string)
    ensures |ds| <= |s| && ds == s[..|ds|]
    ensures forall i :: 0 <= i < |ds| ==> IsDigit(ds[i])
    ensures |ds| < |s| ==> !IsDigit(s[|ds|])
  {
    if |s| == 0 || !IsDigit(s[0]) then "" else [s[0]] + DigitPrefix(s[1..])
  }

  /** The characters C's `isspace` accepts. */
  predicate IsSpace(c: char) {
    c == ' ' || c == '\t' || c == '\n' || c == '\r' || c == '\U{0B}' || c == '\U{0C}'
  }

  function SkipSpaces(s: string): (t: string)
    ensures |t| <= |s|
  {
    if |s| > 0 && IsSpace(s[0]) then SkipSpaces(s[1..]) else s
  }

  /** What `SkipSpaces` leaves is a suffix of `s` that does not start with white space. */
  lemma {:induction false} SkipSpacesSuffix(s: string)
    ensures var t := SkipSpaces(s); t == s[|s| - |t|..] && (|t| > 0 ==> !IsSpace(t[0]))
  {
    if |s| > 0 && IsSpace(s[0]) {
      SkipSpacesSuffix(s[1..]);
    }
  }

  /**
   * `std::stoi(s)`: leading white space, an optional sign, then the longest
   * run of digits; the rest of `s` is ignored. `None` stands for the
   * exceptions it throws: no digits at all (`invalid_argument`) or a value
   * outside the 32-bit `long` of the target (`out_of_range`).
   */
  function Stoi(s: string): (r: Option<int>)
    ensures r.Some? ==> IsInt32(r.value)
  {
    var t := SkipSpaces(s);
    var negative := |t| > 0 && t[0] == '-';
    var body := if |t| > 0 && (t[0] == '-' || t[0] == '+') then t[1..] else t;
    var ds := DigitPrefix(body);
    if |ds| == 0 then None
    else
      var magnitude: int := DecimalValue(ds);
      var v := if negative then -magnitude else magnitude;
      if IsInt32(v) then Some(v) else None
  }

  lemma {:induction false} DecimalOfNatToString(n: nat)
    ensures DecimalValue(NatToString(n)) == n
  {
    var s := NatToString(n);
    if n >= 10 {
      DecimalOfNatToString(n / 10);
      assert s[..|s| - 1] == NatToString(n / 10);
    }
  }

  lemma DigitPrefixOfDigits(s: string)
    requires forall i :: 0 <= i < |s| ==> IsDigit(s[i])
    ensures DigitPrefix(s) == s
  {
  }

  /** `std::stoi` reads back what `operator<<` wrote, for every 32-bit `int`. */
  lemma StoiIntToString(n: int)
    requires IsInt32(n)
    ensures Stoi(IntToString(n)) == Some(n)
  {
    var s := IntToString(n);
    var digits := if n < 0 then NatToString(-n) else NatToString(n);
    assert !IsSpace(s[0]);
    assert SkipSpaces(s) == s;
    if n < 0 {
      assert s[1..] == digits;
    }
    DigitPrefixOfDigits(digits);
    DecimalOfNatToString(if n < 0 then -n else n);
  }

  /** `s` holds no occurrence of `c`. */
  predicate Lacks(s: string, c: char) {
    forall i :: 0 <= i < |s| ==> s[i] != c
  }

  /**
   * What survives a trip through a C string (`c_str()`, or a `const char*`
   * assigned to a `std::string`): everything before the first NUL.
   */
  function CStr(s: string): (r: string)
    ensures |r| <= |s| && r == s[..|r|]
    ensures Lacks(r, '\0')
    ensures |r| < |s| ==> s[|r|] == '\0'
    ensures Lacks(s, '\0') ==> r == s
  {
    if |s| == 0 || s[0] == '\0' then "" else [s[0]] + CStr(s[1..])
  }

  /** Walking `s` from the start, the C string ends at `i` exactly when `s` ends there or holds a NUL there. */
  lemma CStrEndsAt(s: string, i: nat)
    requires i <= |CStr(s)|
    ensures |CStr(s)| == i <==> i == |s| || s[i] == '\0'
  {
    var r := CStr(s);
    if |r| > i {
      assert r[i] == s[i];
    }
  }
}

=== FILE: theme_catalog.dfy ===
/**
 * The theme catalogue of `ThemeManager`: reading the Themezer GraphQL
 * answer into theme records, the JSON cache those records are saved to and
 * read back from, the background update check and the cache-age rule.
 */
module ThemeCatalog {
  import opened Common
  import opened Json
  import opened Text

  datatype ThemeImage = ThemeImage(thumbUrl: string, hdUrl: string)

  /** One catalogue entry. */
  datatype Theme = Theme(
    id: string,
    shortId: string,
    name: string,
    author: string,
    description: string,
    downloads: int,
    likes: int,
    version: string,
    updatedAt: string,
    downloadUrl: string,
    collagePreview: ThemeImage,
    launcherScreenshot: ThemeImage,
    waraWaraScreenshot: ThemeImage,
    launcherBgUrl: string,
    waraWaraBgUrl: string,
    tags: seq<string>)

  const NoImage := ThemeImage("", "")

  /** A theme the list accepts: both its id and its name are non-empty. */
  predicate HasIdAndName(t: Theme) {
    t.id != "" && t.name != ""
  }

  // ---------------------------------------------------------------------
  // Reading members the way the parsers do: `HasMember(k) && [k].IsString()`
  // guards every read, so a wrong type just leaves the default in place.

  /** A string value cut at its first NUL, or `default` when absent or not a string. */
  function StringOr(v: Option<Json>, default: string): (s: string)
    ensures v.Some? && v.value.Str? ==> s == CStr(v.value.s)
    ensures (v.None? || !v.value.Str?) ==> s == default
    ensures Lacks(default, '\0') ==> Lacks(s, '\0')
  {
    match v
    case Some(Str(x)) => CStr(x)
    case _ => default
  }

  /** An `IsInt` value, or `default`. */
  function IntegerOr(v: Option<Json>, default: int): (n: int)
    ensures v.Some? && IsInt(v.value) ==> n == v.value.n
    ensures (v.None? || !IsInt(v.value)) ==> n == default
  {
    match v
    case Some(x) => if IsInt(x) then x.n else default
    case None => default
  }

  /** The string member `key` of `j`, or `default`. */
  function StrOr(j: Json, key: string, default: string): string {
    StringOr(Member(j, key), default)
  }

  /** The `IsInt` member `key` of `j`, or `default`. */
  function IntOr(j: Json, key: string, default: int): int {
    IntegerOr(Member(j, key), default)
  }

  // ---------------------------------------------------------------------
  // Short id

  const ThemesMarker: string := "/wiiu/themes/"

  /**
   * The short id in a download URL such as
   * `https://api.themezer.net/wiiu/themes/123/download`: the text between
   * the first `/wiiu/themes/` and the next `/`, or empty when either is
   * missing.
   */
  function ExtractShortId(url: string): (r: string)
    ensures (forall p :: !OccursAt(url, ThemesMarker, p)) ==> r == ""
    ensures r != "" ==> Lacks(r, '/')
    ensures r != "" ==> exists p: nat :: OccursAt(url, ThemesMarker, p) && OccursAt(url, r + "/", p + |ThemesMarker|)
  {
    match FindSub(url, ThemesMarker, 0)
    case None => ""
    case Some(p) =>
      match FindChar(url, '/', p + |ThemesMarker|)
      case None => ""
      case Some(q) =>
        var r := url[p + |ThemesMarker|..q];
        assert (r + "/") == url[p + |ThemesMarker|..q + 1];
        r
  }

  /** The marker does not start anywhere inside `base`. */
  predicate NoEarlierMarker(base: string) {
    forall k :: 0 <= k < |base| ==> !OccursAt(base + ThemesMarker, ThemesMarker, k)
  }

  /** A URL built as prefix, marker, id, `/`, anything yields exactly that id. */
  lemma ShortIdOfDownloadUrl(base: string, sid: string, rest: string)
    requires NoEarlierMarker(base)
    requires Lacks(sid, '/')
    ensures ExtractShortId(base + ThemesMarker + sid + "/" + rest) == sid
  {
    var url := base + ThemesMarker + sid + "/" + rest;
    var m := |ThemesMarker|;
    assert url[|base|..|base| + m] == ThemesMarker;
    assert OccursAt(url, ThemesMarker, |base|);
    forall k | 0 <= k < |base|
      ensures !OccursAt(url, ThemesMarker, k)
    {
      assert !OccursAt(base + ThemesMarker, ThemesMarker, k);
      assert forall j :: k <= j < k + m ==> url[j] == (base + ThemesMarker)[j];
      assert url[k..k + m] == (base + ThemesMarker)[k..k + m];
    }
    assert FindSub(url, ThemesMarker, 0) == Some(|base|);
    var q := |base| + m + |sid|;
    assert url[q] == '/';
    forall k | |base| + m <= k < q
      ensures url[k] != '/'
    {
      assert url[k] == sid[k - |base| - m];
    }
    assert FindChar(url, '/', |base| + m) == Some(q);
    assert url[|base| + m..q] == sid;
  }

  // ---------------------------------------------------------------------
  // ParseThemezerResponse

  /** `parseImageSizes` on an image object. */
  function ImageOf(obj: Json): (img: ThemeImage)
    ensures Lacks(img.thumbUrl, '\0') && Lacks(img.hdUrl, '\0')
  {
    ThemeImage(StrOr(obj, "thumbUrl", ""), StrOr(obj, "hdUrl", ""))
  }

  /** An image member when it is an object, else no image. */
  function ImageMember(node: Json, key: string): (img: ThemeImage)
    ensures Lacks(img.thumbUrl, '\0') && Lacks(img.hdUrl, '\0')
  {
    match Member(node, key)
    case Some(Obj(m)) => ImageOf(Obj(m))
    case _ => NoImage
  }

  /** The `name` of every tag object that has a string one, in order. */
  function TagNames(tags: seq<Json>): (names: seq<string>)
    ensures |names| <= |tags|
    ensures forall i :: 0 <= i < |names| ==> Lacks(names[i], '\0')
  {
    if |tags| == 0 then []
    else
      var first := match Member(tags[0], "name")
                   case Some(Str(n)) => [CStr(n)]
                   case _ => [];
      first + TagNames(tags[1..])
  }

  /** The `tags` member when it is an array. */
  function NodeTags(node: Json): (tags: seq<string>)
    ensures forall i :: 0 <= i < |tags| ==> Lacks(tags[i], '\0')
  {
    match Member(node, "tags")
    case Some(Arr(items)) => TagNames(items)
    case _ => []
  }

  /** The author is the `username` of a `creator` object. */
  function CreatorName(node: Json): (name: string)
    ensures Lacks(name, '\0')
  {
    match Member(node, "creator")
    case Some(Obj(m)) => StrOr(Obj(m), "username", "")
    case _ => ""
  }

  /** A theme built from one GraphQL node object. */
  function ParseNode(node: Json): (t: Theme)
    requires node.Obj?
    ensures t.version == "1.0"
    ensures t.shortId == ExtractShortId(t.downloadUrl)
    ensures Storable(t)
  {
    var url := StrOr(node, "downloadUrl", "");
    Theme(
      id := StrOr(node, "uuid", ""),
      shortId := ExtractShortId(url),
      name := StrOr(node, "name", ""),
      author := CreatorName(node),
      description := StrOr(node, "description", ""),
      downloads := IntOr(node, "downloadCount", 0),
      likes := IntOr(node, "saveCount", 0),
      version := "1.0",
      updatedAt := StrOr(node, "updatedAt", ""),
      downloadUrl := url,
      collagePreview := ImageMember(node, "collagePreview"),
      launcherScreenshot := ImageMember(node, "launcherScreenshot"),
      waraWaraScreenshot := ImageMember(node, "waraWaraPlazaScreenshot"),
      launcherBgUrl := StrOr(node, "launcherBgUrl", ""),
      waraWaraBgUrl := StrOr(node, "waraWaraPlazaBgUrl", ""),
      tags := NodeTags(node))
  }

  /** A node the parser keeps: an object whose theme has an id and a name. */
  predicate Accepted(node: Json) {
    node.Obj? && HasIdAndName(ParseNode(node))
  }

  /** The themes of the accepted nodes, in node order. */
  function KeepNodes(nodes: seq<Json>): (ts: seq<Theme>)
    ensures |ts| <= |nodes|
    ensures forall i :: 0 <= i < |ts| ==> HasIdAndName(ts[i]) && Storable(ts[i]) && ts[i].version == "1.0"
  {
    if |nodes| == 0 then []
    else
      var rest := KeepNodes(nodes[1..]);
      if Accepted(nodes[0]) then [ParseNode(nodes[0])] + rest else rest
  }

  /** Filtering distributes over concatenation, so it keeps node order. */
  lemma {:induction false} KeepNodesAppend(a: seq<Json>, b: seq<Json>)
    ensures KeepNodes(a + b) == KeepNodes(a) + KeepNodes(b)
  {
    if |a| > 0 {
      assert (a + b)[1..] == a[1..] + b;
      KeepNodesAppend(a[1..], b);
    } else {
      assert a + b == b;
    }
  }

  /** Exactly the accepted nodes contribute a theme. */
  lemma KeepNodesSingle(node: Json)
    ensures KeepNodes([node]) == if Accepted(node) then [ParseNode(node)] else []
  {
    assert [node][1..] == [];
  }

  /** `root.data.wiiuThemes.nodes`, when each step is of the expected kind. */
  function ThemeNodes(root: Json): (r: Option<seq<Json>>)
    ensures r.Some? ==> root.Obj?
  {
    if !root.Obj? then None
    else
      match Member(root, "data")
      case Some(Obj(dm)) =>
        (match Member(Obj(dm), "wiiuThemes")
         case Some(Obj(wm)) =>
           (match Member(Obj(wm), "nodes")
            case Some(Arr(items)) => Some(items)
            case _ => None)
         case _ => None)
      case _ => None
  }

  datatype ParseResult = ParseResult(ok: bool, themes: seq<Theme>)

  /**
   * `ParseThemezerResponse`: the list is cleared first, whatever happens;
   * `doc` is `None` when the body does not parse as JSON.
   */
  function ParseThemezerResponse(doc: Option<Json>): (r: ParseResult)
    ensures doc.None? || ThemeNodes(doc.value).None? ==> r == ParseResult(false, [])
    ensures doc.Some? && ThemeNodes(doc.value).Some? ==> r.themes == KeepNodes(ThemeNodes(doc.value).value)
    ensures r.ok <==> |r.themes| > 0
  {
    if doc.None? then ParseResult(false, [])
    else
      match ThemeNodes(doc.value)
      case None => ParseResult(false, [])
      case Some(nodes) =>
        var ts := KeepNodes(nodes);
        ParseResult(|ts| > 0, ts)
  }

  // ---------------------------------------------------------------------
  // SerializeThemes / DeserializeThemes

  /** What the cache format carries without loss: NUL-free strings and 32-bit counts. */
  predicate Storable(t: Theme) {
    && IsInt32(t.downloads) && IsInt32(t.likes)
    && Lacks(t.id, '\0') && Lacks(t.shortId, '\0') && Lacks(t.name, '\0') && Lacks(t.author, '\0')
    && Lacks(t.description, '\0') && Lacks(t.version, '\0') && Lacks(t.updatedAt, '\0')
    && Lacks(t.downloadUrl, '\0')
    && Lacks(t.collagePreview.thumbUrl, '\0') && Lacks(t.collagePreview.hdUrl, '\0')
    && Lacks(t.launcherScreenshot.thumbUrl, '\0') && Lacks(t.launcherScreenshot.hdUrl, '\0')
    && Lacks(t.waraWaraScreenshot.thumbUrl, '\0') && Lacks(t.waraWaraScreenshot.hdUrl, '\0')
    && Lacks(t.launcherBgUrl, '\0') && Lacks(t.waraWaraBgUrl, '\0')
    && (forall i :: 0 <= i < |t.tags| ==> Lacks(t.tags[i], '\0'))
  }

  /** The scalar members of a cached theme, in the order the writer emits them. */
  datatype Field =
    | IdField | ShortIdField | NameField | AuthorField | DescriptionField
    | DownloadsField | LikesField | VersionField | UpdatedAtField | DownloadUrlField
    | CollageThumbField | CollageHdField | LauncherThumbField | LauncherHdField
    | WaraWaraThumbField | WaraWaraHdField | LauncherBgField | WaraWaraBgField

  const Fields: seq<Field> := [
    IdField, ShortIdField, NameField, AuthorField, DescriptionField,
    DownloadsField, LikesField, VersionField, UpdatedAtField, DownloadUrlField,
    CollageThumbField, CollageHdField, LauncherThumbField, LauncherHdField,
    WaraWaraThumbField, WaraWaraHdField, LauncherBgField, WaraWaraBgField]

  /** The field a cache key names, if any. */
  function FieldOf(key: string): Option<Field> {
    if key == "id" then Some(IdField)
    else if key == "shortId" then Some(ShortIdField)
    else if key == "name" then Some(NameField)
    else if key == "author" then Some(AuthorField)
    else if key == "description" then Some(DescriptionField)
    else if key == "downloads" then Some(DownloadsField)
    else if key == "likes" then Some(LikesField)
    else if key == "version" then Some(VersionField)
    else if key == "updatedAt" then Some(UpdatedAtField)
    else if key == "downloadUrl" then Some(DownloadUrlField)
    else if key == "collageThumbUrl" then Some(CollageThumbField)
    else if key == "collageHdUrl" then Some(CollageHdField)
    else if key == "launcherThumbUrl" then Some(LauncherThumbField)
    else if key == "launcherHdUrl" then Some(LauncherHdField)
    else if key == "waraWaraThumbUrl" then Some(WaraWaraThumbField)
    else if key == "waraWaraHdUrl" then Some(WaraWaraHdField)
    else if key == "launcherBgUrl" then Some(LauncherBgField)
    else if key == "waraWaraBgUrl" then Some(WaraWaraBgField)
    else None
  }

  /** The key a field is written under. */
  function Key(f: Field): string {
    match f
    case IdField => "id"
    case ShortIdField => "shortId"
    case NameField => "name"
    case AuthorField => "author"
    case DescriptionField => "description"
    case DownloadsField => "downloads"
    case LikesField => "likes"
    case VersionField => "version"
    case UpdatedAtField => "updatedAt"
    case DownloadUrlField => "downloadUrl"
    case CollageThumbField => "collageThumbUrl"
    case CollageHdField => "collageHdUrl"
    case LauncherThumbField => "launcherThumbUrl"
    case LauncherHdField => "launcherHdUrl"
    case WaraWaraThumbField => "waraWaraThumbUrl"
    case WaraWaraHdField => "waraWaraHdUrl"
    case LauncherBgField => "launcherBgUrl"
    case WaraWaraBgField => "waraWaraBgUrl"
  }

  /** Where a field sits in `Fields`. */
  function Position(f: Field): (i: nat)
    ensures i < |Fields| && Fields[i] == f
  {
    match f
    case IdField => 0
    case ShortIdField => 1
    case NameField => 2
    case AuthorField => 3
    case DescriptionField => 4
    case DownloadsField => 5
    case LikesField => 6
    case VersionField => 7
    case UpdatedAtField => 8
    case DownloadUrlField => 9
    case CollageThumbField => 10
    case CollageHdField => 11
    case LauncherThumbField => 12
    case LauncherHdField => 13
    case WaraWaraThumbField => 14
    case WaraWaraHdField => 15
    case LauncherBgField => 16
    case WaraWaraBgField => 17
  }

  /** The value written for a field: `writer.String(x.c_str())` or `writer.Int(n)`. */
  function FieldValue(t: Theme, f: Field): Json {
    match f
    case IdField => Str(CStr(t.id))
    case ShortIdField => Str(CStr(t.shortId))
    case NameField => Str(CStr(t.name))
    case AuthorField => Str(CStr(t.author))
    case DescriptionField => Str(CStr(t.description))
    case DownloadsField => Num(t.downloads)
    case LikesField => Num(t.likes)
    case VersionField => Str(CStr(t.version))
    case UpdatedAtField => Str(CStr(t.updatedAt))
    case DownloadUrlField => Str(CStr(t.downloadUrl))
    case CollageThumbField => Str(CStr(t.collagePreview.thumbUrl))
    case CollageHdField => Str(CStr(t.collagePreview.hdUrl))
    case LauncherThumbField => Str(CStr(t.launcherScreenshot.thumbUrl))
    case LauncherHdField => Str(CStr(t.launcherScreenshot.hdUrl))
    case WaraWaraThumbField => Str(CStr(t.waraWaraScreenshot.thumbUrl))
    case WaraWaraHdField => Str(CStr(t.waraWaraScreenshot.hdUrl))
    case LauncherBgField => Str(CStr(t.launcherBgUrl))
    case WaraWaraBgField => Str(CStr(t.waraWaraBgUrl))
  }

  function TagValues(tags: seq<string>): (items: seq<Json>)
    ensures |items| == |tags|
    ensures forall i :: 0 <= i < |tags| ==> items[i] == Str(CStr(tags[i]))
  {
    if |tags| == 0 then [] else [Str(CStr(tags[0]))] + TagValues(tags[1..])
  }

  /** A theme's values, one per field. */
  function ValuesOf(t: Theme): Field -> Json {
    f => FieldValue(t, f)
  }

  /** One member per field, in `Fields` order. */
  function FieldMembers(v: Field -> Json): (ms: seq<(string, Json)>)
    ensures |ms| == |Fields|
    ensures forall i :: 0 <= i < |Fields| ==> ms[i] == (Key(Fields[i]), v(Fields[i]))
  {
    seq(|Fields|, i requires 0 <= i < |Fields| => (Key(Fields[i]), v(Fields[i])))
  }

  /** The `tags` member, written only when there are tags. */
  function TagsMember(tags: seq<string>): seq<(string, Json)> {
    if |tags| > 0 then [("tags", Arr(TagValues(tags)))] else []
  }

  /** One cached theme: every field of `Fields`, then `tags` only when there are any. */
  function SerializeTheme(t: Theme): Json {
    Obj(FieldMembers(ValuesOf(t)) + TagsMember(t.tags))
  }

  /** The cache document: `{ "themes": [ ... ] }`. */
  function SerializeThemes(ts: seq<Theme>): (doc: Json)
    ensures doc.Obj? && Member(doc, "themes").Some? && Member(doc, "themes").value.Arr?
    ensures |Member(doc, "themes").value.items| == |ts|
    ensures forall i :: 0 <= i < |ts| ==> Member(doc, "themes").value.items[i] == SerializeTheme(ts[i])
  {
    assert Obj([("themes", Arr(seq(|ts|, i requires 0 <= i < |ts| => SerializeTheme(ts[i]))))]).members[0].0 == "themes";
    Obj([("themes", Arr(seq(|ts|, i requires 0 <= i < |ts| => SerializeTheme(ts[i]))))])
  }

  /** The string entries of a cached `tags` array; anything else is skipped. */
  function CachedTags(items: seq<Json>): (tags: seq<string>)
    ensures |tags| <= |items|
  {
    if |items| == 0 then []
    else
      var first := match items[0] case Str(s) => [CStr(s)] case _ => [];
      first + CachedTags(items[1..])
  }

  /** Member lookup on `obj`, as a function of the key. */
  function MembersOf(obj: Json): string -> Option<Json> {
    key => Member(obj, key)
  }

  /**
   * A theme read back from the members of one cached object, each field from
   * the key it is written under; absent or mistyped members keep their
   * defaults.
   */
  function ThemeFromMembers(get: string -> Option<Json>): Theme {
    Theme(
      id := StringOr(get(Key(IdField)), ""),
      shortId := StringOr(get(Key(ShortIdField)), ""),
      name := StringOr(get(Key(NameField)), ""),
      author := StringOr(get(Key(AuthorField)), ""),
      description := StringOr(get(Key(DescriptionField)), ""),
      downloads := IntegerOr(get(Key(DownloadsField)), 0),
      likes := IntegerOr(get(Key(LikesField)), 0),
      version := StringOr(get(Key(VersionField)), ""),
      updatedAt := StringOr(get(Key(UpdatedAtField)), ""),
      downloadUrl := StringOr(get(Key(DownloadUrlField)), ""),
      collagePreview := ThemeImage(StringOr(get(Key(CollageThumbField)), ""), StringOr(get(Key(CollageHdField)), "")),
      launcherScreenshot := ThemeImage(StringOr(get(Key(LauncherThumbField)), ""), StringOr(get(Key(LauncherHdField)), "")),
      waraWaraScreenshot := ThemeImage(StringOr(get(Key(WaraWaraThumbField)), ""), StringOr(get(Key(WaraWaraHdField)), "")),
      launcherBgUrl := StringOr(get(Key(LauncherBgField)), ""),
      waraWaraBgUrl := StringOr(get(Key(WaraWaraBgField)), ""),
      tags := match get("tags") case Some(Arr(items)) => CachedTags(items) case _ => [])
  }

  function ReadCachedTheme(obj: Json): Theme {
    ThemeFromMembers(MembersOf(obj))
  }

  /** The objects among `items` whose theme, as `read` reads it, has an id and a name, in order. */
  function KeepRead(items: seq<Json>, read: Json -> Theme): (ts: seq<Theme>)
    ensures |ts| <= |items|
    ensures forall i :: 0 <= i < |ts| ==> HasIdAndName(ts[i])
  {
    if |items| == 0 then []
    else
      var rest := KeepRead(items[1..], read);
      if items[0].Obj? && HasIdAndName(read(items[0])) then [read(items[0])] + rest else rest
  }

  lemma {:induction false} KeepReadAllKept(items: seq<Json>, read: Json -> Theme)
    requires forall i :: 0 <= i < |items| ==> items[i].Obj? && HasIdAndName(read(items[i]))
    ensures |KeepRead(items, read)| == |items|
    ensures forall i :: 0 <= i < |items| ==> KeepRead(items, read)[i] == read(items[i])
  {
    if |items| > 0 {
      assert items[0].Obj? && HasIdAndName(read(items[0]));
      KeepReadAllKept(items[1..], read);
    }
  }

  lemma {:induction false} KeepReadNoneKept(items: seq<Json>, read: Json -> Theme)
    requires forall i :: 0 <= i < |items| ==> !(items[i].Obj? && HasIdAndName(read(items[i])))
    ensures KeepRead(items, read) == []
  {
    if |items| > 0 {
      assert !(items[0].Obj? && HasIdAndName(read(items[0])));
      KeepReadNoneKept(items[1..], read);
    }
  }

  lemma {:induction false} KeepReadAppend(a: seq<Json>, b: seq<Json>, read: Json -> Theme)
    ensures KeepRead(a + b, read) == KeepRead(a, read) + KeepRead(b, read)
  {
    if |a| > 0 {
      assert (a + b)[1..] == a[1..] + b;
      KeepReadAppend(a[1..], b, read);
    } else {
      assert a + b == b;
    }
  }

  /** A cached entry the loader keeps: an object whose theme has an id and a name. */
  predicate KeptEntry(item: Json) {
    item.Obj? && HasIdAndName(ReadCachedTheme(item))
  }

  /** The cached objects whose theme has an id and a name, in order. */
  function KeepCached(items: seq<Json>): (ts: seq<Theme>)
    ensures |ts| <= |items|
    ensures forall i :: 0 <= i < |ts| ==> HasIdAndName(ts[i])
  {
    KeepRead(items, ReadCachedTheme)
  }

  /** The tag filter distributes over concatenation, so tag order is kept. */
  lemma {:induction false} CachedTagsAppend(a: seq<Json>, b: seq<Json>)
    ensures CachedTags(a + b) == CachedTags(a) + CachedTags(b)
  {
    if |a| > 0 {
      assert (a + b)[1..] == a[1..] + b;
      CachedTagsAppend(a[1..], b);
    } else {
      assert a + b == b;
    }
  }

  /** A tags array of strings gives each string, cut at its first NUL, in order. */
  lemma {:induction false} CachedTagsAllStrings(items: seq<Json>)
    requires forall i :: 0 <= i < |items| ==> items[i].Str?
    ensures |CachedTags(items)| == |items|
    ensures forall i :: 0 <= i < |items| ==> CachedTags(items)[i] == CStr(items[i].s)
  {
    if |items| > 0 {
      assert items[0].Str?;
      CachedTagsAllStrings(items[1..]);
    }
  }

  /** Entries that are not strings give no tags. */
  lemma {:induction false} CachedTagsNoStrings(items: seq<Json>)
    requires forall i :: 0 <= i < |items| ==> !items[i].Str?
    ensures CachedTags(items) == []
  {
    if |items| > 0 {
      assert !items[0].Str?;
      CachedTagsNoStrings(items[1..]);
    }
  }

  /** When every entry is kept, the list is the entries' themes, one for one and in order. */
  lemma KeepCachedAllKept(items: seq<Json>)
    requires forall i :: 0 <= i < |items| ==> KeptEntry(items[i])
    ensures |KeepCached(items)| == |items|
    ensures forall i :: 0 <= i < |items| ==> KeepCached(items)[i] == ReadCachedTheme(items[i])
  {
    KeepReadAllKept(items, ReadCachedTheme);
  }

  /** Entries that are not objects, or lack an id or a name, contribute nothing. */
  lemma KeepCachedNoneKept(items: seq<Json>)
    requires forall i :: 0 <= i < |items| ==> !KeptEntry(items[i])
    ensures KeepCached(items) == []
  {
    KeepReadNoneKept(items, ReadCachedTheme);
  }

  /** A single entry contributes its theme exactly when it is kept. */
  lemma KeepCachedSingle(item: Json)
    ensures KeepCached([item]) == if KeptEntry(item) then [ReadCachedTheme(item)] else []
  {
    assert [item][1..] == [];
  }

  /** The entry filter distributes over concatenation, so entry order is kept. */
  lemma KeepCachedAppend(a: seq<Json>, b: seq<Json>)
    ensures KeepCached(a + b) == KeepCached(a) + KeepCached(b)
  {
    KeepReadAppend(a, b, ReadCachedTheme);
  }

  /**
   * `DeserializeThemes`: `doc` is `None` when the file does not parse. A
   * document without a `themes` array leaves the current list alone;
   * otherwise the list is replaced by the listed entries, and the result is
   * whether any survived.
   */
  function DeserializeThemes(doc: Option<Json>, current: seq<Theme>): (r: ParseResult)
    ensures (doc.None? || Member(doc.value, "themes").None? || !Member(doc.value, "themes").value.Arr?)
            ==> r == ParseResult(false, current)
    ensures doc.Some? && Member(doc.value, "themes").Some? && Member(doc.value, "themes").value.Arr? ==>
      (r.ok <==> |r.themes| > 0) && forall i :: 0 <= i < |r.themes| ==> HasIdAndName(r.themes[i])
    ensures doc.Some? && Member(doc.value, "themes").Some? && Member(doc.value, "themes").value.Arr? ==>
      var kept := KeepCached(Member(doc.value, "themes").value.items);
      r == ParseResult(|kept| > 0, kept)
  {
    if doc.None? || !doc.value.Obj? then ParseResult(false, current)
    else
      match Member(doc.value, "themes")
      case Some(Arr(items)) =>
        var ts := KeepCached(items);
        ParseResult(|ts| > 0, ts)
      case _ => ParseResult(false, current)
  }

  /** `FieldOf` inverts `Key`, so distinct fields have distinct keys. */
  lemma FieldOfKey(f: Field)
    ensures FieldOf(Key(f)) == Some(f)
  {
  }

  lemma KeyInjective(f: Field, g: Field)
    requires Key(f) == Key(g)
    ensures f == g
  {
    FieldOfKey(f);
    FieldOfKey(g);
  }

  /**
   * In a field list followed by members whose names are no field's key,
   * every field is found again under its key.
   */
  lemma {:induction false} LookupFieldIn(v: Field -> Json, extra: seq<(string, Json)>, f: Field)
    requires forall k :: 0 <= k < |extra| ==> FieldOf(extra[k].0).None?
    ensures Lookup(FieldMembers(v) + extra, Key(f)) == Some(v(f))
  {
    var ms := FieldMembers(v) + extra;
    assert ms[Position(f)].0 == Key(f);
    var r := Lookup(ms, Key(f));
    LookupSpec(ms, Key(f));
    var i :| 0 <= i < |ms| && ms[i].0 == Key(f) && ms[i].1 == r.value;
    if i < |Fields| {
      KeyInjective(Fields[i], f);
    } else {
      FieldOfKey(f);
      assert false;
    }
  }

  /** No field member is named `tags`, so the tags are found exactly when written. */
  lemma {:induction false} LookupTagsIn(v: Field -> Json, tags: seq<string>)
    ensures Lookup(FieldMembers(v) + TagsMember(tags), "tags")
         == if |tags| > 0 then Some(Arr(TagValues(tags))) else None
  {
    var ms := FieldMembers(v) + TagsMember(tags);
    forall i | 0 <= i < |Fields|
      ensures ms[i].0 != "tags"
    {
      FieldOfKey(Fields[i]);
    }
    LookupSpec(ms, "tags");
    if |tags| > 0 {
      assert ms[|Fields|] == ("tags", Arr(TagValues(tags)));
      var i :| 0 <= i < |ms| && ms[i].0 == "tags" && ms[i].1 == Lookup(ms, "tags").value;
    }
  }

  /** `tags` names no field. */
  lemma TagsMemberIsNoField(tags: seq<string>)
    ensures forall k :: 0 <= k < |TagsMember(tags)| ==> FieldOf(TagsMember(tags)[k].0).None?
  {
    assert FieldOf("tags").None?;
  }

  lemma LookupField(t: Theme, f: Field)
    ensures Member(SerializeTheme(t), Key(f)) == Some(FieldValue(t, f))
  {
    TagsMemberIsNoField(t.tags);
    LookupFieldIn(ValuesOf(t), TagsMember(t.tags), f);
    assert ValuesOf(t)(f) == FieldValue(t, f);
  }

  lemma LookupTags(t: Theme)
    ensures Member(SerializeTheme(t), "tags") == if |t.tags| > 0 then Some(Arr(TagValues(t.tags))) else None
  {
    LookupTagsIn(ValuesOf(t), t.tags);
  }

  lemma {:induction false} CachedTagsRoundTrip(tags: seq<string>)
    requires forall i :: 0 <= i < |tags| ==> Lacks(tags[i], '\0')
    ensures CachedTags(TagValues(tags)) == tags
  {
    if |tags| > 0 {
      var items := TagValues(tags);
      assert items[1..] == TagValues(tags[1..]);
      CachedTagsRoundTrip(tags[1..]);
      assert CStr(tags[0]) == tags[0];
      assert [tags[0]] + tags[1..] == tags;
    }
  }

  /**
   * `get` yields every field of `t` under its key, each exactly as stored,
   * and `t`'s tags exactly when there are any.
   */
  predicate Carries(get: string -> Option<Json>, t: Theme) {
    && get(Key(IdField)) == Some(Str(t.id))
    && get(Key(ShortIdField)) == Some(Str(t.shortId))
    && get(Key(NameField)) == Some(Str(t.name))
    && get(Key(AuthorField)) == Some(Str(t.author))
    && get(Key(DescriptionField)) == Some(Str(t.description))
    && get(Key(DownloadsField)) == Some(Num(t.downloads))
    && get(Key(LikesField)) == Some(Num(t.likes))
    && get(Key(VersionField)) == Some(Str(t.version))
    && get(Key(UpdatedAtField)) == Some(Str(t.updatedAt))
    && get(Key(DownloadUrlField)) == Some(Str(t.downloadUrl))
    && get(Key(CollageThumbField)) == Some(Str(t.collagePreview.thumbUrl))
    && get(Key(CollageHdField)) == Some(Str(t.collagePreview.hdUrl))
    && get(Key(LauncherThumbField)) == Some(Str(t.launcherScreenshot.thumbUrl))
    && get(Key(LauncherHdField)) == Some(Str(t.launcherScreenshot.hdUrl))
    && get(Key(WaraWaraThumbField)) == Some(Str(t.waraWaraScreenshot.thumbUrl))
    && get(Key(WaraWaraHdField)) == Some(Str(t.waraWaraScreenshot.hdUrl))
    && get(Key(LauncherBgField)) == Some(Str(t.launcherBgUrl))
    && get(Key(WaraWaraBgField)) == Some(Str(t.waraWaraBgUrl))
    && get("tags") == if |t.tags| > 0 then Some(Arr(TagValues(t.tags))) else None
  }

  lemma SerializedCarriesNames(t: Theme)
    requires Storable(t)
    ensures Member(SerializeTheme(t), Key(IdField)) == Some(Str(t.id))
    ensures Member(SerializeTheme(t), Key(ShortIdField)) == Some(Str(t.shortId))
    ensures Member(SerializeTheme(t), Key(NameField)) == Some(Str(t.name))
    ensures Member(SerializeTheme(t), Key(AuthorField)) == Some(Str(t.author))
    ensures Member(SerializeTheme(t), Key(DescriptionField)) == Some(Str(t.description))
  {
    LookupField(t, IdField);
    LookupField(t, ShortIdField);
    LookupField(t, NameField);
    LookupField(t, AuthorField);
    LookupField(t, DescriptionField);
  }

  lemma SerializedCarriesDetails(t: Theme)
    requires Storable(t)
    ensures Member(SerializeTheme(t), Key(DownloadsField)) == Some(Num(t.downloads))
    ensures Member(SerializeTheme(t), Key(LikesField)) == Some(Num(t.likes))
    ensures Member(SerializeTheme(t), Key(VersionField)) == Some(Str(t.version))
    ensures Member(SerializeTheme(t), Key(UpdatedAtField)) == Some(Str(t.updatedAt))
    ensures Member(SerializeTheme(t), Key(DownloadUrlField)) == Some(Str(t.downloadUrl))
  {
    LookupField(t, DownloadsField);
    LookupField(t, LikesField);
    LookupField(t, VersionField);
    LookupField(t, UpdatedAtField);
    LookupField(t, DownloadUrlField);
  }

  lemma SerializedCarriesScreens(t: Theme)
    requires Storable(t)
    ensures Member(SerializeTheme(t), Key(CollageThumbField)) == Some(Str(t.collagePreview.thumbUrl))
    ensures Member(SerializeTheme(t), Key(CollageHdField)) == Some(Str(t.collagePreview.hdUrl))
    ensures Member(SerializeTheme(t), Key(LauncherThumbField)) == Some(Str(t.launcherScreenshot.thumbUrl))
    ensures Member(SerializeTheme(t), Key(LauncherHdField)) == Some(Str(t.launcherScreenshot.hdUrl))
  {
    LookupField(t, CollageThumbField);
    LookupField(t, CollageHdField);
    LookupField(t, LauncherThumbField);
    LookupField(t, LauncherHdField);
  }

  lemma SerializedCarriesBackgrounds(t: Theme)
    requires Storable(t)
    ensures Member(SerializeTheme(t), Key(WaraWaraThumbField)) == Some(Str(t.waraWaraScreenshot.thumbUrl))
    ensures Member(SerializeTheme(t), Key(WaraWaraHdField)) == Some(Str(t.waraWaraScreenshot.hdUrl))
    ensures Member(SerializeTheme(t), Key(LauncherBgField)) == Some(Str(t.launcherBgUrl))
    ensures Member(SerializeTheme(t), Key(WaraWaraBgField)) == Some(Str(t.waraWaraBgUrl))
  {
    LookupField(t, WaraWaraThumbField);
    LookupField(t, WaraWaraHdField);
    LookupField(t, LauncherBgField);
    LookupField(t, WaraWaraBgField);
  }

  /** The written object carries a storable theme. */
  lemma SerializedCarries(t: Theme)
    requires Storable(t)
    ensures Carries(MembersOf(SerializeTheme(t)), t)
  {
    SerializedCarriesNames(t);
    SerializedCarriesDetails(t);
    SerializedCarriesScreens(t);
    SerializedCarriesBackgrounds(t);
    LookupTags(t);
  }

  /** Any members carrying a storable theme read back as that theme. */
  lemma ReadCarried(get: string -> Option<Json>, t: Theme)
    requires Carries(get, t) && Storable(t)
    ensures ThemeFromMembers(get) == t
  {
    var r := ThemeFromMembers(get);
    StringBack(get(Key(IdField)), t.id);
    StringBack(get(Key(ShortIdField)), t.shortId);
    StringBack(get(Key(NameField)), t.name);
    StringBack(get(Key(AuthorField)), t.author);
    StringBack(get(Key(DescriptionField)), t.description);
    StringBack(get(Key(VersionField)), t.version);
    StringBack(get(Key(UpdatedAtField)), t.updatedAt);
    StringBack(get(Key(DownloadUrlField)), t.downloadUrl);
    assert r.collagePreview == t.collagePreview by {
      StringBack(get(Key(CollageThumbField)), t.collagePreview.thumbUrl);
      StringBack(get(Key(CollageHdField)), t.collagePreview.hdUrl);
    }
    assert r.launcherScreenshot == t.launcherScreenshot by {
      StringBack(get(Key(LauncherThumbField)), t.launcherScreenshot.thumbUrl);
      StringBack(get(Key(LauncherHdField)), t.launcherScreenshot.hdUrl);
    }
    assert r.waraWaraScreenshot == t.waraWaraScreenshot by {
      StringBack(get(Key(WaraWaraThumbField)), t.waraWaraScreenshot.thumbUrl);
      StringBack(get(Key(WaraWaraHdField)), t.waraWaraScreenshot.hdUrl);
    }
    StringBack(get(Key(LauncherBgField)), t.launcherBgUrl);
    StringBack(get(Key(WaraWaraBgField)), t.waraWaraBgUrl);
    assert r.tags == t.tags by {
      if |t.tags| > 0 {
        CachedTagsRoundTrip(t.tags);
      }
    }
  }

  /** A NUL-free string reads back as itself. */
  lemma StringBack(v: Option<Json>, x: string)
    requires v == Some(Str(x)) && Lacks(x, '\0')
    ensures StringOr(v, "") == x
  {
  }

  /** Reading a written theme back gives the same theme, field for field. */
  lemma ThemeRoundTrip(t: Theme)
    requires Storable(t)
    ensures ReadCachedTheme(SerializeTheme(t)) == t
  {
    SerializedCarries(t);
    ReadCarried(MembersOf(SerializeTheme(t)), t);
  }

  lemma KeepCachedRoundTrip(items: seq<Json>, ts: seq<Theme>)
    requires |items| == |ts|
    requires forall i :: 0 <= i < |ts| ==> items[i] == SerializeTheme(ts[i]) && Storable(ts[i]) && HasIdAndName(ts[i])
    ensures KeepCached(items) == ts
  {
    forall i | 0 <= i < |ts|
      ensures items[i].Obj? && HasIdAndName(ReadCachedTheme(items[i])) && ReadCachedTheme(items[i]) == ts[i]
    {
      ThemeRoundTrip(ts[i]);
    }
    KeepReadAllKept(items, ReadCachedTheme);
  }

  /**
   * Loading the saved cache restores the list exactly, and reports success
   * iff the list is non-empty, provided every theme is listed and storable.
   */
  lemma CacheRoundTrip(ts: seq<Theme>, current: seq<Theme>)
    requires forall i :: 0 <= i < |ts| ==> HasIdAndName(ts[i]) && Storable(ts[i])
    ensures DeserializeThemes(Some(SerializeThemes(ts)), current) == ParseResult(|ts| > 0, ts)
  {
    var doc := SerializeThemes(ts);
    KeepCachedRoundTrip(Member(doc, "themes").value.items, ts);
  }

  /** What a successful fetch puts in the list is exactly what the cache file brings back. */
  lemma FetchedThemesSurviveCache(doc: Option<Json>, current: seq<Theme>)
    ensures DeserializeThemes(Some(SerializeThemes(ParseThemezerResponse(doc).themes)), current)
         == ParseThemezerResponse(doc)
  {
    CacheRoundTrip(ParseThemezerResponse(doc).themes, current);
  }

  // ---------------------------------------------------------------------
  // CheckForUpdates

  /** The index of the first local theme with this id, as the `break` in the scan finds it. */
  function FindTheme(themes: seq<Theme>, id: string): (r: Option<nat>)
    ensures r.Some? ==> r.value < |themes| && themes[r.value].id == id
                        && forall k :: 0 <= k < r.value ==> themes[k].id != id
    ensures r.None? ==> forall k :: 0 <= k < |themes| ==> themes[k].id != id
  {
    if |themes| == 0 then None
    else if themes[0].id == id then Some(0)
    else
      match FindTheme(themes[1..], id)
      case None => None
      case Some(k) => Some(k + 1)
  }

  /** A remote (id, updatedAt) the local list lacks, or holds with another `updatedAt`. */
  predicate Stale(themes: seq<Theme>, id: string, updatedAt: string) {
    match FindTheme(themes, id)
    case None => true
    case Some(k) => themes[k].updatedAt != updatedAt
  }

  /** A remote node that announces an update: string `uuid` and `updatedAt`, and stale locally. */
  predicate Signals(themes: seq<Theme>, node: Json) {
    && node.Obj?
    && Member(node, "uuid").Some? && Member(node, "uuid").value.Str?
    && Member(node, "updatedAt").Some? && Member(node, "updatedAt").value.Str?
    && Stale(themes, CStr(Member(node, "uuid").value.s), CStr(Member(node, "updatedAt").value.s))
  }

  /**
   * The scan over the remote nodes, stopping at the first that signals an
   * update. `HasMember` on a node that is not an object is undefined.
   */
  function ScanNodes(themes: seq<Theme>, nodes: seq<Json>): (r: Outcome<bool>)
    ensures r.Done? ==> (r.value <==> exists i :: 0 <= i < |nodes| && Signals(themes, nodes[i]))
    ensures (forall i :: 0 <= i < |nodes| ==> nodes[i].Obj?) ==> r.Done?
  {
    if |nodes| == 0 then Done(false)
    else if !nodes[0].Obj? then Undefined
    else if Signals(themes, nodes[0]) then Done(true)
    else
      var r := ScanNodes(themes, nodes[1..]);
      assert forall i :: 1 <= i < |nodes| ==> nodes[i] == nodes[1..][i - 1];
      r
  }

  /** What `FetchUrl` and the parser yield for the update query. */
  datatype UpdateResponse =
    | NoResponse          // curl failure, HTTP status other than 200, or an empty body
    | Unparsable          // `HasParseError`
    | Parsed(root: Json)

  /**
   * `data.wiiuThemes.nodes` of the response, `None` on every path that
   * returns early, `Undefined` where `HasMember` meets a non-object.
   */
  function UpdateNodes(resp: UpdateResponse): (r: Outcome<Option<seq<Json>>>)
    ensures !resp.Parsed? || !resp.root.Obj? ==> r == Done(None)
  {
    match resp
    case NoResponse => Done(None)
    case Unparsable => Done(None)
    case Parsed(root) =>
      if !root.Obj? then Done(None)
      else
        match Member(root, "data")
        case None => Done(None)
        case Some(data) =>
          if !data.Obj? then Undefined
          else
            match Member(data, "wiiuThemes")
            case None => Done(None)
            case Some(w) =>
              if !w.Obj? then Undefined
              else
                match Member(w, "nodes")
                case Some(Arr(items)) => Done(Some(items))
                case _ => Done(None)
  }

  datatype UpdateCheck = UpdateCheck(checking: bool, hasUpdates: bool)

  /**
   * `CheckForUpdates`: nothing happens while a check runs or when the list
   * is empty; otherwise the flag is cleared, the answer scanned, and
   * `checking` is false again on every way out.
   */
  function CheckForUpdates(state: UpdateCheck, themes: seq<Theme>, resp: UpdateResponse): (r: Outcome<UpdateCheck>)
    ensures state.checking || |themes| == 0 ==> r == Done(state)
    ensures !state.checking && |themes| > 0 && r.Done? ==> !r.value.checking
    ensures !state.checking && |themes| > 0 && r.Done? ==>
      (r.value.hasUpdates <==>
        UpdateNodes(resp).Done? && UpdateNodes(resp).value.Some? &&
        exists i :: 0 <= i < |UpdateNodes(resp).value.value| && Signals(themes, UpdateNodes(resp).value.value[i]))
  {
    if state.checking || |themes| == 0 then Done(state)
    else
      var nodes :- UpdateNodes(resp);
      match nodes
      case None => Done(UpdateCheck(false, false))
      case Some(items) =>
        var found :- ScanNodes(themes, items);
        Done(UpdateCheck(false, found))
  }

  /** A remote theme the list does not hold is reported as an update. */
  lemma UnknownThemeIsUpdate(themes: seq<Theme>, node: Json, id: string, updatedAt: string)
    requires node.Obj? && Member(node, "uuid") == Some(Str(id)) && Member(node, "updatedAt") == Some(Str(updatedAt))
    requires forall k :: 0 <= k < |themes| ==> themes[k].id != CStr(id)
    ensures Signals(themes, node)
  {
  }

  /** A list that already holds every remote theme at its remote `updatedAt` reports none. */
  lemma CurrentListHasNoUpdates(themes: seq<Theme>, nodes: seq<Json>)
    requires |themes| > 0
    requires forall i :: 0 <= i < |nodes| ==> nodes[i].Obj?
    requires forall i :: 0 <= i < |nodes| ==> !Signals(themes, nodes[i])
    ensures CheckForUpdates(UpdateCheck(false, false), themes,
              Parsed(Obj([("data", Obj([("wiiuThemes", Obj([("nodes", Arr(nodes))]))]))])))
         == Done(UpdateCheck(false, false))
  {
    var w := Obj([("nodes", Arr(nodes))]);
    var data := Obj([("wiiuThemes", w)]);
    var root := Obj([("data", data)]);
    assert Member(root, "data") == Some(data);
    assert Member(data, "wiiuThemes") == Some(w);
    assert Member(w, "nodes") == Some(Arr(nodes));
    assert UpdateNodes(Parsed(root)) == Done(Some(nodes));
  }

  // ---------------------------------------------------------------------
  // IsCacheValid

  const CacheValiditySeconds: int := 24 * 60 * 60

  /** `IsCacheValid`: the cache file exists and was written less than a day ago, not in the future. */
  function IsCacheValid(fileExists: bool, now: int, mtime: int): (valid: bool)
    ensures valid <==> fileExists && mtime <= now < mtime + CacheValiditySeconds
  {
    var age := now - mtime;
    fileExists && age >= 0 && age < CacheValiditySeconds
  }

  /**
   * A cache file stays valid for the 86400 seconds that start at its
   * modification time, and is never valid when it is missing or dated in
   * the future.
   */
  lemma CacheLifetime(mtime: int)
    ensures IsCacheValid(true, mtime, mtime)
    ensures IsCacheValid(true, mtime + 86399, mtime)
    ensures !IsCacheValid(true, mtime + 86400, mtime)
    ensures !IsCacheValid(true, mtime - 1, mtime)
    ensures forall now :: !IsCacheValid(false, now, mtime)
  {
  }
}

=== FILE: theme_downloads.dfy ===
/**
 * The two asynchronous jobs of `ThemeManager`, reduced to the sequential
 * steps the main loop sees: the catalogue fetch with its state machine, and
 * the theme downloader with its deferred disposal.
 */
module ThemeDownloads {
  import opened Common
  import opened Json
  import opened ThemeCatalog

  // ---------------------------------------------------------------------
  // The catalogue fetch

  datatype FetchState = FetchIdle | FetchInProgress | FetchSuccess | FetchError

  /** One call of the state callback. */
  datatype Notice = Notice(state: FetchState, message: string)

  /** The fetch part of the manager; `fetchPending` is "a request sits in the download queue". */
  datatype Fetcher = Fetcher(state: FetchState, errorMessage: string, themes: seq<Theme>, fetchPending: bool)

  /** A request is queued exactly while the state says the fetch is in progress. */
  predicate FetchInvariant(c: Fetcher) {
    c.fetchPending <==> c.state == FetchInProgress
  }

  const InitialFetcher := Fetcher(FetchIdle, "", [], false)

  datatype FetchStep = FetchStep(after: Fetcher, notices: seq<Notice>)

  /**
   * `FetchThemes`: ignored while a fetch runs; otherwise it announces the
   * fetch and queues the request, or fails when there is no queue.
   */
  function FetchThemes(c: Fetcher, queueReady: bool): (r: FetchStep)
    requires FetchInvariant(c)
    ensures FetchInvariant(r.after)
    ensures c.state == FetchInProgress ==> r == FetchStep(c, [])
    ensures c.state != FetchInProgress && queueReady ==> r.after.state == FetchInProgress && r.after.errorMessage == ""
    ensures c.state != FetchInProgress && !queueReady ==>
      r.after.state == FetchError && r.after.errorMessage == "DownloadQueue not initialized"
    ensures r.after.themes == c.themes
    ensures c.state != FetchInProgress ==>
      |r.notices| > 0 && r.notices[0] == Notice(FetchInProgress, "Fetching themes...")
      && r.notices[|r.notices| - 1].state == r.after.state
      && (queueReady ==> |r.notices| == 1)
      && (!queueReady ==> r.notices == [r.notices[0], Notice(FetchError, r.after.errorMessage)])
  {
    if c.state == FetchInProgress then FetchStep(c, [])
    else
      var started := Notice(FetchInProgress, "Fetching themes...");
      if !queueReady then
        var msg := "DownloadQueue not initialized";
        FetchStep(c.(state := FetchError, errorMessage := msg), [started, Notice(FetchError, msg)])
      else
        FetchStep(c.(state := FetchInProgress, errorMessage := "", fetchPending := true), [started])
  }

  /** What the queue hands the completion callback; `document` is the body as the JSON parser reads it. */
  datatype FetchResult = FetchResult(complete: bool, body: string, document: Option<Json>)

  /**
   * The completion callback: a complete, non-empty answer is parsed (the
   * list is replaced even when parsing fails); anything else is a network
   * error that leaves the list alone.
   */
  function OnFetchComplete(c: Fetcher, res: FetchResult): (r: FetchStep)
    requires c.fetchPending
    ensures !r.after.fetchPending && FetchInvariant(r.after)
    ensures r.after.state == FetchSuccess <==> res.complete && res.body != "" && ParseThemezerResponse(res.document).ok
    ensures r.after.state != FetchSuccess ==> r.after.state == FetchError
    ensures !(res.complete && res.body != "") ==> r.after.errorMessage == "Network request failed" && r.after.themes == c.themes
    ensures res.complete && res.body != "" ==> r.after.themes == ParseThemezerResponse(res.document).themes
    ensures r.after.state == FetchSuccess ==> |r.after.themes| > 0
    ensures res.complete && res.body != "" && r.after.state != FetchSuccess ==>
      r.after.errorMessage == "Failed to parse theme data"
    ensures r.notices == [if r.after.state == FetchSuccess then Notice(FetchSuccess, "Themes loaded successfully")
                          else Notice(FetchError, r.after.errorMessage)]
  {
    if res.complete && res.body != "" then
      var parsed := ParseThemezerResponse(res.document);
      if parsed.ok then
        FetchStep(c.(state := FetchSuccess, themes := parsed.themes, fetchPending := false),
                  [Notice(FetchSuccess, "Themes loaded successfully")])
      else
        var msg := "Failed to parse theme data";
        FetchStep(c.(state := FetchError, errorMessage := msg, themes := parsed.themes, fetchPending := false),
                  [Notice(FetchError, msg)])
    else
      var msg := "Network request failed";
      FetchStep(c.(state := FetchError, errorMessage := msg, fetchPending := false), [Notice(FetchError, msg)])
  }

  /** A second fetch requested while the first is queued neither queues nor announces anything. */
  lemma NoSecondFetchWhilePending(c: Fetcher, queueReady: bool, again: bool)
    requires FetchInvariant(c)
    requires queueReady && c.state != FetchInProgress
    ensures FetchThemes(FetchThemes(c, queueReady).after, again) == FetchStep(FetchThemes(c, queueReady).after, [])
  {
  }

  /** A fetch run to completion leaves the manager ready to fetch again. */
  lemma FetchRoundCompletes(c: Fetcher, res: FetchResult)
    requires FetchInvariant(c) && c.state != FetchInProgress
    ensures var s := FetchThemes(c, true).after;
      s.fetchPending && OnFetchComplete(s, res).after.state != FetchInProgress
  {
  }

  /** What the fetcher sees: a request from the screens, or the queue's answer to the queued request. */
  datatype FetchEvent = Ask(queueReady: bool) | Answer(result: FetchResult)

  /** The fetcher after a run, with the number of requests it queued and of answers it took. */
  datatype FetchRun = FetchRun(after: Fetcher, queued: nat, answered: nat)

  /**
   * Runs events in order. A request is queued when it moves the fetcher
   * into the pending state; an answer with no request in the queue has no
   * one to send it and is dropped.
   */
  function RunFetches(c: Fetcher, events: seq<FetchEvent>): (r: FetchRun)
    requires FetchInvariant(c)
    ensures FetchInvariant(r.after)
    decreases |events|
  {
    if |events| == 0 then FetchRun(c, 0, 0)
    else
      match events[0]
      case Ask(ready) =>
        var s := FetchThemes(c, ready).after;
        var rest := RunFetches(s, events[1..]);
        FetchRun(rest.after, rest.queued + (if s.fetchPending && !c.fetchPending then 1 else 0), rest.answered)
      case Answer(res) =>
        if !c.fetchPending then RunFetches(c, events[1..])
        else
          var rest := RunFetches(OnFetchComplete(c, res).after, events[1..]);
          FetchRun(rest.after, rest.queued, rest.answered + 1)
  }

  /**
   * Whatever the order of requests and answers, every queued request gets
   * exactly one answer and at most one is outstanding at a time; the list
   * changes only through answers.
   */
  lemma {:induction false} FetchRunAlternates(c: Fetcher, events: seq<FetchEvent>)
    requires FetchInvariant(c)
    ensures var r := RunFetches(c, events);
      (if c.fetchPending then 1 else 0) + r.queued == r.answered + (if r.after.fetchPending then 1 else 0)
    ensures RunFetches(c, events).answered == 0 ==> RunFetches(c, events).after.themes == c.themes
    decreases |events|
  {
    if |events| > 0 {
      match events[0]
      case Ask(ready) =>
        FetchRunAlternates(FetchThemes(c, ready).after, events[1..]);
      case Answer(res) =>
        if c.fetchPending {
          FetchRunAlternates(OnFetchComplete(c, res).after, events[1..]);
        } else {
          FetchRunAlternates(c, events[1..]);
        }
    }
  }

  // ---------------------------------------------------------------------
  // The theme downloader and its deferred disposal

  /**
   * What a downloader reports. `DownloadBusy` stands for every state
   * between start and end; the end states trigger disposal.
   */
  datatype DownloadState = DownloadIdle | DownloadBusy | DownloadComplete | DownloadError | DownloadCancelled

  predicate Finished(s: DownloadState) {
    s == DownloadComplete || s == DownloadError || s == DownloadCancelled
  }

  /**
   * The downloader slot. `created`, `deleted` and `leaked` count the
   * downloader objects over the manager's life.
   */
  datatype Slot = Slot(hasDownloader: bool, needsCleanup: bool, reported: DownloadState,
                       created: nat, deleted: nat, leaked: nat)

  /**
   * The flag is only ever raised for a live downloader, and every
   * downloader ever made is deleted, leaked, or the one in the slot.
   */
  predicate SlotInvariant(d: Slot) {
    && (d.needsCleanup ==> d.hasDownloader)
    && d.created == d.deleted + d.leaked + (if d.hasDownloader then 1 else 0)
  }

  const EmptySlot := Slot(false, false, DownloadIdle, 0, 0, 0)

  /** The download request handed to the new downloader. */
  datatype Request = Request(url: string, name: string, themeId: string)

  datatype DownloadStart = DownloadStart(after: Slot, request: Option<Request>, notices: seq<Notice>)

  /**
   * `DownloadTheme`: an empty URL only reports an error; otherwise any
   * previous downloader is cancelled and deleted at once, and a fresh one
   * is started with the short id when there is one.
   */
  function DownloadTheme(d: Slot, theme: Theme): (r: DownloadStart)
    requires SlotInvariant(d)
    ensures SlotInvariant(r.after)
    ensures theme.downloadUrl == "" ==> r == DownloadStart(d, None, [Notice(FetchError, "Download URL is empty")])
    ensures theme.downloadUrl != "" ==>
      && r.after.hasDownloader && !r.after.needsCleanup
      && r.after.created == d.created + 1
      && r.after.deleted == d.deleted + (if d.hasDownloader then 1 else 0)
      && r.after.leaked == d.leaked
      && r.request == Some(Request(theme.downloadUrl, theme.name, if theme.shortId == "" then theme.id else theme.shortId))
  {
    if theme.downloadUrl == "" then
      DownloadStart(d, None, [Notice(FetchError, "Download URL is empty")])
    else
      var disposed := if d.hasDownloader then d.(hasDownloader := false, needsCleanup := false, deleted := d.deleted + 1)
                      else d;
      var themeId := if theme.shortId == "" then theme.id else theme.shortId;
      DownloadStart(
        disposed.(hasDownloader := true, needsCleanup := false, reported := DownloadIdle, created := disposed.created + 1),
        Some(Request(theme.downloadUrl, theme.name, themeId)),
        [])
  }

  /**
   * The downloader's state callback: it records the state and, on an end
   * state, only raises the cleanup flag; deleting from inside the callback
   * would free the object whose method is running.
   */
  function OnDownloadState(d: Slot, s: DownloadState, message: string): (r: (Slot, seq<Notice>))
    requires SlotInvariant(d) && d.hasDownloader
    ensures SlotInvariant(r.0)
    ensures r.0.needsCleanup <==> d.needsCleanup || Finished(s)
    ensures r.0.hasDownloader && r.0.deleted == d.deleted && r.0.created == d.created
    ensures s == DownloadComplete ==> r.1 == [Notice(FetchSuccess, message)]
    ensures s == DownloadError || s == DownloadCancelled ==> r.1 == [Notice(FetchError, message)]
    ensures !Finished(s) ==> r.1 == []
  {
    var d' := d.(reported := s);
    if s == DownloadComplete then (d'.(needsCleanup := true), [Notice(FetchSuccess, message)])
    else if s == DownloadError || s == DownloadCancelled then (d'.(needsCleanup := true), [Notice(FetchError, message)])
    else (d', [])
  }

  /**
   * `GetDownloadState`, the poll from the main loop: a flagged downloader is
   * deleted here, once, and the poll answers idle; otherwise it answers the
   * downloader's own state, or idle without one.
   */
  function PollDownloadState(d: Slot): (r: (Slot, DownloadState))
    requires SlotInvariant(d)
    ensures SlotInvariant(r.0)
    ensures d.needsCleanup ==>
      && !r.0.hasDownloader && !r.0.needsCleanup && r.0.deleted == d.deleted + 1 && r.1 == DownloadIdle
    ensures !d.needsCleanup ==> r.0 == d
    ensures !d.needsCleanup && d.hasDownloader ==> r.1 == d.reported
    ensures !d.hasDownloader ==> r.1 == DownloadIdle
  {
    if d.needsCleanup && d.hasDownloader then
      (d.(hasDownloader := false, needsCleanup := false, deleted := d.deleted + 1), DownloadIdle)
    else if d.hasDownloader then
      (d, d.reported)
    else
      (d, DownloadIdle)
  }

  /**
   * The destructor cancels the downloader but does not delete it (deleting
   * blocks on the console); the object is left to process exit.
   */
  function Dispose(d: Slot): (r: Slot)
    requires SlotInvariant(d)
    ensures !r.hasDownloader && r.deleted == d.deleted
    ensures r.leaked == d.leaked + (if d.hasDownloader then 1 else 0)
    ensures r.created == r.deleted + r.leaked
  {
    if d.hasDownloader then d.(hasDownloader := false, leaked := d.leaked + 1) else d
  }

  /** Polling again after the deferred delete deletes nothing more and still answers idle. */
  lemma SecondPollDeletesNothing(d: Slot)
    requires SlotInvariant(d) && d.needsCleanup
    ensures var once := PollDownloadState(d).0;
      PollDownloadState(once).0 == once && PollDownloadState(once).1 == DownloadIdle
      && once.deleted == d.deleted + 1
  {
  }

  /** The events the main loop can see on the slot, in any order. */
  datatype SlotEvent =
    | Start(theme: Theme)
    | Report(state: DownloadState, message: string)
    | Poll

  /** Runs events; a report with no downloader in the slot has no one to send it and is dropped. */
  function RunSlot(d: Slot, events: seq<SlotEvent>): (r: Slot)
    requires SlotInvariant(d)
    ensures SlotInvariant(r)
    ensures r.deleted + r.leaked <= r.created
    ensures r.created >= d.created && r.deleted >= d.deleted
    decreases |events|
  {
    if |events| == 0 then d
    else
      var next := match events[0]
        case Start(t) => DownloadTheme(d, t).after
        case Report(s, m) => if d.hasDownloader then OnDownloadState(d, s, m).0 else d
        case Poll => PollDownloadState(d).0;
      RunSlot(next, events[1..])
  }

  /** Every downloader is deleted at most once: deletions never outrun creations, whatever the order of events. */
  lemma {:induction false} NoDoubleDelete(events: seq<SlotEvent>)
    ensures RunSlot(EmptySlot, events).deleted <= RunSlot(EmptySlot, events).created
    ensures Dispose(RunSlot(EmptySlot, events)).created
         == Dispose(RunSlot(EmptySlot, events)).deleted + Dispose(RunSlot(EmptySlot, events)).leaked
  {
  }
}
